=== FILE: README.md ===
# CrimeLogix record and case core, in Dafny

This project models the record/case backend of CrimeLogix, a crime-records
management service built on Express and MySQL. The core is the
`caserecords` table and its approval workflow (pending, then approved or
rejected by an administrator). Around it sit:

- the case model and case controller;
- the victim, suspect, evidence and witness models, whose `create` can link
  the new row into an existing record;
- the record-input validator;
- authentication and the role check;
- the record and case route tables;
- the central error middleware;
- the account rules of the auth controller (registration with a one-time
  code, code verification, login, password reset and password update).

The database is an immutable value (`Schema.Db`). It holds seven tables,
each a map from auto-increment keys to rows plus the next key to hand out.
Every handler is a pure function of the database, the request, the clock
(`now`) and the current principal. It returns the new database and what the
handler does with the response: `Sent(status, body)`, or `Next(error)`, which
passes an error to the error middleware. JavaScript truthiness is kept
explicit:

- `Truthy` treats an absent string and `""` as missing;
- `Present` treats an absent key and `0` as missing;
- `OrElse` and `OrNull` are `x || default` and `x || null`.

Modules follow the program's files:

- `Tables`, `Schema`, `Errors`;
- `RecordQuery`, the `WHERE` / `ORDER BY` / `LIMIT` machinery;
- `RecordModel`, `CaseModel`, `VictimModel`, `SuspectModel`,
  `EvidenceModel`, `WitnessModel`;
- `ValidateInput`, `AuthMiddleware`, `Routes`;
- `RecordController`, `CaseController`, `AuthController`;
- `Workflow`, which holds lemmas relating several record operations.

In four places the code does something a reader might not expect; the
model follows the code:

- **Approval is final only for approve and reject.** A decided record
  refuses both approve and reject. `updateRecord` can still overwrite
  `approvalStatus` with any value (`Workflow.UpdateReopensDecided`).
- **The composite create commits step by step.** It commits each step on its
  own instead of in one transaction. It also leaves two records for the new
  case: the one `Case.create` opens and the main one
  (`RecordController.CompleteRecordLeavesTwoRecords`).
- **A NULL approval status is treated as pending.** The `Record`
  constructor turns a NULL or empty `approvalStatus` into `'pending'`, so
  such a record passes the approval guard. The statistics query does not
  count it as pending (`Workflow.NullApprovalIsApprovableButUncounted`).
- **The listing's total ignores the filters.** `totalRecords` counts every
  record, whichever filters select the page.

Hashing (`bcrypt.hash`), password comparison (`bcrypt.compare`), the
SHA-256 digest of reset tokens and token verification (`jwt.verify`) are
function parameters. The random verification code is an argument, and
`NOW()` is the `now` argument in milliseconds. A failing database statement
is an optional `fault` argument of the handler that issues it.

## Model

| member | source | states |
|---|---|---|
| Tables.Insert | server/models/recordmodel.js:53-69 | an auto-increment insert puts the row under a key no row had, leaves every other row alone and keeps keys below the counter |
| Tables.FirstWhere | server/controllers/authController.js:96-105 | `users[0]` of a `SELECT ... WHERE`: the lowest key whose row matches, and no match at all exactly when no row matches |
| Errors.FirstMatch | server/middlewares/errormiddlewares.js:13-51 | the reference reading of the rule chain: the first rule that matches, and none only when no rule matches |
| Errors.WithDefaults | server/middlewares/errormiddlewares.js:9-10 | a falsy status becomes 500 and an empty message "Internal Server Error"; present ones are kept |
| Errors.ErrorMiddleware | server/middlewares/errormiddlewares.js:54-57 | the reply body always has `success: false` |
| Errors.ApplyAll | server/middlewares/errormiddlewares.js:13-51 | the ten `if`s in sequence: an error no rule matches passes unchanged, and otherwise the result is a fresh `ErrorHandler` (plain name, no driver code) |
| Errors.ApplyAllIsFirstMatch | server/middlewares/errormiddlewares.js:13-51 | the ten sequential `if (...) err = new ErrorHandler(...)` statements act as a first-match table, because a replacement never matches a later rule |
| Errors.InertAfterReplacement | server/middlewares/errormiddlewares.js:1-6 | an `ErrorHandler` (name "Error", no driver code) passes through every rule unchanged |
| Errors.FirstMatchAt | server/middlewares/errormiddlewares.js:13-51 | the first-match table picks rule i exactly when it matches and no earlier rule does |
| Errors.MiddlewareTranslates | server/middlewares/errormiddlewares.js:8-57 | the middleware's reply is the envelope of the first matching rule's replacement of the defaulted error |
| Errors.DriverCodesAre400 | server/middlewares/errormiddlewares.js:13-27 | each of the five MySQL codes becomes a 400 with its own fixed message, whatever the error's name |
| Errors.InvalidTokenIs401 | server/middlewares/errormiddlewares.js:30-32 | a `JsonWebTokenError` becomes 401 "Invalid token. Please log in again." |
| Errors.ExpiredTokenIs401 | server/middlewares/errormiddlewares.js:33-35 | a `TokenExpiredError` becomes 401 "Token expired. Please log in again." |
| Errors.ConnectionRefusedIs503 | server/middlewares/errormiddlewares.js:49-51 | a refused database connection becomes 503 "Database connection failed" |
| Errors.ValidationErrorJoins | server/middlewares/errormiddlewares.js:38-41 | a validation error becomes a 400 whose message is its messages joined by ", " |
| Errors.UnrecognisedErrorsKeepStatus | server/middlewares/errormiddlewares.js:8-10 | an error no rule recognises keeps its own status and message, with 500 and "Internal Server Error" standing in for missing ones |
| Errors.HandlerErrorRoundTrip | server/middlewares/errormiddlewares.js:1-6 | `next(new ErrorHandler(m, s))` reaches the client as exactly status s and message m |
| RecordQuery.Entries | server/models/recordmodel.js:92-108 | the result set holds exactly the stored rows, each once, by ascending key |
| RecordQuery.Where | server/controllers/recordController.js:196-216 | a `WHERE` keeps exactly the entries whose row satisfies the condition |
| RecordQuery.SortNewest | server/models/recordmodel.js:106 | `ORDER BY dateCreated DESC` is a permutation of its input, newest first |
| RecordQuery.Listing | server/controllers/recordController.js:216-226 | a filtered listing holds every selected row exactly once and nothing else, newest first |
| RecordQuery.Slice | server/controllers/recordController.js:222-226 | `LIMIT l OFFSET o` holds at most l rows, those from position o on, and none past the end |
| RecordQuery.CountWhere | server/controllers/recordController.js:350-360 | `COUNT(CASE WHEN p THEN 1 END)` is the number of keys whose row satisfies p, and never more than the row count |
| RecordQuery.CountWhereInsert | server/controllers/recordController.js:350-360 | an empty table counts nothing; a row added under a new key raises the count by one exactly when it satisfies the condition |
| RecordQuery.CountDistinct | server/controllers/recordController.js:350-360 | `COUNT(DISTINCT column)` is the number of different non-NULL values the column holds, and never more than the rows holding one |
| RecordQuery.CountDistinctInsert | server/controllers/recordController.js:357-358 | a row added under a new key raises the distinct count by one exactly when it holds a value no other row holds |
| RecordQuery.ValuesOfInsert | server/controllers/recordController.js:357-358 | the distinct values after adding a row are those before plus the row's own, if any |
| RecordModel.Construct | server/models/recordmodel.js:4-28 | a falsy officer becomes NULL, a falsy status or approval status becomes `'pending'`, every other column is copied |
| RecordModel.FindById | server/models/recordmodel.js:72-90 | null exactly when no row has the key, else the constructed row |
| RecordModel.NewRow | server/models/recordmodel.js:53-67 | `create` stores a falsy victim or suspect as NULL, defaults status and approval status to `'pending'`, and writes no evidence, witness or approval columns |
| RecordModel.Create | server/models/recordmodel.js:53-70 | one row added under a fresh key, no other row changed, returned as read back |
| RecordModel.Save | server/models/recordmodel.js:30-51 | only the six object columns and `lastUpdated` of that one row are written; creator, links, approval date, approver and reason are unchanged; approval status is written with no guard |
| RecordModel.SaveAfterLoad | server/models/recordmodel.js:4-51 | a load followed by save writes the constructor defaults back and keeps the evidence and witness links |
| RecordModel.SaveAfterLoadIsStable | server/models/recordmodel.js:4-51 | a second load-and-save writes the same row again, up to the clock |
| RecordModel.FindAll | server/models/recordmodel.js:92-110 | every row constructed, newest `dateCreated` first |
| RecordModel.FindAllIsComplete | server/models/recordmodel.js:92-110 | a record is listed by `findAll` exactly when it is stored |
| RecordModel.FindAllNewestFirst | server/models/recordmodel.js:106 | `findAll` is ordered newest first |
| RecordModel.DeleteById | server/models/recordmodel.js:112-115 | that record is gone and every other record is found as before |
| RecordModel.BackFill | server/models/victimmodel.js:51-61 | the linking `UPDATE` changes one link column and `lastUpdated` of the target record only; an unknown target changes nothing |
| RecordModel.LinkKeepsWorkflow | server/models/victimmodel.js:52-55 | linking a child keeps every record's case, officer, creator, status and approval columns |
| CaseModel.NewCase | server/models/casemodel.js:39-47 | a falsy status becomes `'pending'`, a falsy priority `'low'`, a falsy officer NULL; the descriptive fields are as given |
| CaseModel.OpeningRecord | server/models/casemodel.js:52-63 | the record a new case opens points at the case and its officer, is `'active'` and `'pending'`, and links nothing else |
| CaseModel.Create | server/models/casemodel.js:28-74 | a failing insert or commit rolls both inserts back and rethrows; a failing read-back after the commit rethrows but keeps the new case and its record; otherwise exactly one case and one record are added and no other table changes |
| CaseModel.FailedReadBackKeepsCase | server/models/casemodel.js:65-71 | when `Case.findById` throws after the commit, the rollback undoes nothing: the database is the one a successful create leaves |
| CaseModel.FindAll | server/models/casemodel.js:17-20 | exactly the stored cases, by ascending key |
| CaseModel.FindById | server/models/casemodel.js:22-26 | null exactly when no case has the key |
| CaseModel.Save | server/models/casemodel.js:77-95 | the case's descriptive fields and officer come from the object, `updatedAt` is the clock, `createdAt` and every other case are kept |
| CaseModel.DeleteById | server/models/casemodel.js:97-99 | only that case is removed and `caserecords` is not touched |
| CaseModel.CreateThenFind | server/models/casemodel.js:28-74 | a created case is found again under the returned key |
| CaseModel.CreateOpensOnePendingRecord | server/models/casemodel.js:52-63 | when every stored record refers to an issued case key (`updateRecord` can break this, see Left out), a new case has exactly one record, pending and carrying the case's officer |
| CaseModel.CreateKeepsCaseRefsIssued | server/models/casemodel.js:28-74 | creating a case keeps every record's case reference among the issued case keys |
| VictimModel.Create | server/models/victimmodel.js:34-64 | one victim added as given; with a truthy target, that record is linked to it and nothing else changes; without one `caserecords` is untouched |
| VictimModel.FindById | server/models/victimmodel.js:68-72 | null exactly when no victim has the key |
| VictimModel.Save | server/models/victimmodel.js:16-31 | the five victim fields and `updatedAt` of that victim only |
| VictimModel.DeleteById | server/models/victimmodel.js:81-83 | only that victim is removed |
| VictimModel.CreateThenFind | server/models/victimmodel.js:40-48 | a created victim is found again under its key |
| VictimModel.SaveAfterLoad | server/models/victimmodel.js:16-31 | a load followed by save changes only `updatedAt` |
| SuspectModel.Create | server/models/suspectmodel.js:32-63 | one suspect added as given; with a truthy target, that record is linked to it; without one `caserecords` is untouched |
| SuspectModel.FindById | server/models/suspectmodel.js:65-69 | null exactly when no suspect has the key |
| SuspectModel.Save | server/models/suspectmodel.js:15-30 | the five suspect fields and `updatedAt` of that suspect only |
| SuspectModel.DeleteById | server/models/suspectmodel.js:76-78 | only that suspect is removed |
| SuspectModel.CreateThenFind | server/models/suspectmodel.js:38-46 | a created suspect is found again under its key |
| SuspectModel.SaveAfterLoad | server/models/suspectmodel.js:15-30 | a load followed by save changes only `updatedAt` |
| EvidenceModel.Create | server/models/evidencemodel.js:28-61 | one evidence row added as given; with a truthy target, that record is linked to it; without one `caserecords` is untouched |
| EvidenceModel.FindById | server/models/evidencemodel.js:22-26 | null exactly when no evidence has the key |
| EvidenceModel.Save | server/models/evidencemodel.js:64-82 | the seven evidence fields and `updatedAt` of that row only |
| EvidenceModel.DeleteById | server/models/evidencemodel.js:84-86 | only that evidence row is removed |
| EvidenceModel.CreateThenFind | server/models/evidencemodel.js:35-45 | created evidence is found again under its key |
| EvidenceModel.SaveAfterLoad | server/models/evidencemodel.js:64-82 | a load followed by save changes only `updatedAt` |
| WitnessModel.Create | server/models/witnessmodel.js:32-63 | as written: with a truthy target, the record whose key equals the new witness's key is the one linked |
| WitnessModel.CreateIntended | server/models/witnessmodel.js:50-60 | corrected: with a truthy target, the named record is linked to the new witness |
| WitnessModel.FindById | server/models/witnessmodel.js:66-70 | null exactly when no witness has the key |
| WitnessModel.Save | server/models/witnessmodel.js:15-30 | the five witness fields and `updatedAt` of that witness only |
| WitnessModel.DeleteById | server/models/witnessmodel.js:77-79 | only that witness is removed |
| WitnessModel.CreateThenFind | server/models/witnessmodel.js:39-47 | a created witness is found again under its key |
| WitnessModel.SaveAfterLoad | server/models/witnessmodel.js:15-30 | a load followed by save changes only `updatedAt` |
| WitnessModel.WitnessBackFillMissesTarget | server/models/witnessmodel.js:56-59 | on a concrete database the named record stays unlinked, while the corrected create links it |
| WitnessModel.CreateIntendedLinksTarget | server/models/witnessmodel.js:50-60 | for every database the corrected create links exactly the named record |
| WitnessModel.CreateLinksTargetOnlyByCoincidence | server/models/witnessmodel.js:56-59 | the written create links the named record only when its key equals the witness table's counter |
| ValidateInput.Problems | server/middlewares/validateInput.js:8-16 | missing case details give one problem and skip the field checks; otherwise each missing field in order; a missing officer adds its problem independently |
| ValidateInput.ValidateRecordInput | server/middlewares/validateInput.js:3-23 | the request continues exactly when there is no problem; otherwise one 400 carries every message joined by ", " |
| ValidateInput.RejectionReachesClient | server/middlewares/validateInput.js:18-20 | a rejection reaches the client as a 400 beginning with the first problem's message |
| ValidateInput.MissingDetailsSkipsFieldChecks | server/middlewares/validateInput.js:8-9 | with no case details only the missing-details and missing-officer messages can appear |
| AuthMiddleware.IsAuthenticated | server/middlewares/authMiddleware.js:6-22 | a missing token is a 401, a rejected token stops with the library's error, an unknown user is a 404, and otherwise the request continues with that user |
| AuthMiddleware.IsAuthorized | server/middlewares/authMiddleware.js:24-31 | continues exactly when the role is allowed, else a 400 naming the role |
| AuthMiddleware.RefusalStatus | server/middlewares/authMiddleware.js:9-18 | an unauthenticated request reaches the client as a 401, or as a 404 for a deleted user |
| AuthMiddleware.ForbiddenIs400 | server/middlewares/authMiddleware.js:26-28 | a role refusal reaches the client as a 400 |
| Routes.Resolve | server/routes/recordRouter.js:16-40 | no handler exactly when no route matches; otherwise a handler of a matching route; literal segments match without regard to ASCII letter case, as the router is not case-sensitive |
| Routes.PathsIgnoreCase | server/routes/recordRouter.js:16-26 | `GET /Pending` reaches the pending list and `PUT /5/Approve` the approval, as their lower-case spellings do |
| Routes.ResolveIsFirstMatch | server/routes/recordRouter.js:22-40 | the handler is that of the first registered route that matches |
| Routes.RecordChain | server/routes/recordRouter.js:19 | every record request runs authentication first |
| Routes.Run | server/routes/recordRouter.js:19-40 | a request reaches its handler only through every guard: authenticated with the attached principal, with a valid body where the validator runs |
| Routes.RoleCheckPassed | server/middlewares/authMiddleware.js:26-29 | a passed role check admits only the listed roles |
| Routes.AfterAuthentication | server/routes/recordRouter.js:19 | after authentication the rest of the chain runs with the principal attached |
| Routes.PendingAndStatsNotShadowed | server/routes/recordRouter.js:22-37 | `/pending` and `/stats` reach their handlers, not `/:id` |
| Routes.RecordHandlersNeedPrincipal | server/routes/recordRouter.js:19 | every record handler is reached with the authenticated principal |
| Routes.AdminHandlersNeedAdmin | server/routes/recordRouter.js:22-40 | the pending list, approve, reject, stats and delete are reached only by an administrator |
| Routes.AdminChain | server/routes/recordRouter.js:22-30 | the guards of an administrator-only handler let only an administrator through |
| Routes.RecordWritesNeedRoleAndValidBody | server/routes/recordRouter.js:35-39 | record create and update need an administrator or officer and a body the validator accepts |
| Routes.PublicCaseReads | server/routes/caseRouter.js:16-20 | case reads need no authentication |
| Routes.CaseWritesNeedPrincipal | server/routes/caseRouter.js:23-36 | case creation needs a principal; status, priority, assignment and delete need an administrator |
| RecordController.ManualRow | server/controllers/recordController.js:52-76 | the manual row carries the given references or NULL, no officer, `'active'`, `'pending'` and no approval data |
| RecordController.ManualCheck | server/controllers/recordController.js:21-49 | a missing case or creator is a 400; a dangling case, victim, suspect, evidence or user reference is a 404, in the source's order |
| RecordController.InsertRecordManually | server/controllers/recordController.js:11-92 | a failed check or insert writes nothing; on success exactly one record is added under a fresh key and that key is sent with a 201 |
| RecordController.CompleteCheck | server/controllers/recordController.js:106-112 | missing case details, officer, incident type, date or location is a 400 |
| RecordController.CreateCompleteRecord | server/controllers/recordController.js:96-174 | a failed check writes nothing and sends its 400; a failing case step writes nothing; a later step that runs and throws passes its error on, yet the new case stays (one more case key, one more record); no existing record is lost or changes its workflow columns |
| RecordController.CreateSteps | server/controllers/recordController.js:119-169 | once the checks pass: without a fault a 201; a case-step fault writes nothing; no existing record is lost or changes its workflow columns |
| RecordController.LaterFaultKeepsCase | server/controllers/recordController.js:119-169 | a victim, suspect, evidence or main-record step that runs and throws passes its error on after the case and its opening record were committed |
| RecordController.CaseCreateKeepsRecords | server/models/casemodel.js:52-63 | `Case.create` adds exactly one record and leaves every other record as it was |
| RecordController.CompleteRecordContents | server/controllers/recordController.js:119-155 | on success the case is `'open'` and assigned to the officer, the evidence is collected by the officer, and the main record has no officer, the requester as creator, `'active'`, `'pending'` and no evidence link |
| RecordController.AfterCase | server/controllers/recordController.js:127-169 | the victim, suspect, evidence and main-record steps: without a fault the reply is a 201 carrying the case; a step that runs and throws sends its error on; on any fault the cases are untouched, no record is added, lost or changed in its workflow columns, the failing step's table is unchanged, and the victim, suspect and evidence created by earlier steps stay |
| RecordController.AfterCaseAddsMainRecord | server/controllers/recordController.js:147-155 | the main record is new and points at the case, with no officer and no evidence link |
| RecordController.CompleteRecordLeavesTwoRecords | server/models/casemodel.js:52-63 | a successful composite create leaves two records for the new case, one with the officer and one without |
| RecordController.CompositeCreateIsNotAtomic | server/controllers/recordController.js:169 | when the last step throws, the error is passed on, yet the new case and its opening record survive the rollback |
| RecordController.CreateCompleteRecordAtomic | server/controllers/recordController.js:119-169 | corrected: a failing step leaves the database exactly as before |
| RecordController.AtomicCreateAgrees | server/controllers/recordController.js:119-169 | without failure the corrected create does what the written one does; with one it rolls back the case |
| RecordController.Selection | server/controllers/recordController.js:196-216 | the selection is exactly the records satisfying every supplied filter, newest first |
| RecordController.CeilDiv | server/controllers/recordController.js:227 | the least page count that covers the total |
| RecordController.GetAllRecords | server/controllers/recordController.js:177-232 | a negative limit or offset passes the driver's error on; otherwise at most `limit` selected records from the offset, and `totalRecords` counts every record |
| RecordController.PageRecordsAreSelected | server/controllers/recordController.js:196-216 | every record on a page satisfies every filter and is stored under its key |
| RecordController.PageIsNewestFirst | server/controllers/recordController.js:216 | a page is ordered newest first |
| RecordController.PageBeyondEndIsEmpty | server/controllers/recordController.js:222-226 | a page past the selection is empty, not an error |
| RecordController.GetAllRecordsIntended | server/controllers/recordController.js:220-230 | corrected: the same page, with the totals counting the selected records |
| RecordController.IntendedPagesAreNonEmpty | server/controllers/recordController.js:220-230 | with the corrected count every announced page holds a record |
| RecordController.PageCountIgnoresFilters | server/controllers/recordController.js:220 | as written, two records and an `'approved'` filter announce two pages, and the second is empty |
| RecordController.GetPendingRecords | server/controllers/recordController.js:235-256 | exactly the records stored as `'pending'`, newest first |
| RecordController.DecisionCheck | server/controllers/recordController.js:264-272 | a missing record is a 404 and one not awaiting a decision a 400 "Record is already processed" |
| RecordController.Decide | server/controllers/recordController.js:274-330 | the decision `UPDATE` sets the verdict, the approval date, the approver and the update time, writes the given rejection reason, and keeps every other column |
| RecordController.ApproveRecord | server/controllers/recordController.js:259-297 | a refusal writes nothing; success exactly when the record exists and awaits a decision, and then only the verdict, date, approver and update time change |
| RecordController.RejectRecord | server/controllers/recordController.js:300-345 | a falsy reason is a 400 first; then the same guard; on success the record is rejected with the reason and nothing else changes |
| RecordController.StatsOf | server/controllers/recordController.js:348-360 | the total is the row count; each status and approval field is the count of rows with that value, each of suspects and victims the number of distinct non-NULL ids; each count is at most the total, and the three approval counts together are too |
| RecordController.PendingRowRaisesCounts | server/controllers/recordController.js:348-360 | a new `'active'`, `'pending'` row raises the total, active and pending counts by one and leaves closed, approved and rejected alone; suspects and victims grow exactly when its id is new |
| RecordController.ManualInsertRaisesCounts | server/controllers/recordController.js:52-76 | a successful manual insert is one more record, active and pending, in the statistics |
| RecordController.CaseCreateRaisesCounts | server/models/casemodel.js:52-63 | creating a case is one more record, active and pending, in the statistics |
| RecordController.DisjointCounts | server/controllers/recordController.js:350-360 | counts of conditions no row meets together add up to at most the total |
| RecordController.ThreeDisjointCounts | server/controllers/recordController.js:350-360 | the pending, approved and rejected counts add up to at most the total |
| RecordController.GetRecordStats | server/controllers/recordController.js:348-366 | a 200 carrying exactly the statistics of the whole `caserecords` table, so every field is the count described for StatsOf |
| RecordController.GetRecord | server/controllers/recordController.js:369-375 | a 404 exactly when the record is absent; otherwise the stored row under its key, with an empty status or approval status read as `'pending'` and every other column as stored |
| RecordController.Assign | server/controllers/recordController.js:383 | `Object.assign(record, req.body)`: each property the body carries replaces the record's, and every other property is kept |
| RecordController.UpdateRecord | server/controllers/recordController.js:378-386 | a 404 writes nothing; otherwise the reply is the loaded record with each of the seven properties the body carries replaced and every other property kept, and the row under the merged key holds exactly those columns with the update time; the approval status is written with no guard, unwritten columns are kept, and other records do not change |
| RecordController.DeleteRecord | server/controllers/recordController.js:389-396 | a 404 exactly when absent; otherwise that record alone is removed |
| Workflow.ApprovedIsFinal | server/controllers/recordController.js:268-272 | after an approval, approve and reject on that record are both refused and write nothing |
| Workflow.RejectedIsFinal | server/controllers/recordController.js:315-319 | after a rejection, approve and reject on that record are both refused and write nothing |
| Workflow.UpdateReopensDecided | server/controllers/recordController.js:383-384 | any update body carrying `approvalStatus: 'pending'` and no `recordId`, whatever else it carries, puts a decided record back in the queue, and it can be approved again |
| Workflow.RoutedReopening | server/routes/recordRouter.js:39 | such a body can also carry complete case details and a truthy officer id, so the validator in front of `updateRecord` lets it through |
| Workflow.ManualRecordAwaitsDecision | server/controllers/recordController.js:52-76 | a manually inserted record awaits a decision |
| Workflow.OpeningRecordAwaitsDecision | server/models/casemodel.js:52-63 | the record a new case opens awaits a decision |
| Workflow.NewRowAwaitsDecision | server/models/recordmodel.js:66 | a created record awaits a decision exactly when its requested approval status is falsy or `'pending'` |
| Workflow.ApproveKeepsAudit | server/controllers/recordController.js:274-282 | approving keeps the approval date, approver and reason consistent with the verdict |
| Workflow.RejectKeepsAudit | server/controllers/recordController.js:321-330 | rejecting keeps the approval date, approver and reason consistent with the verdict |
| Workflow.ReopenBreaksAudit | server/models/recordmodel.js:30-48 | reopening an approved record with any such update body leaves a pending record that still names an approver |
| Workflow.ApproveMovesCounts | server/controllers/recordController.js:348-360 | approving a pending record moves one from the pending count to the approved count and keeps the total |
| Workflow.NullApprovalIsApprovableButUncounted | server/models/recordmodel.js:24 | a record with a NULL approval status passes the approval guard but is not counted as pending |
| CaseController.GetAllCases | server/controllers/caseController.js:5-8 | every stored case, by ascending key |
| CaseController.GetCase | server/controllers/caseController.js:10-16 | the case, or a 404 exactly when it is absent |
| CaseController.CreateCase | server/controllers/caseController.js:18-21 | delegates to `Case.create`: a new case and its pending record; or the error passed on, with nothing written when the transaction failed and the case and its record kept when only the read-back after the commit failed |
| CaseController.UpdateCaseStatus | server/controllers/caseController.js:23-31 | a 404 writes nothing; otherwise only that case's status (and its update time) changes |
| CaseController.UpdateCasePriority | server/controllers/caseController.js:33-41 | a 404 writes nothing; otherwise only that case's priority (and its update time) changes |
| CaseController.AssignOfficer | server/controllers/caseController.js:43-51 | a 404 writes nothing; otherwise only that case's officer (and its update time) changes |
| CaseController.DeleteCase | server/controllers/caseController.js:53-60 | a 404 exactly when absent; otherwise only that case is removed |
| CaseController.CreateThenGet | server/controllers/caseController.js:10-21 | a created case is returned by `getCase` |
| CaseController.StatusThenPriority | server/controllers/caseController.js:23-41 | a status update followed by a priority update leaves both new values and every other field |
| CaseController.DeleteLeavesOrphanRecord | server/models/casemodel.js:97-99 | deleting a case leaves its records pointing at the missing case |
| AuthController.AccountFor | server/controllers/authController.js:96-105 | the first account with that email and verification state, and none only when no such account exists |
| AuthController.Upsert | server/controllers/authController.js:59-67 | the holder of the email gets the new name and password, or a new unverified user is inserted; no other user changes |
| AuthController.Register | server/controllers/authController.js:22-83 | missing fields, a verified holder of the email and a bad length are 400s that write nothing; otherwise the user holds the hashed password, is unverified and carries the code for ten minutes |
| AuthController.VerifyOtp | server/controllers/authController.js:88-131 | missing or falsy fields (`0`, `""`), no unverified account, a code whose `Number()` differs from the stored one (a non-numeric string never matches) and an expired right code each give their 400 in that order; success needs the matching unexpired code, verifies that account and clears its code |
| AuthController.OtpGiven | server/controllers/authController.js:91 | `!otp` on the raw value: a number is present exactly when `Number` gives non-zero, but the string `"0"` is present although it reads as 0 |
| AuthController.CodeNumber | server/controllers/authController.js:107 | `Number(user.verificationCode)`: the stored code, and 0 for NULL |
| AuthController.ExpiryTime | server/controllers/authController.js:111 | `new Date(user.verificationCodeExpire).getTime()`: the stored expiry, and the epoch for NULL |
| AuthController.ToNumber | server/controllers/authController.js:107 | `Number(otp)`: a number is itself, a signed or unsigned digit string is its decimal value, `+`, `-` and other non-numeric strings are `NaN` |
| AuthController.DecimalReadsBack | server/controllers/authController.js:107 | the decimal string of a code reads back as that code |
| AuthController.OtpReadAsNumber | server/controllers/authController.js:91-107 | two `otp` values with the same truthiness and the same `Number()` get the same outcome |
| AuthController.RegisterThenVerifyByString | server/controllers/authController.js:72-124 | a fresh registration is also verified by its code sent as a decimal string |
| AuthController.Login | server/controllers/authController.js:136-157 | only a verified account with a matching password signs in; an unknown email and a wrong password give the same 400 |
| AuthController.ResetHolder | server/controllers/authController.js:250-253 | the found user holds the digest as reset token, and it has not expired |
| AuthController.ResetPassword | server/controllers/authController.js:243-278 | an unknown or expired token, then unequal passwords, then absent passwords, then a bad length are refused without writing; success stores the hash and clears the token |
| AuthController.UpdatePassword | server/controllers/authController.js:283-316 | a deleted user is a 404; then missing fields, a wrong current password, unequal new passwords and a bad length are 400s; success writes only the password |
| AuthController.PolicySharedByAllPaths | server/controllers/authController.js:51-55 | a password outside 8..16 characters is refused by registration, reset and update alike |
| AuthController.RegisterThenVerify | server/controllers/authController.js:72-124 | a fresh registration is verified by its own non-zero code within ten minutes |
| AuthController.RegisterThenLoginRefused | server/controllers/authController.js:142-154 | right after registration, login with that email is refused whatever the password |
| AuthController.UpdateThenLogin | server/controllers/authController.js:297-310 | after a password update the verified owner signs in with the new password, given that comparison accepts a password against its own hash |
| AuthController.ResetThenLogin | server/controllers/authController.js:260-270 | after a reset the verified token holder signs in with the new password, given that comparison accepts a password against its own hash |
| AuthController.RegisterKeepsEmailsUnique | server/controllers/authController.js:59-67 | registration keeps emails unique |
| AuthController.VerifyTwiceFails | server/controllers/authController.js:96-103 | a verified account cannot be verified again |
| AuthController.ResetTokenSingleUse | server/controllers/authController.js:267-270 | a reset link works once |

## Left out

- Express wiring, the MySQL pool, cookies, JWT signing, mail and logging are
  I/O. `jwt.verify`, `bcrypt` and SHA-256 are parameters. Math.random is
  the `code` argument.
- Concurrency is not modelled. Each handler is one sequential step, so the
  check-then-write race in approve and reject is out of scope.
- mysql2 rejects `undefined` bind values. The model reads an absent body
  field as SQL NULL instead.
- Foreign keys and column types of the schema are not modelled. The schema
  is not part of the repository. A dangling reference is therefore stored
  as given, except where a handler checks it.
- `Record.create` does not write `dateCreated` and `lastUpdated`. The model
  takes the column default to be the insert time.
- The joins that add display names (case name, victim name and so on) are
  not modelled. They are presentation only.
- Path parameters are modelled as keys. Non-numeric and zero ids are not
  modelled.
- The listing binds `Number(limit)` and `Number(offset)` to `LIMIT ?
  OFFSET ?` through `execute`. mysql2 sends a JavaScript number as a
  DOUBLE, and MySQL 8.0.22 and later refuse that for `LIMIT`
  (ER_WRONG_ARGUMENTS). The model assumes a server that accepts the
  numeric binding. Under that assumption only a negative `LIMIT` or
  `OFFSET` fails the listing, with the driver's error.
- RecordController.GetAllRecords: `fromDate` and `toDate` are taken as
  already-parsed times. The source binds the raw query strings and lets
  MySQL convert them when comparing with the `DATETIME` column. That
  conversion, and malformed date strings, are not modelled.
- RecordController.GetAllRecords: `page` and `limit` are integers in the
  model. A non-integer or non-numeric query value (`"2.5"`, `"abc"`,
  which `Number` turns into a fraction or `NaN`) is not modelled.
- `findAll` of the victim, suspect, evidence and witness models is not
  modelled. No modelled handler calls it.
- Not modelled: the victim, suspect, evidence, witness and officer
  controllers; the officer and user models; and the remaining routers.
  They are pass-throughs or lie outside the record/case core.
- Auth operations not modelled: forgotPassword, logout and getUser. They
  only send mail or cookies or echo the principal.
- Password length is counted in characters (`seq<char>`). JavaScript
  counts UTF-16 code units.
- RecordController.UpdateRecord: properties of the body other than the
  seven `save` columns are merged into the object but never stored, so the
  model does not carry them.
- RecordController.CreateCompleteRecord: a fault in the case step is a
  failure inside `Case.create`'s transaction. A failing read-back after
  that commit is modelled only in CaseModel.Create and
  CaseController.CreateCase, not as a separate step here.
- RecordController.CreateCompleteRecord: a failing statement is modelled
  per step (case, victim, suspect, evidence, main record), not per SQL
  statement. Approve, reject, get, update, delete and the statistics are
  modelled without driver failures.
- String comparison in SQL is modelled as exact equality. That matches a
  binary (case-sensitive) collation. Under MySQL's default
  case-insensitive collation, `email = ?` also finds `a@x.org` for
  `A@x.org`, the unique email key collides without regard to case, and a
  stored `'Pending'` is selected and counted by the `approvalStatus =
  'pending'` and status filters. The JavaScript comparison of the
  approval status in approve and reject stays exact either way.
- A `SELECT` without `ORDER BY` is read as lowest key first: the first
  matching user (`users[0]`) and `SELECT * FROM cases` in
  CaseModel.FindAll. MySQL does not promise that order.
- CaseModel.CreateOpensOnePendingRecord: holds only while every record's
  `caseId` is an issued case key. `updateRecord` can store any `caseId`,
  so a record may already point at the key the next case receives.
- AuthController.VerifyOtp: `otp` is a JSON number (an integer) or a
  string. `Number` is modelled for optionally signed decimal digit
  strings. Surrounding whitespace, decimal points, exponents, hex,
  binary and octal prefixes, `Infinity` and non-integer numbers are read
  as no number, and booleans, arrays and objects are not modelled.
- AuthController.Register: a new user's role is NULL, because the insert
  names no role and the column default is not in the repository.
- AuthController.Register: the upsert is keyed on `email`, assuming the
  unique key the `ON DUPLICATE KEY UPDATE` relies on. `insertId` is taken
  to be the upserted row.

## Findings

| source | as written | input that shows it | evidently intended | confidence | as-written member | corrected member |
|---|---|---|---|---|---|---|
| server/models/witnessmodel.js:56-59 | the link `UPDATE` binds the new witness's key as both the value and the target record key | record 1 exists, the witness table's next key is 4, a witness is created for record 1: record 4 (if any) is linked and record 1 is not | bind the supplied record key as the target, as the victim, suspect and evidence models do | high (not executed) | WitnessModel.Create, WitnessModel.WitnessBackFillMissesTarget | WitnessModel.CreateIntended, WitnessModel.CreateIntendedLinksTarget |
| server/controllers/recordController.js:119-169 | the connection's transaction wraps calls that never use it, so the rollback undoes nothing | valid body whose main-record insert throws: the case and its opening record stay | all steps commit or roll back together | high (not executed) | RecordController.CreateCompleteRecord, RecordController.CompositeCreateIsNotAtomic | RecordController.CreateCompleteRecordAtomic, RecordController.AtomicCreateAgrees |
| server/controllers/recordController.js:220-229 | `totalRecords` and `totalPages` count every record, ignoring the filters | one approved and one pending record, filter `'approved'`, limit 1: two pages announced, page 2 empty | count the filtered records | medium (not executed) | RecordController.GetAllRecords, RecordController.PageCountIgnoresFilters | RecordController.GetAllRecordsIntended, RecordController.IntendedPagesAreNonEmpty |

=== FILE: auth_controller.dfy ===
/** The account rules of the auth controller: registration with a one-time
    code, code verification, login, and the two password changes. Hashing,
    comparison and the SHA-256 digest are parameters (`hash`, `matches`,
    `digest`); the random code is an argument; mail and cookies are not
    modelled. Every handler works on the `users` table alone. */
module AuthController {
  import opened Basics
  import opened Tables
  import opened Schema
  import opened Errors

  /** What a handler sends on success (`success: true` is implied). */
  datatype AuthBody =
    | CodeSent(email: string)
    | Verified(message: string)
    | SignedIn(userId: Id, message: string)
    | PasswordChanged(message: string)

  const EnterAllFields := "Please enter all fields."
  const UserExists := "User already exists."
  const PasswordLength := "Password must be between 8 and 16 characters."
  const OtpRequired := "Email and OTP are required"
  const InvalidAttempt := "Invalid verification attempt"
  const InvalidOtp := "Invalid OTP"
  const OtpExpired := "OTP has expired"
  const AccountVerified := "Account verified successfully"
  const InvalidCredentials := "Invalid email or password."
  const BadResetToken := "Reset password token is invalid or has expired."
  const ResetMismatch := "Password and confirm password do not match."
  const CurrentIncorrect := "Current password is incorrect."
  const UpdateMismatch := "New password and confirm new password do not match."

  /** How long a one-time code stays valid, in milliseconds. */
  const OtpLifetime := 10 * 60 * 1000

  /** The length rule all three password paths apply. */
  predicate PasswordAcceptable(p: string) {
    8 <= |p| <= 16
  }

  /** The `users` table's unique key: no two rows share an email. */
  predicate UniqueEmails(users: Table<User>) {
    forall j, k ::
      (j in users.rows && k in users.rows && users.rows[j].email.Some? && users.rows[j].email == users.rows[k].email)
      ==> j == k
  }

  /** `SELECT * FROM users WHERE email = ? AND accountVerified = v`, first
      row: the lowest key. */
  function AccountFor(users: Table<User>, email: string, verified: bool): (r: Option<Id>)
    ensures r.Some? ==> r.value in users.rows
    ensures r.Some? ==> users.rows[r.value].email == Some(email) && users.rows[r.value].accountVerified == verified
    ensures users.Valid() && r.None? ==>
      forall k :: k in users.rows && users.rows[k].email == Some(email) ==> users.rows[k].accountVerified != verified
  {
    FirstWhere(users, (u: User) => u.email == Some(email) && u.accountVerified == verified)
  }

  /** The row the upsert's duplicate-key clause finds: the one holding the
      email. */
  function HolderOf(users: Table<User>, email: string): (r: Option<Id>)
    ensures r.Some? ==> r.value in users.rows && users.rows[r.value].email == Some(email)
    ensures users.Valid() && r.None? ==> forall k :: k in users.rows ==> users.rows[k].email != Some(email)
  {
    FirstWhere(users, (u: User) => u.email == Some(email))
  }

  /** `INSERT ... ON DUPLICATE KEY UPDATE name, password, updatedAt`: the
      holder of the email gets the new name and password, or a new
      unverified user is inserted; either way the affected key is returned. */
  function Upsert(users: Table<User>, name: string, email: string, hashed: string, now: Time): (r: (Table<User>, Id))
    requires users.Valid()
    ensures r.0.Valid()
    ensures r.1 in r.0.rows && r.0.rows[r.1].email == Some(email)
    ensures r.0.rows[r.1].name == Some(name) && r.0.rows[r.1].password == hashed
    ensures r.0.rows == users.rows[r.1 := r.0.rows[r.1]]
    ensures r.1 in users.rows ==> r.0.rows[r.1].accountVerified == users.rows[r.1].accountVerified
    ensures r.1 !in users.rows ==> !r.0.rows[r.1].accountVerified
    ensures r.1 !in users.rows ==> forall k :: k in users.rows ==> users.rows[k].email != Some(email)
  {
    match HolderOf(users, email)
    case Some(id) =>
      (Put(users, id, users.rows[id].(name := Some(name), password := hashed, updatedAt := now)), id)
    case None =>
      Insert(users, User(Some(name), Some(email), hashed, None, false, None, None, None, None, now, now))
  }

  /** `register`. Missing fields, a verified holder of the email and a
      password outside 8..16 characters are 400s that write nothing.
      Otherwise the upserted user holds the hashed password, is unverified
      if it was new, and carries `code` valid for ten minutes. */
  function Register(users: Table<User>, name: Option<string>, email: Option<string>, password: Option<string>,
                    hash: string -> string, code: int, now: Time): (r: (Table<User>, Reply<AuthBody>))
    requires users.Valid()
    ensures r.0.Valid()
    ensures r.1.Next? ==> r.0 == users && r.1.error.statusCode == Some(400)
    ensures !Truthy(name) || !Truthy(email) || !Truthy(password) ==> r.1 == Next(ErrorHandler(EnterAllFields, 400))
    ensures r.1.Sent? <==> (
      && Truthy(name) && Truthy(email) && Truthy(password)
      && AccountFor(users, email.value, true).None? && PasswordAcceptable(password.value))
    ensures r.1.Sent? ==> exists id :: RegisteredAs(users, r.0, id, name.value, email.value, hash(password.value), code, now)
  {
    if !Truthy(name) || !Truthy(email) || !Truthy(password) then (users, Next(ErrorHandler(EnterAllFields, 400)))
    else if AccountFor(users, email.value, true).Some? then (users, Next(ErrorHandler(UserExists, 400)))
    else if !PasswordAcceptable(password.value) then (users, Next(ErrorHandler(PasswordLength, 400)))
    else
      var (users1, id) := Upsert(users, name.value, email.value, hash(password.value), now);
      var users2 := Put(users1, id, users1.rows[id].(verificationCode := Some(code),
                                                     verificationCodeExpire := Some(now + OtpLifetime)));
      assert RegisteredAs(users, users2, id, name.value, email.value, hash(password.value), code, now);
      (users2, Sent(200, CodeSent(email.value)))
  }

  /** `after` is `before` with user `id` holding the email, the name, the
      hashed password and the pending code; no other user changed. */
  ghost predicate RegisteredAs(before: Table<User>, after: Table<User>, id: Id, name: string, email: string,
                               hashed: string, code: int, now: Time) {
    && id in after.rows
    && after.rows.Keys == before.rows.Keys + {id}
    && (forall k :: k in before.rows && k != id ==> after.rows[k] == before.rows[k])
    && after.rows[id].email == Some(email) && after.rows[id].name == Some(name)
    && after.rows[id].password == hashed && !after.rows[id].accountVerified
    && after.rows[id].verificationCode == Some(code)
    && after.rows[id].verificationCodeExpire == Some(now + OtpLifetime)
  }

  /** `Number(user.verificationCode)`: NULL reads as 0. */
  function CodeNumber(code: Option<int>): (n: int)
    ensures code.Some? ==> n == code.value
    ensures code.None? ==> n == 0
  {
    code.GetOr(0)
  }

  /** The `otp` property of a JSON body: a number or a string. */
  datatype OtpValue = OtpNumber(n: int) | OtpString(s: string)

  /** `!!otp`: the property is there and is neither `0` nor `""`. */
  function OtpGiven(otp: Option<OtpValue>): (given: bool)
    ensures given ==> otp.Some?
    ensures otp.Some? && otp.value.OtpNumber? ==> (given <==> ToNumber(otp.value) != Some(0))
    ensures otp == Some(OtpString("0")) ==> given && ToNumber(otp.value) == Some(0)
  {
    match otp
    case None => false
    case Some(OtpNumber(n)) => n != 0
    case Some(OtpString(s)) => s != ""
  }

  predicate IsDigit(c: char) {
    '0' <= c <= '9'
  }

  predicate AllDigits(s: string) {
    forall i :: 0 <= i < |s| ==> IsDigit(s[i])
  }

  /** The value of a string of decimal digits, leading zeros allowed. */
  function DigitsValue(s: string): (r: nat)
    requires AllDigits(s)
  {
    if s == [] then 0 else DigitsValue(s[..|s| - 1]) * 10 + (s[|s| - 1] as int - '0' as int)
  }

  /** `Number(otp)`: a number is itself; the empty string is 0; a string of
      decimal digits, optionally after one `+` or `-`, is its value; every
      other string is `NaN` (`None`), which equals no number. */
  function ToNumber(v: OtpValue): (r: Option<int>)
    ensures v.OtpNumber? ==> r == Some(v.n)
    ensures v.OtpString? && v.s != "" && AllDigits(v.s) ==> r == Some(DigitsValue(v.s))
    ensures v.OtpString? && |v.s| >= 2 && v.s[0] == '+' && AllDigits(v.s[1..]) ==> r == Some(DigitsValue(v.s[1..]))
    ensures v.OtpString? && |v.s| >= 2 && v.s[0] == '-' && AllDigits(v.s[1..]) ==> r == Some(-(DigitsValue(v.s[1..]) as int))
    ensures v.OtpString? && v.s in ["+", "-"] ==> r.None?
    ensures v.OtpString? && |v.s| >= 2 && v.s[0] in "+-" && !AllDigits(v.s[1..]) ==> r.None?
    ensures v.OtpString? && v.s != "" && v.s[0] != '+' && v.s[0] != '-' && !AllDigits(v.s) ==> r.None?
  {
    match v
    case OtpNumber(n) => Some(n)
    case OtpString(s) =>
      if s == "" then Some(0)
      else if AllDigits(s) then Some(DigitsValue(s))
      else if |s| >= 2 && s[0] == '+' && AllDigits(s[1..]) then Some(DigitsValue(s[1..]))
      else if |s| >= 2 && s[0] == '-' && AllDigits(s[1..]) then Some(-(DigitsValue(s[1..]) as int))
      else None
  }

  /** The decimal digits of `n`, without leading zeros. */
  function Decimal(n: nat): (r: string)
    ensures r != [] && AllDigits(r)
    decreases n
  {
    if n < 10 then ["0123456789"[n]] else Decimal(n / 10) + ["0123456789"[n % 10]]
  }

  /** A code sent as its decimal string, as a form field would carry it,
      reads as the same number. */
  lemma {:induction false} DecimalReadsBack(n: nat)
    ensures DigitsValue(Decimal(n)) == n
    ensures ToNumber(OtpString(Decimal(n))) == Some(n)
    decreases n
  {
    var d := Decimal(n);
    if n >= 10 {
      DecimalReadsBack(n / 10);
      assert d[..|d| - 1] == Decimal(n / 10);
    }
  }

  /** `new Date(user.verificationCodeExpire).getTime()`: NULL reads as the
      epoch. */
  function ExpiryTime(expire: Option<Time>): (t: Time)
    ensures expire.Some? ==> t == expire.value
    ensures expire.None? ==> t == 0
  {
    expire.GetOr(0)
  }

  /** `verifyOTP`. Missing fields are a 400; only an unverified account with
      the email is considered; a wrong code is `Invalid OTP` even when it
      has also expired, and a right code past its expiry is `OTP has
      expired`. On success that account is verified and its code cleared. */
  function VerifyOtp(users: Table<User>, email: Option<string>, otp: Option<OtpValue>, now: Time): (r: (Table<User>, Reply<AuthBody>))
    ensures r.0.rows.Keys == users.rows.Keys
    ensures r.1.Next? ==> r.0 == users && r.1.error.statusCode == Some(400)
    ensures !Truthy(email) || !OtpGiven(otp) ==> r.1 == Next(ErrorHandler(OtpRequired, 400))
    ensures Truthy(email) && OtpGiven(otp) && AccountFor(users, email.value, false).None? ==>
      r.1 == Next(ErrorHandler(InvalidAttempt, 400))
    ensures Truthy(email) && OtpGiven(otp) && AccountFor(users, email.value, false).Some? ==>
      var u := users.rows[AccountFor(users, email.value, false).value];
      (ToNumber(otp.value) != Some(CodeNumber(u.verificationCode)) ==> r.1 == Next(ErrorHandler(InvalidOtp, 400)))
    ensures Truthy(email) && OtpGiven(otp) && AccountFor(users, email.value, false).Some? ==>
      var u := users.rows[AccountFor(users, email.value, false).value];
      (ToNumber(otp.value) == Some(CodeNumber(u.verificationCode)) && now > ExpiryTime(u.verificationCodeExpire) ==>
         r.1 == Next(ErrorHandler(OtpExpired, 400)))
    ensures OtpGiven(otp) && ToNumber(otp.value).None? ==> r.1.Next?
    ensures r.1.Sent? ==> r.1 == Sent(200, Verified(AccountVerified))
    ensures r.1.Sent? ==> Truthy(email) && OtpGiven(otp) && AccountFor(users, email.value, false).Some?
    ensures r.1.Sent? ==> var u := users.rows[AccountFor(users, email.value, false).value];
      ToNumber(otp.value) == Some(CodeNumber(u.verificationCode)) && now <= ExpiryTime(u.verificationCodeExpire)
    ensures r.1.Sent? ==>
      var id := AccountFor(users, email.value, false).value;
      (&& r.0.rows == users.rows[id := r.0.rows[id]]
       && r.0.rows[id].accountVerified
       && r.0.rows[id].verificationCode.None? && r.0.rows[id].verificationCodeExpire.None?
       && r.0.rows[id].password == users.rows[id].password && r.0.rows[id].email == users.rows[id].email)
    ensures users.Valid() ==> r.0.Valid()
  {
    if !Truthy(email) || !OtpGiven(otp) then (users, Next(ErrorHandler(OtpRequired, 400)))
    else match AccountFor(users, email.value, false)
      case None => (users, Next(ErrorHandler(InvalidAttempt, 400)))
      case Some(id) =>
        var u := users.rows[id];
        if ToNumber(otp.value) != Some(CodeNumber(u.verificationCode)) then (users, Next(ErrorHandler(InvalidOtp, 400)))
        else if now > ExpiryTime(u.verificationCodeExpire) then (users, Next(ErrorHandler(OtpExpired, 400)))
        else
          (Put(users, id, u.(accountVerified := true, verificationCode := None, verificationCodeExpire := None,
                             updatedAt := now)),
           Sent(200, Verified(AccountVerified)))
  }

  /** `login`. Only verified accounts sign in; an unknown email and a wrong
      password give the same 400, so a caller cannot tell them apart.
      Nothing is written. */
  function Login(users: Table<User>, email: Option<string>, password: Option<string>,
                 matches: (string, string) -> bool): (r: Reply<AuthBody>)
    ensures !Truthy(email) || !Truthy(password) ==> r == Next(ErrorHandler(EnterAllFields, 400))
    ensures Truthy(email) && Truthy(password) && r.Next? ==> r == Next(ErrorHandler(InvalidCredentials, 400))
    ensures r.Sent? <==> (
      && Truthy(email) && Truthy(password) && AccountFor(users, email.value, true).Some?
      && matches(password.value, users.rows[AccountFor(users, email.value, true).value].password))
    ensures r.Sent? ==> r.body.SignedIn? && r.body.userId in users.rows
    ensures r.Sent? ==> users.rows[r.body.userId].accountVerified && users.rows[r.body.userId].email == email
  {
    if !Truthy(email) || !Truthy(password) then Next(ErrorHandler(EnterAllFields, 400))
    else match AccountFor(users, email.value, true)
      case None => Next(ErrorHandler(InvalidCredentials, 400))
      case Some(id) =>
        if !matches(password.value, users.rows[id].password) then Next(ErrorHandler(InvalidCredentials, 400))
        else Sent(200, SignedIn(id, "User login successfully."))
  }

  /** `SELECT * FROM users WHERE resetPasswordToken = ? AND
      resetPasswordExpire > NOW()`, first row. */
  function ResetHolder(users: Table<User>, hashedToken: string, now: Time): (r: Option<Id>)
    ensures r.Some? ==> r.value in users.rows && users.rows[r.value].resetPasswordToken == Some(hashedToken)
    ensures r.Some? ==> users.rows[r.value].resetPasswordExpire.Some? && users.rows[r.value].resetPasswordExpire.value > now
  {
    FirstWhere(users, (u: User) => u.resetPasswordToken == Some(hashedToken)
                                   && u.resetPasswordExpire.Some? && u.resetPasswordExpire.value > now)
  }

  /** `resetPassword`. The digest of the URL token must be some user's
      unexpired reset token; then the two passwords must be equal; then the
      length rule. When both passwords are absent they compare equal and
      reading the length throws. On success the hashed password is stored
      and the reset token and its expiry are cleared. */
  function ResetPassword(users: Table<User>, token: string, password: Option<string>, confirm: Option<string>,
                         digest: string -> string, hash: string -> string, now: Time): (r: (Table<User>, Reply<AuthBody>))
    ensures r.0.rows.Keys == users.rows.Keys
    ensures r.1.Next? ==> r.0 == users
    ensures ResetHolder(users, digest(token), now).None? ==> r.1 == Next(ErrorHandler(BadResetToken, 400))
    ensures ResetHolder(users, digest(token), now).Some? && password != confirm ==>
      r.1 == Next(ErrorHandler(ResetMismatch, 400))
    ensures ResetHolder(users, digest(token), now).Some? && password == confirm && password.None? ==>
      r.1 == Next(UndefinedProperty("length"))
    ensures r.1.Sent? <==> (
      && ResetHolder(users, digest(token), now).Some? && password == confirm
      && password.Some? && PasswordAcceptable(password.value))
    ensures r.1.Sent? ==>
      var id := ResetHolder(users, digest(token), now).value;
      (&& r.0.rows == users.rows[id := r.0.rows[id]]
       && r.0.rows[id].password == hash(password.value)
       && r.0.rows[id].resetPasswordToken.None? && r.0.rows[id].resetPasswordExpire.None?)
    ensures users.Valid() ==> r.0.Valid()
  {
    match ResetHolder(users, digest(token), now)
    case None => (users, Next(ErrorHandler(BadResetToken, 400)))
    case Some(id) =>
      if password != confirm then (users, Next(ErrorHandler(ResetMismatch, 400)))
      else if password.None? then (users, Next(UndefinedProperty("length")))
      else if !PasswordAcceptable(password.value) then (users, Next(ErrorHandler(PasswordLength, 400)))
      else
        (Put(users, id, users.rows[id].(password := hash(password.value), resetPasswordToken := None,
                                        resetPasswordExpire := None, updatedAt := now)),
         Sent(200, SignedIn(id, "Password reset successfully.")))
  }

  /** `updatePassword` for the signed-in `user`. A deleted account is a
      404; then all three fields, the current password, equality of the new
      ones and the length rule, each a 400. On success only the password
      (and `updatedAt`) of that user changes. */
  function UpdatePassword(users: Table<User>, user: Principal, current: Option<string>, newPassword: Option<string>,
                          confirm: Option<string>, matches: (string, string) -> bool, hash: string -> string,
                          now: Time): (r: (Table<User>, Reply<AuthBody>))
    ensures r.0.rows.Keys == users.rows.Keys
    ensures r.1.Next? ==> r.0 == users
    ensures user.id !in users.rows ==> r.1 == Next(ErrorHandler("User not found.", 404))
    ensures user.id in users.rows && (!Truthy(current) || !Truthy(newPassword) || !Truthy(confirm)) ==>
      r.1 == Next(ErrorHandler(EnterAllFields, 400))
    ensures r.1.Sent? <==> (
      && user.id in users.rows && Truthy(current) && Truthy(newPassword) && Truthy(confirm)
      && matches(current.value, users.rows[user.id].password)
      && newPassword == confirm && PasswordAcceptable(newPassword.value))
    ensures r.1.Sent? ==> r.0.rows == users.rows[user.id := r.0.rows[user.id]]
    ensures r.1.Sent? ==>
      r.0.rows[user.id] == users.rows[user.id].(password := hash(newPassword.value), updatedAt := now)
    ensures users.Valid() ==> r.0.Valid()
  {
    if user.id !in users.rows then (users, Next(ErrorHandler("User not found.", 404)))
    else if !Truthy(current) || !Truthy(newPassword) || !Truthy(confirm) then (users, Next(ErrorHandler(EnterAllFields, 400)))
    else if !matches(current.value, users.rows[user.id].password) then (users, Next(ErrorHandler(CurrentIncorrect, 400)))
    else if newPassword != confirm then (users, Next(ErrorHandler(UpdateMismatch, 400)))
    else if !PasswordAcceptable(newPassword.value) then (users, Next(ErrorHandler(PasswordLength, 400)))
    else
      (Put(users, user.id, users.rows[user.id].(password := hash(newPassword.value), updatedAt := now)),
       Sent(200, PasswordChanged("Password updated successfully.")))
  }

  /** The length rule is the same on all three paths: a password outside
      8..16 characters is never stored by registration, reset or update. */
  lemma PolicySharedByAllPaths(users: Table<User>, p: string, name: string, email: string, token: string,
                               user: Principal, current: string, hash: string -> string,
                               digest: string -> string, matches: (string, string) -> bool, code: int, now: Time)
    requires users.Valid() && !PasswordAcceptable(p)
    ensures Register(users, Some(name), Some(email), Some(p), hash, code, now).1.Next?
    ensures ResetPassword(users, token, Some(p), Some(p), digest, hash, now).1.Next?
    ensures UpdatePassword(users, user, Some(current), Some(p), Some(p), matches, hash, now).1.Next?
  {
  }

  /** A freshly registered account is verified by its own code before the
      code expires, when emails are unique. */
  lemma {:induction false} RegisterThenVerify(users: Table<User>, name: string, email: string, password: string,
                                              hash: string -> string, code: int, now: Time, later: Time)
    requires users.Valid() && UniqueEmails(users)
    requires Register(users, Some(name), Some(email), Some(password), hash, code, now).1.Sent?
    requires code != 0 && later <= now + OtpLifetime
    ensures var users1 := Register(users, Some(name), Some(email), Some(password), hash, code, now).0;
      VerifyOtp(users1, Some(email), Some(OtpNumber(code)), later).1 == Sent(200, Verified(AccountVerified))
  {
    var users1 := Register(users, Some(name), Some(email), Some(password), hash, code, now).0;
    var id :| RegisteredAs(users, users1, id, name, email, hash(password), code, now);
  }

  /** Verification reads the code only through its truthiness and
      `Number(otp)`: two values alike in both get the same outcome. */
  lemma OtpReadAsNumber(users: Table<User>, email: Option<string>, a: OtpValue, b: OtpValue, now: Time)
    requires OtpGiven(Some(a)) == OtpGiven(Some(b)) && ToNumber(a) == ToNumber(b)
    ensures VerifyOtp(users, email, Some(a), now) == VerifyOtp(users, email, Some(b), now)
  {
  }

  /** The same holds when the code is sent as its decimal string. */
  lemma {:induction false} RegisterThenVerifyByString(users: Table<User>, name: string, email: string, password: string,
                                                      hash: string -> string, code: nat, now: Time, later: Time)
    requires users.Valid() && UniqueEmails(users)
    requires Register(users, Some(name), Some(email), Some(password), hash, code, now).1.Sent?
    requires code != 0 && later <= now + OtpLifetime
    ensures var users1 := Register(users, Some(name), Some(email), Some(password), hash, code, now).0;
      VerifyOtp(users1, Some(email), Some(OtpString(Decimal(code))), later).1 == Sent(200, Verified(AccountVerified))
  {
    var users1 := Register(users, Some(name), Some(email), Some(password), hash, code, now).0;
    RegisterThenVerify(users, name, email, password, hash, code, now, later);
    DecimalReadsBack(code);
    OtpReadAsNumber(users1, Some(email), OtpString(Decimal(code)), OtpNumber(code), later);
  }

  /** Registering does not let anyone sign in: until the code is verified,
      login with that email is refused whatever the password. */
  lemma {:induction false} RegisterThenLoginRefused(users: Table<User>, name: string, email: string, password: string,
                                                    hash: string -> string, code: int, now: Time,
                                                    attempt: string, matches: (string, string) -> bool)
    requires users.Valid()
    requires Register(users, Some(name), Some(email), Some(password), hash, code, now).1.Sent?
    ensures var users1 := Register(users, Some(name), Some(email), Some(password), hash, code, now).0;
      Login(users1, Some(email), Some(attempt), matches).Next?
  {
    var users1 := Register(users, Some(name), Some(email), Some(password), hash, code, now).0;
    var id :| RegisteredAs(users, users1, id, name, email, hash(password), code, now);
  }

  /** A password update is a round trip with login: when comparison
      accepts every password against its own hash, the verified owner of the
      account then signs in with the new password. */
  lemma {:induction false} UpdateThenLogin(users: Table<User>, user: Principal, current: string, newPassword: string,
                                           matches: (string, string) -> bool, hash: string -> string, now: Time)
    requires users.Valid() && UniqueEmails(users)
    requires forall p :: matches(p, hash(p))
    requires UpdatePassword(users, user, Some(current), Some(newPassword), Some(newPassword), matches, hash, now).1.Sent?
    requires users.rows[user.id].accountVerified && Truthy(users.rows[user.id].email)
    ensures var users1 := UpdatePassword(users, user, Some(current), Some(newPassword), Some(newPassword),
                                         matches, hash, now).0;
      Login(users1, users.rows[user.id].email, Some(newPassword), matches) == Sent(200, SignedIn(user.id, "User login successfully."))
  {
    var users1 := UpdatePassword(users, user, Some(current), Some(newPassword), Some(newPassword), matches, hash, now).0;
    var email := users.rows[user.id].email.value;
    var found := AccountFor(users1, email, true);
    assert users1.rows[user.id].email == Some(email) && users1.rows[user.id].accountVerified;
  }

  /** A password reset is a round trip with login as well: the verified
      holder of the reset token then signs in with the new password. */
  lemma {:induction false} ResetThenLogin(users: Table<User>, token: string, password: string,
                                          digest: string -> string, hash: string -> string, now: Time,
                                          matches: (string, string) -> bool)
    requires users.Valid() && UniqueEmails(users)
    requires forall p :: matches(p, hash(p))
    requires ResetPassword(users, token, Some(password), Some(password), digest, hash, now).1.Sent?
    requires var id := ResetHolder(users, digest(token), now).value;
      users.rows[id].accountVerified && Truthy(users.rows[id].email)
    ensures var id := ResetHolder(users, digest(token), now).value;
      var users1 := ResetPassword(users, token, Some(password), Some(password), digest, hash, now).0;
      Login(users1, users.rows[id].email, Some(password), matches) == Sent(200, SignedIn(id, "User login successfully."))
  {
    var id := ResetHolder(users, digest(token), now).value;
    var users1 := ResetPassword(users, token, Some(password), Some(password), digest, hash, now).0;
    var email := users.rows[id].email.value;
    var found := AccountFor(users1, email, true);
    assert users1.rows[id].email == Some(email) && users1.rows[id].accountVerified;
  }

  /** Registration keeps emails unique: the upsert reuses the holder's
      row. */
  lemma {:induction false} RegisterKeepsEmailsUnique(users: Table<User>, name: Option<string>, email: Option<string>,
                                                     password: Option<string>, hash: string -> string, code: int, now: Time)
    requires users.Valid() && UniqueEmails(users)
    ensures UniqueEmails(Register(users, name, email, password, hash, code, now).0)
  {
    var (users1, reply) := Register(users, name, email, password, hash, code, now);
    if reply.Sent? {
      var (u1, id) := Upsert(users, name.value, email.value, hash(password.value), now);
      forall j, k | j in users1.rows && k in users1.rows && users1.rows[j].email.Some?
        && users1.rows[j].email == users1.rows[k].email
        ensures j == k
      {
        if j != id && k != id {
          assert users1.rows[j] == users.rows[j] && users1.rows[k] == users.rows[k];
        }
      }
    }
  }

  /** A code verifies its account once: when emails are unique, a second
      verification with the same email finds no unverified account. */
  lemma {:induction false} VerifyTwiceFails(users: Table<User>, email: string, otp: OtpValue, now: Time, later: Time)
    requires users.Valid() && UniqueEmails(users)
    requires VerifyOtp(users, Some(email), Some(otp), now).1.Sent?
    ensures var users1 := VerifyOtp(users, Some(email), Some(otp), now).0;
      VerifyOtp(users1, Some(email), Some(otp), later).1 == Next(ErrorHandler(InvalidAttempt, 400))
  {
    var users1 := VerifyOtp(users, Some(email), Some(otp), now).0;
    var id := AccountFor(users, email, false).value;
    var again := AccountFor(users1, email, false);
    if again.Some? {
      assert false;
    }
  }

  /** A reset token works once: the reset clears it, so the same link then
      finds no holder. */
  lemma {:induction false} ResetTokenSingleUse(users: Table<User>, token: string, password: string,
                                               digest: string -> string, hash: string -> string, now: Time,
                                               other: string, later: Time)
    requires users.Valid()
    requires ResetPassword(users, token, Some(password), Some(password), digest, hash, now).1.Sent?
    requires forall k :: k in users.rows && users.rows[k].resetPasswordToken == Some(digest(token)) ==>
      k == ResetHolder(users, digest(token), now).value
    ensures var users1 := ResetPassword(users, token, Some(password), Some(password), digest, hash, now).0;
      ResetPassword(users1, token, Some(other), Some(other), digest, hash, later).1
        == Next(ErrorHandler(BadResetToken, 400))
  {
    var users1 := ResetPassword(users, token, Some(password), Some(password), digest, hash, now).0;
    var id := ResetHolder(users, digest(token), now).value;
    var again := ResetHolder(users1, digest(token), later);
    if again.Some? {
      assert false;
    }
  }
}

=== FILE: auth_middleware.dfy ===
/** `isAuthenticated` and `isAuthorized`: the two guards in front of the
    protected routes. Token verification is a parameter: `verify` stands for
    `jwt.verify` with the server's secret, returning the decoded `id` claim or
    the error the library throws. */
module AuthMiddleware {
  import opened Basics
  import opened Tables
  import opened Schema
  import opened Errors

  /** What `jwt.verify(token, secret)` does: returns a payload whose `id`
      claim may be missing, or throws. */
  datatype Verified = Decoded(id: Option<Id>) | Rejected(error: JsError)

  /** What `isAuthenticated` does with the request: attaches the principal and
      continues, or stops it with an error. */
  datatype AuthOutcome = Authenticated(principal: Principal) | Refused(error: JsError)

  const NotAuthenticated := "User is not authenticated."
  const UserNotFound := "User not found."

  /** `isAuthenticated`: a missing or empty `token` cookie is a 401; a token
      the library rejects stops the request with the library's error; a
      decoded id with no `users` row is a 404; otherwise `req.user` is that
      row and the request continues. */
  function IsAuthenticated(users: Table<User>, token: Option<string>, verify: string -> Verified): (r: AuthOutcome)
    ensures !Truthy(token) ==> r == Refused(ErrorHandler(NotAuthenticated, 401))
    ensures Truthy(token) && verify(token.value).Rejected? ==> r == Refused(verify(token.value).error)
    ensures r.Authenticated? <==>
      Truthy(token) && verify(token.value).Decoded? && verify(token.value).id.Some?
      && verify(token.value).id.value in users.rows
    ensures r.Authenticated? ==>
      r.principal.id == verify(token.value).id.value && r.principal.user == users.rows[r.principal.id]
    ensures Truthy(token) && verify(token.value).Decoded? && r.Refused? ==>
      r.error == ErrorHandler(UserNotFound, 404)
  {
    if !Truthy(token) then Refused(ErrorHandler(NotAuthenticated, 401))
    else match verify(token.value)
      case Rejected(e) => Refused(e)
      case Decoded(id) =>
        if id.Some? && id.value in users.rows
        then Authenticated(Principal(id.value, users.rows[id.value]))
        else Refused(ErrorHandler(UserNotFound, 404))
  }

  /** The role as a template literal renders it: a NULL role reads "null". */
  function RoleText(role: Option<string>): string {
    match role
    case Some(r) => r
    case None => "null"
  }

  /** `isAuthorized(...roles)`: continues exactly when the user's role is one
      of `roles`; otherwise a 400 names the role. */
  function IsAuthorized(user: User, roles: seq<string>): (r: Gate)
    ensures r.Proceed? <==> user.role.Some? && user.role.value in roles
    ensures r.Halt? ==> r.error == ErrorHandler(
      "User with this role (" + RoleText(user.role) + ") is not allowed to access this resource.", 400)
  {
    if user.role.Some? && user.role.value in roles then Proceed
    else Halt(ErrorHandler("User with this role (" + RoleText(user.role) + ") is not allowed to access this resource.", 400))
  }

  /** When the token library only ever throws its own two error kinds (which
      carry no driver code), an
      unauthenticated request reaches the client as a 401 or, for a valid
      token of a deleted user, a 404. */
  lemma RefusalStatus(users: Table<User>, token: Option<string>, verify: string -> Verified)
    requires forall t :: verify(t).Rejected? ==>
      verify(t).error.name in {JsonWebTokenError, TokenExpiredError} && verify(t).error.code.None?
    requires IsAuthenticated(users, token, verify).Refused?
    ensures var status := ErrorMiddleware(IsAuthenticated(users, token, verify).error).status;
      status == 401 || status == 404
  {
    var r := IsAuthenticated(users, token, verify);
    if !Truthy(token) {
      HandlerErrorRoundTrip(NotAuthenticated, 401);
    } else if verify(token.value).Rejected? {
      if r.error.name == JsonWebTokenError {
        InvalidTokenIs401(r.error);
      } else {
        ExpiredTokenIs401(r.error);
      }
    } else {
      HandlerErrorRoundTrip(UserNotFound, 404);
    }
  }

  /** A role check's rejection reaches the client as a 400. */
  lemma ForbiddenIs400(user: User, roles: seq<string>)
    requires IsAuthorized(user, roles).Halt?
    ensures ErrorMiddleware(IsAuthorized(user, roles).error) == ErrorResponse(400, false, IsAuthorized(user, roles).error.message)
  {
    HandlerErrorRoundTrip(IsAuthorized(user, roles).error.message, 400);
  }
}

=== FILE: basics.dfy ===
/** Values shared by every module: optional values standing for JavaScript's
    `undefined`/`null`, the id and clock types, and the truthiness tests the
    handlers apply to request fields (`!caseId`, `victimId || null`, ...). */
module Basics {

  /** `None` is a JavaScript `undefined` or SQL `NULL`. */
  datatype Option<+T> = None | Some(value: T) {

    /** The value, or `default` when absent. */
    function GetOr(default: T): T {
      match this
      case Some(v) => v
      case None => default
    }
  }

  /** An AUTO_INCREMENT primary key. Keys handed out by the database start at 1,
      so a row id is never falsy. */
  type Id = nat

  /** A point on the server clock, in milliseconds. */
  type Time = int

  /** `!!s` for a string field: absent and the empty string are falsy. */
  predicate Truthy(s: Option<string>) {
    s.Some? && s.value != ""
  }

  /** `!!id` for a numeric field: absent and 0 are falsy. */
  predicate Present(id: Option<int>) {
    id.Some? && id.value != 0
  }

  /** `s || fallback` for a string field. */
  function OrElse(s: Option<string>, fallback: string): (r: Option<string>)
    requires fallback != ""
    ensures Truthy(r)
    ensures Truthy(s) ==> r == s
    ensures !Truthy(s) ==> r == Some(fallback)
  {
    if Truthy(s) then s else Some(fallback)
  }

  /** `id || null` for an id field. */
  function OrNull(id: Option<Id>): (r: Option<Id>)
    ensures r.None? || Present(r)
    ensures Present(id) ==> r == id
  {
    if Present(id) then id else None
  }

  /** `xs.join(sep)`. */
  function Join(xs: seq<string>, sep: string): (r: string)
    ensures |xs| == 1 ==> r == xs[0]
    ensures |xs| == 0 ==> r == ""
    ensures |xs| > 0 ==> |xs[0]| <= |r| && r[..|xs[0]|] == xs[0]
  {
    if |xs| == 0 then ""
    else if |xs| == 1 then xs[0]
    else xs[0] + sep + Join(xs[1..], sep)
  }
}

=== FILE: case_controller.dfy ===
/** The case controller: list, read, create, the three single-field
    updaters and delete. Each updater loads the case, sets one property of
    the object and saves it, so exactly that column and `updatedAt` change. */
module CaseController {
  import opened Basics
  import opened Tables
  import opened Schema
  import opened Errors
  import CaseModel

  /** The JSON bodies the handlers send (`success: true` is implied). */
  datatype CaseBody =
    | Cases(cases: seq<CaseModel.CaseObj>)
    | OneCase(caseObj: CaseModel.CaseObj)
    | Deleted(message: string)

  const CaseNotFound := "Case not found"
  const CaseDeleted := "Case deleted successfully"

  /** The one column an updater sets. */
  datatype CaseField = StatusField | PriorityField | AssigneeField

  /** `a` and `b` agree on every column except `field` and `updatedAt`. */
  predicate SameExcept(a: Case, b: Case, field: CaseField) {
    match field
    case StatusField => a.(status := b.status, updatedAt := b.updatedAt) == b
    case PriorityField => a.(priority := b.priority, updatedAt := b.updatedAt) == b
    case AssigneeField => a.(assignedTo := b.assignedTo, updatedAt := b.updatedAt) == b
  }

  /** `after` differs from `before` in case `id` alone: no case added or
      removed, every other case and every other table kept. */
  ghost predicate OnlyCaseChanged(before: Db, after: Db, id: Id) {
    && after == before.(cases := after.cases)
    && after.cases.next == before.cases.next
    && after.cases.rows.Keys == before.cases.rows.Keys
    && forall k :: k in before.cases.rows && k != id ==> after.cases.rows[k] == before.cases.rows[k]
  }

  /** `getAllCases`: every case. */
  function GetAllCases(db: Db): (r: Reply<CaseBody>)
    ensures r.Sent? && r.status == 200 && r.body.Cases?
    ensures db.cases.Valid() ==> forall o :: o in r.body.cases <==>
      o.caseId in db.cases.rows && db.cases.rows[o.caseId] == o.row
  {
    Sent(200, Cases(CaseModel.FindAll(db.cases)))
  }

  /** `getCase`: the case, or a 404. */
  function GetCase(db: Db, id: Id): (r: Reply<CaseBody>)
    ensures r.Next? <==> id !in db.cases.rows
    ensures r.Next? ==> r.error == ErrorHandler(CaseNotFound, 404)
    ensures r.Sent? ==> r == Sent(200, OneCase(CaseModel.CaseObj(id, db.cases.rows[id])))
  {
    match CaseModel.FindById(db.cases, id)
    case None => Next(ErrorHandler(CaseNotFound, 404))
    case Some(c) => Sent(200, OneCase(c))
  }

  /** `createCase`: `Case.create` on the body as it is, so a new case also
      opens a pending record. Its error is passed on: a failed transaction
      leaves the database as it was, a failed read-back after the commit
      leaves the new case and its record in place. */
  function CreateCase(db: Db, data: CaseModel.CaseData, now: Time, fault: Option<CaseModel.CreateFault>): (r: (Db, Reply<CaseBody>))
    requires db.Valid()
    ensures r.0.Valid()
    ensures r.1.Next? <==> fault.Some?
    ensures r.1.Next? ==> r.1.error == fault.value.error
    ensures r.1.Next? && fault.value.InTransaction? ==> r.0 == db
    ensures r.1.Next? && fault.value.AfterCommit? ==> CaseModel.CreatedCase(db, r.0, db.cases.next, data, now)
    ensures r.1.Sent? ==> r.1.status == 201 && r.1.body.OneCase?
    ensures r.1.Sent? ==> CaseModel.CreatedCase(db, r.0, r.1.body.caseObj.caseId, data, now)
  {
    match CaseModel.Create(db, data, now, fault)
    case (db1, Fail(e)) => (db1, Next(e))
    case (db1, Ok(c)) => (db1, Sent(201, OneCase(c)))
  }

  /** Loads case `id`, applies `change` to the object and saves it; the
      response carries the object as set, not as re-read. */
  function UpdateWith(db: Db, id: Id, change: Case -> Case, now: Time): (r: (Db, Reply<CaseBody>))
    ensures r.1.Next? <==> id !in db.cases.rows
    ensures OnlyCaseChanged(db, r.0, id)
    ensures r.1.Next? ==> r.0 == db && r.1.error == ErrorHandler(CaseNotFound, 404)
    ensures r.1.Sent? ==> r.1.status == 200 && r.1.body.OneCase? && r.1.body.caseObj.caseId == id
    ensures r.1.Sent? ==>
      r.0.cases.rows[id] == change(db.cases.rows[id]).(createdAt := db.cases.rows[id].createdAt, updatedAt := now)
    ensures db.Valid() ==> r.0.Valid()
  {
    match CaseModel.FindById(db.cases, id)
    case None => (db, Next(ErrorHandler(CaseNotFound, 404)))
    case Some(c) =>
      var c1 := CaseModel.CaseObj(id, change(c.row));
      (db.(cases := CaseModel.Save(db.cases, c1, now)), Sent(200, OneCase(c1)))
  }

  function SetStatus(status: Option<string>): Case -> Case {
    (c: Case) => c.(status := status)
  }

  function SetPriority(priority: Option<string>): Case -> Case {
    (c: Case) => c.(priority := priority)
  }

  function SetAssignee(officerId: Option<Id>): Case -> Case {
    (c: Case) => c.(assignedTo := officerId)
  }

  /** `updateCaseStatus`: the case's status becomes the body's `status`
      (NULL when absent); no other column but `updatedAt` changes. */
  function UpdateCaseStatus(db: Db, id: Id, status: Option<string>, now: Time): (r: (Db, Reply<CaseBody>))
    ensures r.1.Next? <==> id !in db.cases.rows
    ensures OnlyCaseChanged(db, r.0, id)
    ensures r.1.Next? ==> r.0 == db && r.1.error == ErrorHandler(CaseNotFound, 404)
    ensures r.1.Sent? ==>
      && r.0.cases.rows[id].status == status && r.0.cases.rows[id].updatedAt == now
      && SameExcept(r.0.cases.rows[id], db.cases.rows[id], StatusField)
    ensures db.Valid() ==> r.0.Valid()
  {
    UpdateWith(db, id, SetStatus(status), now)
  }

  /** `updateCasePriority`: the case's priority becomes the body's
      `priority`; no other column but `updatedAt` changes. */
  function UpdateCasePriority(db: Db, id: Id, priority: Option<string>, now: Time): (r: (Db, Reply<CaseBody>))
    ensures r.1.Next? <==> id !in db.cases.rows
    ensures OnlyCaseChanged(db, r.0, id)
    ensures r.1.Next? ==> r.0 == db && r.1.error == ErrorHandler(CaseNotFound, 404)
    ensures r.1.Sent? ==>
      && r.0.cases.rows[id].priority == priority && r.0.cases.rows[id].updatedAt == now
      && SameExcept(r.0.cases.rows[id], db.cases.rows[id], PriorityField)
    ensures db.Valid() ==> r.0.Valid()
  {
    UpdateWith(db, id, SetPriority(priority), now)
  }

  /** `assignOfficer`: the case's `assignedTo` becomes the body's
      `officerId`, as given (a 0 is written as 0); no other column but
      `updatedAt` changes, and the case's records keep their officer. */
  function AssignOfficer(db: Db, id: Id, officerId: Option<Id>, now: Time): (r: (Db, Reply<CaseBody>))
    ensures r.1.Next? <==> id !in db.cases.rows
    ensures OnlyCaseChanged(db, r.0, id)
    ensures r.1.Next? ==> r.0 == db && r.1.error == ErrorHandler(CaseNotFound, 404)
    ensures r.1.Sent? ==>
      && r.0.cases.rows[id].assignedTo == officerId && r.0.cases.rows[id].updatedAt == now
      && SameExcept(r.0.cases.rows[id], db.cases.rows[id], AssigneeField)
    ensures db.Valid() ==> r.0.Valid()
  {
    UpdateWith(db, id, SetAssignee(officerId), now)
  }

  /** `deleteCase`: a 404, or the case removed; its records stay. */
  function DeleteCase(db: Db, id: Id): (r: (Db, Reply<CaseBody>))
    ensures r.1.Next? <==> id !in db.cases.rows
    ensures r.1.Next? ==> r.0 == db && r.1.error == ErrorHandler(CaseNotFound, 404)
    ensures r.1.Sent? ==> r.1 == Sent(200, Deleted(CaseDeleted))
    ensures r.1.Sent? ==> r.0.cases.rows == db.cases.rows - {id}
    ensures r.0 == db.(cases := r.0.cases)
    ensures db.Valid() ==> r.0.Valid()
  {
    match CaseModel.FindById(db.cases, id)
    case None => (db, Next(ErrorHandler(CaseNotFound, 404)))
    case Some(_) => (CaseModel.DeleteById(db, id), Sent(200, Deleted(CaseDeleted)))
  }

  /** A case created by `createCase` is then read back by `getCase` as it
      was returned. */
  lemma {:induction false} CreateThenGet(db: Db, data: CaseModel.CaseData, now: Time)
    requires db.Valid()
    ensures var (db1, reply) := CreateCase(db, data, now, None);
      reply.Sent? && GetCase(db1, reply.body.caseObj.caseId) == Sent(200, reply.body)
  {
    CaseModel.CreateThenFind(db, data, now);
  }

  /** Updating the status and then the priority of a case sets both and
      keeps every other column but `updatedAt`; the two updaters do not
      undo each other. */
  lemma {:induction false} StatusThenPriority(db: Db, id: Id, status: Option<string>, priority: Option<string>,
                                              now: Time, later: Time)
    requires id in db.cases.rows
    ensures var db1 := UpdateCaseStatus(db, id, status, now).0;
      var db2 := UpdateCasePriority(db1, id, priority, later).0;
      db2.cases.rows[id] == db.cases.rows[id].(status := status, priority := priority, updatedAt := later)
  {
    var db1 := UpdateCaseStatus(db, id, status, now).0;
    var db2 := UpdateCasePriority(db1, id, priority, later).0;
    assert SameExcept(db1.cases.rows[id], db.cases.rows[id], StatusField);
    assert SameExcept(db2.cases.rows[id], db1.cases.rows[id], PriorityField);
  }

  /** Deleting a case that `createCase` just opened leaves its opening
      record behind, pointing at a case that no longer exists. */
  lemma {:induction false} DeleteLeavesOrphanRecord(db: Db, data: CaseModel.CaseData, now: Time)
    requires db.Valid()
    ensures var (db1, reply) := CreateCase(db, data, now, None);
      var caseId := reply.body.caseObj.caseId;
      var db2 := DeleteCase(db1, caseId).0;
      && GetCase(db2, caseId).Next?
      && exists rid :: rid in db2.caserecords.rows && db2.caserecords.rows[rid].caseId == Some(caseId)
  {
    var (db1, reply) := CreateCase(db, data, now, None);
    var caseId := reply.body.caseObj.caseId;
    var rid :| rid !in db.caserecords.rows
      && db1.caserecords.rows == db.caserecords.rows[rid := CaseModel.OpeningRecord(caseId, data, now)];
    assert db1.caserecords.rows[rid].caseId == Some(caseId);
  }
}

=== FILE: case_model.dfy ===
/** The `Case` model over the `cases` table. `create` is the one model
    operation that runs in its own transaction: it inserts the case and, in the
    same transaction, the `caserecords` row that opens its file. */
module CaseModel {
  import opened Basics
  import opened Tables
  import opened Schema
  import opened Errors

  /** A `Case` instance: its key and the row it was read from. */
  datatype CaseObj = CaseObj(caseId: Id, row: Case)

  /** The fields `Case.create` reads from its argument. */
  datatype CaseData = CaseData(
    incidentType: Option<string>,
    dateTime: Option<string>,
    location: Option<string>,
    status: Option<string>,
    priority: Option<string>,
    description: Option<string>,
    assignedTo: Option<Id>)

  /** The `cases` row `Case.create` inserts: `status || 'pending'`,
      `priority || 'low'`, `assignedTo || null`, the descriptive fields as
      given, both timestamps the clock. */
  function NewCase(data: CaseData, now: Time): (c: Case)
    ensures Truthy(c.status) && Truthy(c.priority)
    ensures Truthy(data.status) ==> c.status == data.status
    ensures !Truthy(data.status) ==> c.status == Some(Pending)
    ensures Truthy(data.priority) ==> c.priority == data.priority
    ensures !Truthy(data.priority) ==> c.priority == Some(Low)
    ensures c.assignedTo.None? || Present(c.assignedTo)
    ensures Present(data.assignedTo) ==> c.assignedTo == data.assignedTo
    ensures c.incidentType == data.incidentType && c.dateTime == data.dateTime
    ensures c.location == data.location && c.description == data.description
    ensures c.createdAt == now && c.updatedAt == now
  {
    Case(data.incidentType, data.dateTime, data.location,
         OrElse(data.status, Pending), OrElse(data.priority, Low),
         data.description, OrNull(data.assignedTo), now, now)
  }

  /** The `caserecords` row `Case.create` opens for a new case: the case, its
      assigned officer, `'active'`, `'pending'`, and nothing else linked. */
  function OpeningRecord(caseId: Id, data: CaseData, now: Time): (row: CaseRecord)
    ensures row.caseId == Some(caseId)
    ensures row.officerId == OrNull(data.assignedTo)
    ensures row.status == Some(Active) && row.approvalStatus == Some(Pending)
    ensures row.victimId.None? && row.suspectId.None? && row.evidenceId.None?
    ensures row.witnessId.None? && row.createdBy.None?
    ensures row.approvalDate.None? && row.approvedBy.None? && row.rejectionReason.None?
    ensures row.dateCreated == now && row.lastUpdated == now
  {
    CaseRecord(Some(caseId), None, None, None, None, OrNull(data.assignedTo), None,
               Some(Active), Some(Pending), None, None, None, now, now)
  }

  /** Where `Case.create` throws. `InTransaction`: one of the two inserts or
      the commit fails, and the rollback undoes the transaction.
      `AfterCommit`: the read-back `Case.findById` fails; it runs on the pool
      after the commit, so the rollback has nothing left to undo. */
  datatype CreateFault = InTransaction(error: JsError) | AfterCommit(error: JsError)

  /** `Case.create(data)`. Both inserts run in one transaction. A failure
      inside it leaves the database exactly as before; a failure of the
      read-back after the commit keeps the new case and its record. Either
      way the error is rethrown. Otherwise a new case and exactly one new
      record pointing at it are committed, and the case is returned as read
      back. */
  function Create(db: Db, data: CaseData, now: Time, fault: Option<CreateFault>): (r: (Db, Result<CaseObj>))
    requires db.Valid()
    ensures r.0.Valid()
    ensures fault.Some? ==> r.1 == Fail(fault.value.error)
    ensures fault.Some? && fault.value.InTransaction? ==> r.0 == db
    ensures fault.Some? && fault.value.AfterCommit? ==> CreatedCase(db, r.0, db.cases.next, data, now)
    ensures fault.None? ==> r.1.Ok? && CreatedCase(db, r.0, r.1.value.caseId, data, now)
    ensures fault.None? ==> r.1.value.caseId == db.cases.next && r.1.value.row == NewCase(data, now)
  {
    var (cases, caseId) := Insert(db.cases, NewCase(data, now));
    var (records, _) := Insert(db.caserecords, OpeningRecord(caseId, data, now));
    var committed := db.(cases := cases, caserecords := records);
    match fault
    case Some(InTransaction(e)) => (db, Fail(e))
    case Some(AfterCommit(e)) => (committed, Fail(e))
    case None => (committed, Ok(CaseObj(caseId, NewCase(data, now))))
  }

  /** A read-back that fails after the commit leaves the database as a
      successful create does, although the caller receives an error. */
  lemma FailedReadBackKeepsCase(db: Db, data: CaseData, now: Time, e: JsError)
    requires db.Valid()
    ensures Create(db, data, now, Some(AfterCommit(e))).0 == Create(db, data, now, None).0
    ensures Create(db, data, now, Some(AfterCommit(e))).0 != db
  {
  }

  /** `after` is `before` plus the case `caseId` built from `data` and one new
      `caserecords` row opening it; no other row of any table changed. */
  ghost predicate CreatedCase(before: Db, after: Db, caseId: Id, data: CaseData, now: Time) {
    && caseId !in before.cases.rows
    && after.cases.rows == before.cases.rows[caseId := NewCase(data, now)]
    && (exists rid: Id :: rid !in before.caserecords.rows
          && after.caserecords.rows == before.caserecords.rows[rid := OpeningRecord(caseId, data, now)])
    && after.victims == before.victims && after.suspects == before.suspects
    && after.evidence == before.evidence && after.witnesses == before.witnesses
    && after.users == before.users
  }

  /** `Case.findAll()`: every case, by ascending key. */
  function FindAll(t: Table<Case>): (r: seq<CaseObj>)
    ensures t.Valid() ==> forall o :: o in r <==> o.caseId in t.rows && t.rows[o.caseId] == o.row
    ensures forall i, j :: 0 <= i < j < |r| ==> r[i].caseId < r[j].caseId
  {
    Collect(t, t.next)
  }

  /** The cases whose key is below `n`, by ascending key. */
  function Collect(t: Table<Case>, n: nat): (r: seq<CaseObj>)
    ensures forall o :: o in r <==> o.caseId < n && o.caseId in t.rows && t.rows[o.caseId] == o.row
    ensures forall i, j :: 0 <= i < j < |r| ==> r[i].caseId < r[j].caseId
  {
    if n == 0 then []
    else
      var prefix := Collect(t, n - 1);
      if n - 1 in t.rows then prefix + [CaseObj(n - 1, t.rows[n - 1])] else prefix
  }

  /** `Case.findById(id)`: the case stored under `id`, or null. */
  function FindById(t: Table<Case>, id: Id): (r: Option<CaseObj>)
    ensures r.None? <==> id !in t.rows
    ensures r.Some? ==> r.value.caseId == id && r.value.row == t.rows[id]
  {
    if id in t.rows then Some(CaseObj(id, t.rows[id])) else None
  }

  /** `case_.save()`: writes every descriptive column and `assignedTo` from
      the object, sets `updatedAt` to the clock, and keeps `createdAt`; a key
      no row has matches nothing. */
  function Save(t: Table<Case>, obj: CaseObj, now: Time): (r: Table<Case>)
    ensures r.next == t.next && r.rows.Keys == t.rows.Keys
    ensures obj.caseId in t.rows ==>
      r.rows[obj.caseId] == obj.row.(createdAt := t.rows[obj.caseId].createdAt, updatedAt := now)
    ensures forall k :: k in t.rows && k != obj.caseId ==> r.rows[k] == t.rows[k]
    ensures t.Valid() ==> r.Valid()
  {
    if obj.caseId in t.rows
    then Put(t, obj.caseId, obj.row.(createdAt := t.rows[obj.caseId].createdAt, updatedAt := now))
    else t
  }

  /** `Case.deleteById(id)`: removes the case row only; records that point at
      it are left in place. */
  function DeleteById(db: Db, id: Id): (r: Db)
    ensures FindById(r.cases, id).None?
    ensures forall k :: k != id ==> FindById(r.cases, k) == FindById(db.cases, k)
    ensures r.caserecords == db.caserecords
    ensures db.Valid() ==> r.Valid()
  {
    db.(cases := Remove(db.cases, id))
  }

  /** A case created without a fault can be found again under the key it was
      returned with, and holds what was asked for. */
  lemma CreateThenFind(db: Db, data: CaseData, now: Time)
    requires db.Valid()
    ensures var (db', res) := Create(db, data, now, None);
      res.Ok? && FindById(db'.cases, res.value.caseId) == Some(res.value)
  {
  }

  /** Every record's `caseId` is a key the case table has already handed
      out (the case may since have been deleted). */
  predicate CaseRefsIssued(db: Db) {
    forall k :: k in db.caserecords.rows && db.caserecords.rows[k].caseId.Some? ==>
      db.caserecords.rows[k].caseId.value < db.cases.next
  }

  /** The record a new case opens is pending approval and carries the case's
      officer; when every existing record refers to an issued case key, it is
      the only record that refers to the new case. */
  lemma {:induction false} CreateOpensOnePendingRecord(db: Db, data: CaseData, now: Time)
    requires db.Valid() && CaseRefsIssued(db)
    ensures var (db', res) := Create(db, data, now, None);
      res.Ok? &&
      exists rid :: rid in db'.caserecords.rows && rid !in db.caserecords.rows
        && db'.caserecords.rows[rid].caseId == Some(res.value.caseId)
        && db'.caserecords.rows[rid].approvalStatus == Some(Pending)
        && db'.caserecords.rows[rid].officerId == OrNull(data.assignedTo)
        && forall k :: k in db'.caserecords.rows && k != rid ==> db'.caserecords.rows[k].caseId != Some(res.value.caseId)
  {
    var (db', res) := Create(db, data, now, None);
    var caseId := res.value.caseId;
    assert caseId == db.cases.next;
    var rid := db.caserecords.next;
    assert db'.caserecords.rows == db.caserecords.rows[rid := OpeningRecord(caseId, data, now)];
    forall k | k in db'.caserecords.rows && k != rid ensures db'.caserecords.rows[k].caseId != Some(caseId) {
      assert k in db.caserecords.rows;
    }
  }

  /** Creating a case keeps every record's case reference issued. */
  lemma CreateKeepsCaseRefsIssued(db: Db, data: CaseData, now: Time, fault: Option<CreateFault>)
    requires db.Valid() && CaseRefsIssued(db)
    ensures CaseRefsIssued(Create(db, data, now, fault).0)
  {
  }
}

=== FILE: errors.dfy ===
/** Errors as the handlers raise them and as the central error middleware turns
    them into the uniform `{success: false, message}` reply. */
module Errors {
  import opened Basics

  /** A JavaScript error object, reduced to the properties the middleware reads:
      `name`, `message`, `statusCode`, the driver's `code`, and the messages of
      a validation error's `errors`. */
  datatype JsError = JsError(
    name: ErrorName,
    message: string,
    statusCode: Option<int>,
    code: Option<DriverCode>,
    errors: seq<string>)

  /** The `name` property: "Error", "TypeError", the two names the token
      library uses, the two names of schema-validation libraries, or another. */
  datatype ErrorName =
    | PlainError | TypeError | JsonWebTokenError | TokenExpiredError
    | ValidationError | CastError | OtherName(text: string)

  /** The `code` property the MySQL driver sets: ER_DUP_ENTRY,
      ER_NO_REFERENCED_ROW, ER_BAD_FIELD_ERROR, ER_NO_DEFAULT_FOR_FIELD,
      ER_DATA_TOO_LONG, ECONNREFUSED, ER_WRONG_ARGUMENTS, or another. */
  datatype DriverCode =
    | DupEntry | NoReferencedRow | BadField | NoDefaultForField | DataTooLong
    | ConnRefused | WrongArguments | OtherCode(text: string)

  /** `new ErrorHandler(message, statusCode)`: an `Error` subclass, so its name is
      "Error" and it carries no driver code. */
  function ErrorHandler(message: string, statusCode: int): JsError {
    JsError(PlainError, message, Some(statusCode), None, [])
  }

  /** The `TypeError` JavaScript raises when a property of `undefined` is read. */
  function UndefinedProperty(property: string): JsError {
    JsError(TypeError, "Cannot read properties of undefined (reading '" + property + "')", None, None, [])
  }

  /** What a model function yields: a value, or an exception it throws. A
      middleware also yields `Fail` when it calls `next(err)`. */
  datatype Result<+T> = Ok(value: T) | Fail(error: JsError)

  /** What a controller does with the response: `res.status(status).json(body)`,
      or `next(error)`, which hands the error to the middleware below. */
  datatype Reply<+T> = Sent(status: int, body: T) | Next(error: JsError)

  /** What a middleware does: call `next()` so the chain continues, or call
      `next(error)`. */
  datatype Gate = Proceed | Halt(error: JsError)

  /** The JSON error envelope and its HTTP status. */
  datatype ErrorResponse = ErrorResponse(status: int, success: bool, message: string)

  /** A translation rule: which property it tests and the value it looks for. */
  datatype Match = ByCode(code: DriverCode) | ByName(name: ErrorName)

  /** The rules, in the order the middleware applies them. */
  const Rules: seq<Match> := [
    ByCode(DupEntry), ByCode(NoReferencedRow), ByCode(BadField), ByCode(NoDefaultForField),
    ByCode(DataTooLong), ByName(JsonWebTokenError), ByName(TokenExpiredError),
    ByName(ValidationError), ByName(CastError), ByCode(ConnRefused)
  ]

  predicate Matches(err: JsError, m: Match) {
    match m
    case ByCode(c) => err.code == Some(c)
    case ByName(n) => err.name == n
  }

  /** The fresh `ErrorHandler` a matching rule puts in place of the error. */
  function Replacement(err: JsError, m: Match): JsError {
    match m
    case ByCode(DupEntry) => ErrorHandler("Duplicate entry found", 400)
    case ByCode(NoReferencedRow) => ErrorHandler("Referenced record not found", 400)
    case ByCode(BadField) => ErrorHandler("Invalid field in database query", 400)
    case ByCode(NoDefaultForField) => ErrorHandler("Missing required field", 400)
    case ByCode(DataTooLong) => ErrorHandler("Data too long for field", 400)
    case ByName(JsonWebTokenError) => ErrorHandler("Invalid token. Please log in again.", 401)
    case ByName(TokenExpiredError) => ErrorHandler("Token expired. Please log in again.", 401)
    case ByName(ValidationError) => ErrorHandler(Join(err.errors, ", "), 400)
    case ByName(CastError) => ErrorHandler("Invalid data format", 400)
    case ByCode(ConnRefused) => ErrorHandler("Database connection failed", 503)
    case _ => err
  }

  /** One `if (...) err = new ErrorHandler(...)` of the middleware. */
  function ApplyRule(err: JsError, m: Match): JsError {
    if Matches(err, m) then Replacement(err, m) else err
  }

  /** The rules applied one after another, each to the error the previous one
      left behind. */
  function ApplyAll(err: JsError, rules: seq<Match>, from: nat): (r: JsError)
    ensures (forall i :: from <= i < |rules| ==> !Matches(err, rules[i])) ==> r == err
    ensures r == err || (r.name == PlainError && r.code.None? && r.errors == [])
    decreases |rules| - from
  {
    if from >= |rules| then err else ApplyAll(ApplyRule(err, rules[from]), rules, from + 1)
  }

  /** Reference reading of the chain: the first rule that matches the original
      error, if any. */
  function FirstMatch(err: JsError, rules: seq<Match>, from: nat): (r: Option<Match>)
    ensures r.Some? ==> r.value in rules && Matches(err, r.value)
    ensures r.None? <==> forall i :: from <= i < |rules| ==> !Matches(err, rules[i])
    decreases |rules| - from
  {
    if from >= |rules| then None
    else if Matches(err, rules[from]) then Some(rules[from])
    else FirstMatch(err, rules, from + 1)
  }

  /** `err.statusCode = err.statusCode || 500; err.message = err.message || "Internal Server Error"`. */
  function WithDefaults(err: JsError): (r: JsError)
    ensures Present(r.statusCode) && r.message != ""
    ensures Present(err.statusCode) ==> r.statusCode == err.statusCode
    ensures !Present(err.statusCode) ==> r.statusCode == Some(500)
    ensures err.message != "" ==> r.message == err.message
    ensures err.message == "" ==> r.message == "Internal Server Error"
    ensures r.name == err.name && r.code == err.code && r.errors == err.errors
  {
    err.(statusCode := if Present(err.statusCode) then err.statusCode else Some(500),
         message := if err.message != "" then err.message else "Internal Server Error")
  }

  /** `errorMiddleware`: defaults, then the translation rules, then the
      envelope. */
  function ErrorMiddleware(err: JsError): (r: ErrorResponse)
    ensures !r.success
  {
    var e := ApplyAll(WithDefaults(err), Rules, 0);
    ErrorResponse(e.statusCode.GetOr(500), false, e.message)
  }

  /** A rule the middleware has a replacement for; none of them tests for the
      name "Error". */
  predicate Known(m: Match) {
    match m
    case ByCode(c) => !c.OtherCode? && c != WrongArguments
    case ByName(n) => n in {JsonWebTokenError, TokenExpiredError, ValidationError, CastError}
  }

  /** Every rule is known, so an `ErrorHandler` never matches a rule, and a
      replacement is never replaced again. */
  predicate HandlerInert(rules: seq<Match>) {
    forall i :: 0 <= i < |rules| ==> Known(rules[i])
  }

  /** The rule table holds known rules only. */
  lemma RulesWellFormed()
    ensures HandlerInert(Rules)
  {
  }

  /** The sequential chain is the first-match table: the replacement of the
      first rule matching the original error, or the error itself. */
  lemma {:induction false} ApplyAllIsFirstMatch(err: JsError, rules: seq<Match>, from: nat)
    requires HandlerInert(rules)
    ensures ApplyAll(err, rules, from) ==
      (match FirstMatch(err, rules, from)
       case None => err
       case Some(rule) => Replacement(err, rule))
    decreases |rules| - from
  {
    if from < |rules| {
      if Matches(err, rules[from]) {
        InertAfterReplacement(Replacement(err, rules[from]), rules, from + 1);
      } else {
        ApplyAllIsFirstMatch(err, rules, from + 1);
      }
    }
  }

  /** A replacement passes unchanged through the remaining rules. */
  lemma {:induction false} InertAfterReplacement(e: JsError, rules: seq<Match>, from: nat)
    requires e.name == PlainError && e.code.None?
    requires HandlerInert(rules)
    ensures ApplyAll(e, rules, from) == e
    decreases |rules| - from
  {
    if from < |rules| {
      assert !Matches(e, rules[from]);
      InertAfterReplacement(e, rules, from + 1);
    }
  }

  /** The first-match table picks rule `i` when it matches and no earlier
      rule does. */
  lemma {:induction false} FirstMatchAt(err: JsError, rules: seq<Match>, from: nat, i: nat)
    requires from <= i < |rules| && Matches(err, rules[i])
    requires forall j :: from <= j < i ==> !Matches(err, rules[j])
    ensures FirstMatch(err, rules, from) == Some(rules[i])
    decreases i - from
  {
    if from < i {
      assert !Matches(err, rules[from]);
      FirstMatchAt(err, rules, from + 1, i);
    }
  }

  /** The middleware's reply is the envelope of the first-match reading of
      the defaulted error. */
  lemma MiddlewareTranslates(err: JsError)
    ensures var d := WithDefaults(err);
      ErrorMiddleware(err) ==
        (match FirstMatch(d, Rules, 0)
         case None => ErrorResponse(d.statusCode.GetOr(500), false, d.message)
         case Some(rule) => ErrorResponse(Replacement(d, rule).statusCode.GetOr(500), false, Replacement(d, rule).message))
  {
    RulesWellFormed();
    ApplyAllIsFirstMatch(WithDefaults(err), Rules, 0);
  }

  /** The five MySQL driver codes each become a 400 with a fixed message,
      whatever the error's name. */
  lemma DriverCodesAre400(err: JsError)
    requires err.code.Some? && err.code.value in {DupEntry, NoReferencedRow, BadField, NoDefaultForField, DataTooLong}
    ensures ErrorMiddleware(err).status == 400
    ensures err.code == Some(DupEntry) ==> ErrorMiddleware(err).message == "Duplicate entry found"
    ensures err.code == Some(NoReferencedRow) ==> ErrorMiddleware(err).message == "Referenced record not found"
    ensures err.code == Some(BadField) ==> ErrorMiddleware(err).message == "Invalid field in database query"
    ensures err.code == Some(NoDefaultForField) ==> ErrorMiddleware(err).message == "Missing required field"
    ensures err.code == Some(DataTooLong) ==> ErrorMiddleware(err).message == "Data too long for field"
  {
    var d := WithDefaults(err);
    MiddlewareTranslates(err);
    var i := if err.code == Some(DupEntry) then 0
      else if err.code == Some(NoReferencedRow) then 1
      else if err.code == Some(BadField) then 2
      else if err.code == Some(NoDefaultForField) then 3
      else 4;
    FirstMatchAt(d, Rules, 0, i);
  }

  /** A token that fails verification becomes a 401, unless a driver code
      ruled first. */
  lemma InvalidTokenIs401(err: JsError)
    requires err.name == JsonWebTokenError && err.code.None?
    ensures ErrorMiddleware(err) == ErrorResponse(401, false, "Invalid token. Please log in again.")
  {
    var d := WithDefaults(err);
    MiddlewareTranslates(err);
    FirstMatchAt(d, Rules, 0, 5);
  }

  /** An expired token becomes a 401 as well, with its own message. */
  lemma ExpiredTokenIs401(err: JsError)
    requires err.name == TokenExpiredError && err.code.None?
    ensures ErrorMiddleware(err) == ErrorResponse(401, false, "Token expired. Please log in again.")
  {
    var d := WithDefaults(err);
    MiddlewareTranslates(err);
    FirstMatchAt(d, Rules, 0, 6);
  }

  /** A refused database connection (a plain "Error" carrying that code) becomes a 503. */
  lemma ConnectionRefusedIs503(err: JsError)
    requires err.code == Some(ConnRefused) && err.name == PlainError
    ensures ErrorMiddleware(err) == ErrorResponse(503, false, "Database connection failed")
  {
    var d := WithDefaults(err);
    MiddlewareTranslates(err);
    FirstMatchAt(d, Rules, 0, 9);
  }

  /** A validation error becomes a 400 whose message is its messages joined by ", ". */
  lemma ValidationErrorJoins(err: JsError)
    requires err.name == ValidationError && err.code.None?
    ensures ErrorMiddleware(err) == ErrorResponse(400, false, Join(err.errors, ", "))
  {
    var d := WithDefaults(err);
    MiddlewareTranslates(err);
    FirstMatchAt(d, Rules, 0, 7);
  }

  /** An error no rule recognises keeps its own status and message, with 500
      and "Internal Server Error" standing in for missing ones. */
  lemma UnrecognisedErrorsKeepStatus(err: JsError)
    requires forall i :: 0 <= i < |Rules| ==> !Matches(err, Rules[i])
    ensures ErrorMiddleware(err).status == (if Present(err.statusCode) then err.statusCode.value else 500)
    ensures ErrorMiddleware(err).message == (if err.message != "" then err.message else "Internal Server Error")
  {
    var d := WithDefaults(err);
    assert forall i :: 0 <= i < |Rules| ==> (Matches(d, Rules[i]) <==> Matches(err, Rules[i]));
    RulesWellFormed();
    ApplyAllIsFirstMatch(d, Rules, 0);
  }

  /** What a controller raises with `next(new ErrorHandler(message, status))`
      reaches the client with exactly that status and message. */
  lemma HandlerErrorRoundTrip(message: string, status: int)
    requires message != "" && status != 0
    ensures ErrorMiddleware(ErrorHandler(message, status)) == ErrorResponse(status, false, message)
  {
    UnrecognisedErrorsKeepStatus(ErrorHandler(message, status));
  }
}

=== FILE: evidence_model.dfy ===
/** The `Evidence` model over the `evidence` table. `create` may also link the
    new evidence into an existing record. */
module EvidenceModel {
  import opened Basics
  import opened Tables
  import opened Schema
  import RecordModel

  /** An `Evidence` instance: its key and the row it was read from. */
  datatype EvidenceObj = EvidenceObj(evidenceId: Id, row: Evidence)

  /** The fields `Evidence.create` reads. `recordId` is the argument's
      `evidenceId` field, which the model uses as the key of the record to link
      the new evidence into. */
  datatype EvidenceData = EvidenceData(
    substances: Option<string>,
    description: Option<string>,
    location: Option<string>,
    dateTime: Option<string>,
    collectedBy: Option<Id>,
    storageLocation: Option<string>,
    status: Option<string>,
    recordId: Option<Id>)

  /** `Evidence.create(data)`: inserts the evidence row under a fresh key and, when
      `recordId` is truthy, points that record's `evidenceId` at it. */
  function Create(db: Db, data: EvidenceData, now: Time): (r: (Db, EvidenceObj))
    requires db.Valid()
    ensures r.0.Valid()
    ensures r.1.evidenceId !in db.evidence.rows
    ensures r.0.evidence.rows == db.evidence.rows[r.1.evidenceId := r.1.row]
    ensures r.1.row == Evidence(data.substances, data.description, data.location, data.dateTime, data.collectedBy,
                              data.storageLocation, data.status, now, now)
    ensures RecordModel.LinkedAt(db.caserecords, r.0.caserecords, data.recordId,
                                 RecordModel.EvidenceLink, r.1.evidenceId, now)
    ensures !Present(data.recordId) ==> r.0.caserecords == db.caserecords
    ensures r.0.cases == db.cases && r.0.suspects == db.suspects && r.0.victims == db.victims
    ensures r.0.witnesses == db.witnesses && r.0.users == db.users
  {
    var row := Evidence(data.substances, data.description, data.location, data.dateTime, data.collectedBy,
                              data.storageLocation, data.status, now, now);
    var (evidence, id) := Insert(db.evidence, row);
    var records :=
      if Present(data.recordId)
      then RecordModel.BackFill(db.caserecords, data.recordId.value, RecordModel.EvidenceLink, id, now)
      else db.caserecords;
    (db.(evidence := evidence, caserecords := records), EvidenceObj(id, row))
  }

  /** `Evidence.findById(id)`: the evidence stored under `id`, or null. */
  function FindById(t: Table<Evidence>, id: Id): (r: Option<EvidenceObj>)
    ensures r.None? <==> id !in t.rows
    ensures r.Some? ==> r.value.evidenceId == id && r.value.row == t.rows[id]
  {
    if id in t.rows then Some(EvidenceObj(id, t.rows[id])) else None
  }

  /** `evidence.save()`: writes substances, description, location, date and
      time, collector, storage location and status from the object and stamps `updatedAt`; `createdAt` and every
      other evidence are kept. */
  function Save(t: Table<Evidence>, obj: EvidenceObj, now: Time): (r: Table<Evidence>)
    ensures r.next == t.next && r.rows.Keys == t.rows.Keys
    ensures obj.evidenceId in t.rows ==>
      r.rows[obj.evidenceId] == obj.row.(createdAt := t.rows[obj.evidenceId].createdAt, updatedAt := now)
    ensures forall k :: k in t.rows && k != obj.evidenceId ==> r.rows[k] == t.rows[k]
    ensures t.Valid() ==> r.Valid()
  {
    if obj.evidenceId in t.rows
    then Put(t, obj.evidenceId, obj.row.(createdAt := t.rows[obj.evidenceId].createdAt, updatedAt := now))
    else t
  }

  /** `Evidence.deleteById(id)`: removes that evidence and no other row. */
  function DeleteById(t: Table<Evidence>, id: Id): (r: Table<Evidence>)
    ensures FindById(r, id).None?
    ensures forall k :: k != id ==> FindById(r, k) == FindById(t, k)
    ensures t.Valid() ==> r.Valid()
  {
    Remove(t, id)
  }

  /** A created evidence row is found again under its key. */
  lemma CreateThenFind(db: Db, data: EvidenceData, now: Time)
    requires db.Valid()
    ensures var (db', v) := Create(db, data, now);
      FindById(db'.evidence, v.evidenceId) == Some(v)
  {
  }

  /** Saving an evidence row as it was loaded changes only its `updatedAt`. */
  lemma SaveAfterLoad(t: Table<Evidence>, id: Id, now: Time)
    requires id in t.rows
    ensures Save(t, FindById(t, id).value, now).rows[id] == t.rows[id].(updatedAt := now)
  {
  }
}

=== FILE: record_controller.dfy ===
/** The record controller: manual insertion, the composite create, the
    filtered and paginated listing, the pending queue, approval and rejection,
    statistics, and single-record read, update and delete. Each handler maps
    the database, the request, the clock and (where it reads `req.user`) the
    principal to the new database and what is sent or passed to `next`. */
module RecordController {
  import opened Basics
  import opened Tables
  import opened Schema
  import opened Errors
  import opened RecordQuery
  import RecordModel
  import CaseModel
  import VictimModel
  import SuspectModel
  import EvidenceModel
  import ValidateInput

  /** The `pagination` object of the listing. `totalPages` is null when
      `Math.ceil(total / limit)` is not a finite number, i.e. when `limit` is
      0. */
  datatype Pagination = Pagination(currentPage: int, totalPages: Option<int>, totalRecords: nat, limit: int)

  /** The `statistics` object. */
  datatype Stats = Stats(
    totalRecords: nat,
    activeRecords: nat,
    closedRecords: nat,
    pendingApprovals: nat,
    approvedRecords: nat,
    rejectedRecords: nat,
    totalSuspects: nat,
    totalVictims: nat)

  /** The JSON bodies the handlers send (`success: true` is implied). */
  datatype Body =
    | Message(text: string)
    | Inserted(recordId: Id)
    | Created(record: RecordModel.Record, caseObj: CaseModel.CaseObj,
              victim: Option<VictimModel.VictimObj>, suspect: Option<SuspectModel.SuspectObj>,
              evidence: Option<EvidenceModel.EvidenceObj>)
    | Page(records: seq<Entry>, pagination: Pagination)
    | Records(records: seq<Entry>)
    | Statistics(stats: Stats)
    | One(record: RecordModel.Record)

  const RecordNotFound := "Record not found"
  const AlreadyProcessed := "Record is already processed"

  // ---------------------------------------------------------------------
  // Manual insertion

  /** The body of a manual insertion. */
  datatype ManualBody = ManualBody(
    caseId: Option<Id>,
    victimId: Option<Id>,
    suspectId: Option<Id>,
    evidenceId: Option<Id>,
    createdBy: Option<Id>)

  /** The row a manual insertion writes: the given references (absent ones
      NULL), no officer, `'active'`, `'pending'`, and no approval data. */
  function ManualRow(body: ManualBody, now: Time): (row: CaseRecord)
    ensures row.caseId == body.caseId && row.createdBy == body.createdBy
    ensures row.victimId == OrNull(body.victimId) && row.suspectId == OrNull(body.suspectId)
    ensures row.evidenceId == OrNull(body.evidenceId) && row.witnessId.None?
    ensures row.officerId.None?
    ensures row.status == Some(Active) && row.approvalStatus == Some(Pending)
    ensures row.approvalDate.None? && row.approvedBy.None? && row.rejectionReason.None?
    ensures row.dateCreated == now && row.lastUpdated == now
  {
    CaseRecord(body.caseId, OrNull(body.victimId), OrNull(body.suspectId), OrNull(body.evidenceId),
               None, None, body.createdBy, Some(Active), Some(Pending), None, None, None, now, now)
  }

  /** A truthy reference that names no row of the table. */
  predicate Dangling<T>(id: Option<Id>, t: Table<T>) {
    Present(id) && id.value !in t.rows
  }

  /** The first failed check of a manual insertion, if any: the required
      fields, then each reference in turn. */
  function ManualCheck(db: Db, body: ManualBody): (r: Option<JsError>)
    ensures r.None? <==>
      && Present(body.caseId) && Present(body.createdBy)
      && body.caseId.value in db.cases.rows && body.createdBy.value in db.users.rows
      && !Dangling(body.victimId, db.victims) && !Dangling(body.suspectId, db.suspects)
      && !Dangling(body.evidenceId, db.evidence)
    ensures !Present(body.caseId) || !Present(body.createdBy) ==>
      r == Some(ErrorHandler("caseId and createdBy are required", 400))
    ensures Present(body.caseId) && Present(body.createdBy) && r.Some? ==> r.value.statusCode == Some(404)
  {
    if !Present(body.caseId) || !Present(body.createdBy) then Some(ErrorHandler("caseId and createdBy are required", 400))
    else if body.caseId.value !in db.cases.rows then Some(ErrorHandler("Case not found", 404))
    else if Dangling(body.victimId, db.victims) then Some(ErrorHandler("Victim not found", 404))
    else if Dangling(body.suspectId, db.suspects) then Some(ErrorHandler("Suspect not found", 404))
    else if Dangling(body.evidenceId, db.evidence) then Some(ErrorHandler("Evidence not found", 404))
    else if body.createdBy.value !in db.users.rows then Some(ErrorHandler("CreatedBy user not found", 404))
    else None
  }

  /** `insertRecordManually`. Every check happens before any write; when the
      insert itself fails (`fault`), the transaction is rolled back and the
      error passed on. On success exactly one record is added, under a fresh
      key, and that key is sent with a 201. */
  function InsertRecordManually(db: Db, body: ManualBody, now: Time, fault: Option<JsError>): (r: (Db, Reply<Body>))
    requires db.Valid()
    ensures r.0.Valid()
    ensures r.1.Next? ==> r.0 == db
    ensures ManualCheck(db, body).Some? ==> r.1 == Next(ManualCheck(db, body).value)
    ensures ManualCheck(db, body).None? && fault.Some? ==> r.1 == Next(fault.value)
    ensures r.1.Sent? <==> ManualCheck(db, body).None? && fault.None?
    ensures r.1.Sent? ==>
      && r.1.status == 201 && r.1.body.Inserted?
      && r.1.body.recordId !in db.caserecords.rows
      && r.0 == db.(caserecords := Table(db.caserecords.rows[r.1.body.recordId := ManualRow(body, now)],
                                         r.0.caserecords.next))
  {
    match ManualCheck(db, body)
    case Some(e) => (db, Next(e))
    case None =>
      if fault.Some? then (db, Next(fault.value))
      else
        var (records, id) := Insert(db.caserecords, ManualRow(body, now));
        (db.(caserecords := records), Sent(201, Inserted(id)))
  }

  // ---------------------------------------------------------------------
  // Composite create

  /** The body of the composite create. */
  datatype RecordBody = RecordBody(
    caseDetails: Option<CaseModel.CaseData>,
    victimDetails: Option<VictimModel.VictimData>,
    suspectDetails: Option<SuspectModel.SuspectData>,
    evidenceDetails: Option<EvidenceModel.EvidenceData>,
    officerId: Option<Id>)

  /** The steps of the composite create, in order. */
  datatype Stage = CaseStage | VictimStage | SuspectStage | EvidenceStage | RecordStage

  /** The step `stage` throws. */
  predicate Strikes(fault: Option<(Stage, JsError)>, stage: Stage) {
    fault.Some? && fault.value.0 == stage
  }

  const DetailsAndOfficerRequired := "Case details and officer ID are required"
  const IncompleteCaseDetails := "Incomplete case details"

  /** The first failed check of the composite create, if any. */
  function CompleteCheck(body: RecordBody): (r: Option<JsError>)
    ensures r.None? <==> ValidateInput.CaseDetailsComplete(body.caseDetails) && Present(body.officerId)
    ensures body.caseDetails.None? || !Present(body.officerId) ==>
      r == Some(ErrorHandler(DetailsAndOfficerRequired, 400))
    ensures r.Some? ==> r.value.statusCode == Some(400)
  {
    if body.caseDetails.None? || !Present(body.officerId) then Some(ErrorHandler(DetailsAndOfficerRequired, 400))
    else if !ValidateInput.CaseDetailsComplete(body.caseDetails) then Some(ErrorHandler(IncompleteCaseDetails, 400))
    else None
  }

  /** `{...caseDetails, status: 'open', assignedTo: officerId}`. */
  function CaseArgument(body: RecordBody): CaseModel.CaseData
    requires body.caseDetails.Some?
  {
    body.caseDetails.value.(status := Some(Open), assignedTo := body.officerId)
  }

  /** `victimDetails ? Victim.create(victimDetails) : null`. */
  function MaybeVictim(db: Db, details: Option<VictimModel.VictimData>, now: Time): (r: (Db, Option<VictimModel.VictimObj>))
    requires db.Valid()
    ensures r.0.Valid() && r.1.Some? == details.Some?
    ensures details.None? ==> r.0 == db
    ensures details.Some? ==> db.victims.rows.Keys < r.0.victims.rows.Keys
    ensures r.0.cases == db.cases && r.0.suspects == db.suspects && r.0.evidence == db.evidence
    ensures KeepsRecords(db, r.0)
  {
    match details
    case None => (db, None)
    case Some(d) =>
      var (db', v) := VictimModel.Create(db, d, now);
      RecordModel.LinkKeepsWorkflow(db.caserecords, db'.caserecords, d.recordId, RecordModel.VictimLink, v.victimId, now);
      (db', Some(v))
  }

  /** `suspectDetails ? Suspect.create(suspectDetails) : null`. */
  function MaybeSuspect(db: Db, details: Option<SuspectModel.SuspectData>, now: Time): (r: (Db, Option<SuspectModel.SuspectObj>))
    requires db.Valid()
    ensures r.0.Valid() && r.1.Some? == details.Some?
    ensures details.None? ==> r.0 == db
    ensures details.Some? ==> db.suspects.rows.Keys < r.0.suspects.rows.Keys
    ensures r.0.cases == db.cases && r.0.victims == db.victims && r.0.evidence == db.evidence
    ensures KeepsRecords(db, r.0)
  {
    match details
    case None => (db, None)
    case Some(d) =>
      var (db', s) := SuspectModel.Create(db, d, now);
      RecordModel.LinkKeepsWorkflow(db.caserecords, db'.caserecords, d.recordId, RecordModel.SuspectLink, s.suspectId, now);
      (db', Some(s))
  }

  /** `evidenceDetails ? Evidence.create({...evidenceDetails, collectedBy: officerId}) : null`. */
  function MaybeEvidence(db: Db, details: Option<EvidenceModel.EvidenceData>, officerId: Option<Id>, now: Time): (r: (Db, Option<EvidenceModel.EvidenceObj>))
    requires db.Valid()
    ensures r.0.Valid() && r.1.Some? == details.Some?
    ensures details.None? ==> r.0 == db
    ensures r.1.Some? ==> r.1.value.row.collectedBy == officerId
    ensures details.Some? ==> db.evidence.rows.Keys < r.0.evidence.rows.Keys
    ensures r.0.cases == db.cases && r.0.victims == db.victims && r.0.suspects == db.suspects
    ensures KeepsRecords(db, r.0)
  {
    match details
    case None => (db, None)
    case Some(d) =>
      var d' := d.(collectedBy := officerId);
      var (db', e) := EvidenceModel.Create(db, d', now);
      RecordModel.LinkKeepsWorkflow(db.caserecords, db'.caserecords, d'.recordId, RecordModel.EvidenceLink, e.evidenceId, now);
      (db', Some(e))
  }

  /** The argument of the final `Record.create`: the new case, the new victim
      and suspect if any, no officer, the requesting user as creator,
      `'active'` and `'pending'`. The new evidence is not passed. */
  function RecordArgument(caseId: Id, victim: Option<VictimModel.VictimObj>, suspect: Option<SuspectModel.SuspectObj>,
                          user: Principal): RecordModel.RecordData {
    RecordModel.RecordData(
      Some(caseId),
      if victim.Some? then Some(victim.value.victimId) else None,
      None,
      if suspect.Some? then Some(suspect.value.suspectId) else None,
      Some(user.id), Some(Active), Some(Pending))
  }

  /** `createCompleteRecord`. The checks come first and write nothing. Then
      the case (with its own opening record), the victim, the suspect, the
      evidence and the main record are created one after the other; each
      step commits on its own, so a step that throws (`fault`) leaves every
      earlier step's rows in place and passes its error on. */
  function CreateCompleteRecord(db: Db, body: RecordBody, user: Principal, now: Time,
                                fault: Option<(Stage, JsError)>): (r: (Db, Reply<Body>))
    requires db.Valid()
    ensures r.0.Valid()
    ensures CompleteCheck(body).Some? ==> r == (db, Next(CompleteCheck(body).value))
    ensures CompleteCheck(body).None? && fault.None? ==> r.1.Sent? && r.1.status == 201 && r.1.body.Created?
    ensures r.1.Sent? ==> fault.None? || !Strikes(fault, CaseStage)
    ensures CompleteCheck(body).None? && Strikes(fault, CaseStage) ==> r == (db, Next(fault.value.1))
    ensures CompleteCheck(body).None? && fault.Some? && fault.value.0 != CaseStage && Runs(body, fault.value.0) ==>
      && r.1 == Next(fault.value.1)
      && db.cases.next !in db.cases.rows
      && r.0.cases.rows.Keys == db.cases.rows.Keys + {db.cases.next}
      && |r.0.caserecords.rows| == |db.caserecords.rows| + 1
    ensures KeepsRecords(db, r.0)
  {
    match CompleteCheck(body)
    case Some(e) => (db, Next(e))
    case None =>
      LaterFaultKeepsCase(db, body, user, now, fault);
      CreateSteps(db, body, user, now, fault)
  }

  /** The steps of the composite create once the checks have passed: the
      case, then the steps after it. */
  function CreateSteps(db: Db, body: RecordBody, user: Principal, now: Time,
                       fault: Option<(Stage, JsError)>): (r: (Db, Reply<Body>))
    requires db.Valid() && CompleteCheck(body).None?
    ensures r.0.Valid() && KeepsRecords(db, r.0)
    ensures fault.None? ==> r.1.Sent? && r.1.status == 201 && r.1.body.Created?
    ensures r.1.Sent? ==> fault.None? || !Strikes(fault, CaseStage)
    ensures Strikes(fault, CaseStage) ==> r == (db, Next(fault.value.1))
  {
    var (db1, created) := CaseModel.Create(db, CaseArgument(body), now,
                                           if Strikes(fault, CaseStage) then Some(CaseModel.InTransaction(fault.value.1)) else None);
    match created
    case Fail(e) => (db1, Next(e))
    case Ok(caseObj) =>
      CaseCreateKeepsRecords(db, db1, caseObj.caseId, CaseArgument(body), now);
      var r := AfterCase(db1, caseObj, body, user, now, fault);
      KeepsRecordsTransitive(db, db1, r.0);
      r
  }

  /** A step after the case that runs and throws passes its error on, and
      the case it follows stays, with its opening record. */
  lemma LaterFaultKeepsCase(db: Db, body: RecordBody, user: Principal, now: Time, fault: Option<(Stage, JsError)>)
    requires db.Valid() && CompleteCheck(body).None?
    ensures var r := CreateSteps(db, body, user, now, fault);
      fault.Some? && fault.value.0 != CaseStage && Runs(body, fault.value.0) ==>
      && r.1 == Next(fault.value.1)
      && db.cases.next !in db.cases.rows
      && r.0.cases.rows.Keys == db.cases.rows.Keys + {db.cases.next}
      && |r.0.caserecords.rows| == |db.caserecords.rows| + 1
  {
    if fault.Some? && fault.value.0 != CaseStage && Runs(body, fault.value.0) {
      var (db1, created) := CaseModel.Create(db, CaseArgument(body), now, None);
      CaseCreateKeepsRecords(db, db1, created.value.caseId, CaseArgument(body), now);
      assert db1.cases.rows.Keys == db.cases.rows.Keys + {db.cases.next};
    }
  }

  /** `Case.create` adds one record, the opening one, and touches no other. */
  lemma CaseCreateKeepsRecords(before: Db, after: Db, caseId: Id, data: CaseModel.CaseData, now: Time)
    requires CaseModel.CreatedCase(before, after, caseId, data, now)
    ensures KeepsRecords(before, after)
    ensures |after.caserecords.rows| == |before.caserecords.rows| + 1
  {
    var rid: Id :| rid !in before.caserecords.rows
      && after.caserecords.rows == before.caserecords.rows[rid := CaseModel.OpeningRecord(caseId, data, now)];
    assert after.caserecords.rows.Keys == before.caserecords.rows.Keys + {rid};
  }

  /** The steps of the composite create after the case: victim, suspect,
      evidence, main record. Each commits on its own, so a step that throws
      passes its error on and keeps what the earlier steps wrote: the case
      is untouched, no record is lost or changes its workflow columns, and
      the victim, suspect and evidence created before it stay. */
  function AfterCase(db: Db, caseObj: CaseModel.CaseObj, body: RecordBody, user: Principal, now: Time,
                     fault: Option<(Stage, JsError)>): (r: (Db, Reply<Body>))
    requires db.Valid()
    ensures r.0.Valid()
    ensures r.0.cases == db.cases && KeepsRecords(db, r.0)
    ensures fault.None? ==> r.1.Sent? && r.1.status == 201 && r.1.body.Created? && r.1.body.caseObj == caseObj
    ensures r.1.Next? ==> fault.Some? && r.1.error == fault.value.1
    ensures fault.Some? && fault.value.0 != CaseStage && Runs(body, fault.value.0) ==> r.1 == Next(fault.value.1)
    ensures r.1.Next? ==> r.0.caserecords.rows.Keys == db.caserecords.rows.Keys
    ensures r.1.Next? && fault.value.0 == VictimStage ==> r.0 == db
    ensures r.1.Next? && fault.value.0 == SuspectStage ==> r.0.suspects == db.suspects
    ensures r.1.Next? && fault.value.0 == EvidenceStage ==> r.0.evidence == db.evidence
    ensures r.1.Next? && fault.value.0 in {SuspectStage, EvidenceStage, RecordStage} && body.victimDetails.Some? ==>
      db.victims.rows.Keys < r.0.victims.rows.Keys
    ensures r.1.Next? && fault.value.0 in {EvidenceStage, RecordStage} && body.suspectDetails.Some? ==>
      db.suspects.rows.Keys < r.0.suspects.rows.Keys
    ensures r.1.Next? && fault.value.0 == RecordStage && body.evidenceDetails.Some? ==>
      db.evidence.rows.Keys < r.0.evidence.rows.Keys
  {
    if body.victimDetails.Some? && Strikes(fault, VictimStage) then (db, Next(fault.value.1))
    else
      var v := MaybeVictim(db, body.victimDetails, now);
      if body.suspectDetails.Some? && Strikes(fault, SuspectStage) then (v.0, Next(fault.value.1))
      else
        var s := MaybeSuspect(v.0, body.suspectDetails, now);
        KeepsRecordsTransitive(db, v.0, s.0);
        if body.evidenceDetails.Some? && Strikes(fault, EvidenceStage) then (s.0, Next(fault.value.1))
        else
          var e := MaybeEvidence(s.0, body.evidenceDetails, body.officerId, now);
          KeepsRecordsTransitive(db, s.0, e.0);
          if Strikes(fault, RecordStage) then (e.0, Next(fault.value.1))
          else
            var data := RecordArgument(caseObj.caseId, v.1, s.1, user);
            var m := RecordModel.Create(e.0.caserecords, data, now);
            MainRecordKeepsRecords(e.0, data, now);
            KeepsRecordsTransitive(db, e.0, e.0.(caserecords := m.0));
            (e.0.(caserecords := m.0), Sent(201, Created(m.1, caseObj, v.1, s.1, e.1)))
  }

  /** What a successful composite create returns and stores: the case is
      `'open'` and assigned to the officer, the evidence is collected by the
      officer, and the main record has no officer, the requesting user as
      creator, `'active'`, `'pending'`, and no evidence link. */
  lemma CompleteRecordContents(db: Db, body: RecordBody, user: Principal, now: Time)
    requires db.Valid() && CompleteCheck(body).None?
    ensures var (db', reply) := CreateCompleteRecord(db, body, user, now, None);
      reply.Sent? && reply.body.Created? &&
      var out := reply.body;
      && out.caseObj.row.status == Some(Open)
      && out.caseObj.row.assignedTo == body.officerId
      && out.record.officerId.None?
      && out.record.createdBy == Some(user.id)
      && out.record.status == Some(Active) && out.record.approvalStatus == Some(Pending)
      && (out.evidence.Some? ==> out.evidence.value.row.collectedBy == body.officerId)
      && out.record.recordId.Some? && out.record.recordId.value in db'.caserecords.rows
      && db'.caserecords.rows[out.record.recordId.value].evidenceId.None?
      && db'.caserecords.rows[out.record.recordId.value].caseId == Some(out.caseObj.caseId)
  {
  }

  /** No record row disappears, and none changes its case, officer, creator,
      status or approval columns, between `before` and `after`. */
  predicate KeepsRecords(before: Db, after: Db) {
    forall k :: k in before.caserecords.rows ==>
      k in after.caserecords.rows && RecordModel.SameWorkflow(after.caserecords.rows[k], before.caserecords.rows[k])
  }

  lemma KeepsRecordsTransitive(a: Db, b: Db, c: Db)
    requires KeepsRecords(a, b) && KeepsRecords(b, c)
    ensures KeepsRecords(a, c)
  {
  }

  lemma MainRecordKeepsRecords(db: Db, data: RecordModel.RecordData, now: Time)
    requires db.Valid()
    ensures KeepsRecords(db, db.(caserecords := RecordModel.Create(db.caserecords, data, now).0))
  {
  }

  /** The main record is added under a key no record had before the steps
      after the case, with the case, no officer and no evidence link. */
  lemma {:induction false} AfterCaseAddsMainRecord(db: Db, caseObj: CaseModel.CaseObj, body: RecordBody,
                                                   user: Principal, now: Time)
    requires db.Valid()
    ensures var (db', reply) := AfterCase(db, caseObj, body, user, now, None);
      && reply.Sent? && reply.body.Created? && reply.body.record.recordId.Some?
      && var main := reply.body.record.recordId.value;
      && main !in db.caserecords.rows && main in db'.caserecords.rows
      && db'.caserecords.rows[main].caseId == Some(caseObj.caseId)
      && db'.caserecords.rows[main].officerId.None?
      && db'.caserecords.rows[main].evidenceId.None?
  {
    var v := MaybeVictim(db, body.victimDetails, now);
    var s := MaybeSuspect(v.0, body.suspectDetails, now);
    var e := MaybeEvidence(s.0, body.evidenceDetails, body.officerId, now);
    assert db.caserecords.rows.Keys <= e.0.caserecords.rows.Keys;
  }

  /** A successful composite create leaves two records for the new case:
      the one `Case.create` opened, assigned to the officer and pending
      approval, and the main one, with no officer. */
  lemma {:induction false} CompleteRecordLeavesTwoRecords(db: Db, body: RecordBody, user: Principal, now: Time)
    requires db.Valid() && CompleteCheck(body).None?
    ensures var (db', reply) := CreateCompleteRecord(db, body, user, now, None);
      reply.Sent? && reply.body.Created? && reply.body.record.recordId.Some? &&
      var caseId := reply.body.caseObj.caseId;
      var main := reply.body.record.recordId.value;
      && main in db'.caserecords.rows
      && db'.caserecords.rows[main].caseId == Some(caseId)
      && db'.caserecords.rows[main].officerId.None?
      && exists opening: Id ::
           && opening != main && opening in db'.caserecords.rows
           && db'.caserecords.rows[opening].caseId == Some(caseId)
           && db'.caserecords.rows[opening].officerId == body.officerId
           && db'.caserecords.rows[opening].approvalStatus == Some(Pending)
  {
    var d := CaseArgument(body);
    var (db1, created) := CaseModel.Create(db, d, now, None);
    var caseObj := created.value;
    var opening: Id :| opening !in db.caserecords.rows
      && db1.caserecords.rows == db.caserecords.rows[opening := CaseModel.OpeningRecord(caseObj.caseId, d, now)];
    AfterCaseAddsMainRecord(db1, caseObj, body, user, now);
    var (db', reply) := AfterCase(db1, caseObj, body, user, now, None);
    assert opening in db'.caserecords.rows;
    assert RecordModel.SameWorkflow(db'.caserecords.rows[opening], db1.caserecords.rows[opening]);
  }

  /** A composite create with no validation problem whose main-record insert
      throws: the error is passed on, yet the new case and its opening
      record stay. */
  lemma {:induction false} CompositeCreateIsNotAtomic(db: Db, body: RecordBody, user: Principal, now: Time, e: JsError)
    requires db.Valid() && CompleteCheck(body).None?
    ensures var (db', reply) := CreateCompleteRecord(db, body, user, now, Some((RecordStage, e)));
      && reply == Next(e)
      && db.cases.next !in db.cases.rows
      && db.cases.next in db'.cases.rows
      && db'.cases.rows[db.cases.next] == CaseModel.NewCase(CaseArgument(body), now)
      && exists rid: Id :: rid !in db.caserecords.rows && rid in db'.caserecords.rows
           && db'.caserecords.rows[rid].caseId == Some(db.cases.next)
  {
    var d := CaseArgument(body);
    var (db1, created) := CaseModel.Create(db, d, now, None);
    var rid: Id :| rid !in db.caserecords.rows
      && db1.caserecords.rows == db.caserecords.rows[rid := CaseModel.OpeningRecord(db.cases.next, d, now)];
    var db' := AfterCase(db1, created.value, body, user, now, Some((RecordStage, e))).0;
    assert RecordModel.SameWorkflow(db'.caserecords.rows[rid], db1.caserecords.rows[rid]);
  }

  /** A stage of the composite create that the body makes run. */
  predicate Runs(body: RecordBody, stage: Stage) {
    match stage
    case CaseStage => true
    case VictimStage => body.victimDetails.Some?
    case SuspectStage => body.suspectDetails.Some?
    case EvidenceStage => body.evidenceDetails.Some?
    case RecordStage => true
  }

  /** The composite create as one unit: a failure in any step that runs
      leaves the database exactly as it was, and otherwise the outcome is
      that of the fault-free run. */
  function CreateCompleteRecordAtomic(db: Db, body: RecordBody, user: Principal, now: Time,
                                      fault: Option<(Stage, JsError)>): (r: (Db, Reply<Body>))
    requires db.Valid()
    ensures r.0.Valid()
    ensures r.1.Next? ==> r.0 == db
    ensures CompleteCheck(body).Some? ==> r == (db, Next(CompleteCheck(body).value))
    ensures CompleteCheck(body).None? && fault.Some? && Runs(body, fault.value.0) ==> r == (db, Next(fault.value.1))
    ensures r.1.Sent? ==> r == CreateCompleteRecord(db, body, user, now, None)
  {
    if CompleteCheck(body).Some? then (db, Next(CompleteCheck(body).value))
    else if fault.Some? && Runs(body, fault.value.0) then (db, Next(fault.value.1))
    else CreateCompleteRecord(db, body, user, now, None)
  }

  /** Without an injected failure the corrected create does what the
      composite create does, and a failing step now rolls back the case its
      earlier step committed. */
  lemma AtomicCreateAgrees(db: Db, body: RecordBody, user: Principal, now: Time, e: JsError)
    requires db.Valid() && CompleteCheck(body).None?
    ensures CreateCompleteRecordAtomic(db, body, user, now, None) == CreateCompleteRecord(db, body, user, now, None)
    ensures CreateCompleteRecordAtomic(db, body, user, now, Some((RecordStage, e))) == (db, Next(e))
    ensures CreateCompleteRecord(db, body, user, now, Some((RecordStage, e))).0 != db
  {
    CompositeCreateIsNotAtomic(db, body, user, now, e);
  }

  // ---------------------------------------------------------------------
  // Listing

  /** The query string of the listing. `page` and `limit` are the numbers
      the strings convert to; a date filter is present when its string is
      non-empty. */
  datatype ListQuery = ListQuery(
    page: Option<int>,
    limit: Option<int>,
    status: Option<string>,
    approvalStatus: Option<string>,
    fromDate: Option<Time>,
    toDate: Option<Time>)

  /** The `WHERE` clause the listing builds: each supplied filter must
      hold; a NULL column matches no equality filter. */
  predicate Selected(q: ListQuery, row: CaseRecord) {
    && (Truthy(q.status) ==> row.status == q.status)
    && (Truthy(q.approvalStatus) ==> row.approvalStatus == q.approvalStatus)
    && (q.fromDate.Some? ==> row.dateCreated >= q.fromDate.value)
    && (q.toDate.Some? ==> row.dateCreated <= q.toDate.value)
  }

  /** The records the listing's `WHERE` clause selects, newest first. */
  function Selection(db: Db, q: ListQuery): (r: seq<Entry>)
    ensures NewestFirst(r) && DistinctIds(r)
    ensures db.Valid() ==> forall e :: e in r <==>
      e.id in db.caserecords.rows && db.caserecords.rows[e.id] == e.row && Selected(q, e.row)
  {
    Listing(db.caserecords, (row: CaseRecord) => Selected(q, row))
  }

  /** `Math.ceil(total / limit)` for a positive limit. */
  function CeilDiv(total: nat, limit: int): (r: nat)
    requires limit > 0
    ensures r * limit >= total
    ensures r > 0 ==> (r - 1) * limit < total
  {
    (total + limit - 1) / limit
  }

  /** The `pagination` object for a page, a limit and a record count. */
  function PaginationFor(page: int, limit: int, total: nat): (p: Pagination)
    requires limit >= 0
    ensures p.currentPage == page && p.limit == limit && p.totalRecords == total
    ensures p.totalPages.None? <==> limit == 0
  {
    Pagination(page, if limit > 0 then Some(CeilDiv(total, limit)) else None, total, limit)
  }

  /** `page = 1` when absent. */
  function PageOf(q: ListQuery): int {
    q.page.GetOr(1)
  }

  /** `limit = 10` when absent. */
  function LimitOf(q: ListQuery): int {
    q.limit.GetOr(10)
  }

  /** `(page - 1) * limit`. */
  function OffsetOf(q: ListQuery): int {
    (PageOf(q) - 1) * LimitOf(q)
  }

  /** `getAllRecords`. A negative `LIMIT` or `OFFSET` makes the statement
      fail with the driver's error, passed on. Otherwise the page holds the
      selected rows, newest first, from the offset on, at most `limit` of
      them; `totalRecords` counts every record, selected or not. */
  function GetAllRecords(db: Db, q: ListQuery, driverError: JsError): (r: Reply<Body>)
    ensures r.Sent? <==> LimitOf(q) >= 0 && OffsetOf(q) >= 0
    ensures r.Next? ==> r.error == driverError
    ensures r.Sent? ==> r.status == 200 && r.body.Page?
    ensures r.Sent? ==>
      && |r.body.records| <= LimitOf(q)
      && (forall i :: 0 <= i < |r.body.records| ==>
            OffsetOf(q) + i < |Selection(db, q)| && r.body.records[i] == Selection(db, q)[OffsetOf(q) + i])
      && (OffsetOf(q) < |Selection(db, q)| ==>
            |r.body.records| == Min(LimitOf(q), |Selection(db, q)| - OffsetOf(q)))
      && r.body.pagination == PaginationFor(PageOf(q), LimitOf(q), |db.caserecords.rows|)
  {
    if LimitOf(q) < 0 || OffsetOf(q) < 0 then Next(driverError)
    else Sent(200, Page(Slice(Selection(db, q), OffsetOf(q), LimitOf(q)),
                        PaginationFor(PageOf(q), LimitOf(q), |db.caserecords.rows|)))
  }

  function Min(a: int, b: int): int {
    if a <= b then a else b
  }

  /** Every record on a page satisfies every supplied filter and is stored
      under its key. */
  lemma PageRecordsAreSelected(db: Db, q: ListQuery, driverError: JsError, e: Entry)
    requires db.Valid()
    requires GetAllRecords(db, q, driverError).Sent?
    requires e in GetAllRecords(db, q, driverError).body.records
    ensures e.id in db.caserecords.rows && db.caserecords.rows[e.id] == e.row && Selected(q, e.row)
  {
    var records := GetAllRecords(db, q, driverError).body.records;
    var i :| 0 <= i < |records| && records[i] == e;
    assert e in Selection(db, q);
  }

  /** A page lists its records newest first. */
  lemma PageIsNewestFirst(db: Db, q: ListQuery, driverError: JsError)
    requires GetAllRecords(db, q, driverError).Sent?
    ensures NewestFirst(GetAllRecords(db, q, driverError).body.records)
  {
    var listing := Selection(db, q);
    var records := GetAllRecords(db, q, driverError).body.records;
    forall i, j | 0 <= i < j < |records| ensures records[i].row.dateCreated >= records[j].row.dateCreated {
      assert records[i] == listing[OffsetOf(q) + i] && records[j] == listing[OffsetOf(q) + j];
    }
  }

  /** A page past the last selected row is empty, not an error. */
  lemma PageBeyondEndIsEmpty(db: Db, q: ListQuery, driverError: JsError)
    requires GetAllRecords(db, q, driverError).Sent?
    requires OffsetOf(q) >= |Selection(db, q)|
    ensures GetAllRecords(db, q, driverError).body.records == []
  {
  }

  /** The pagination of the listing as evidently intended: the same page,
      with `totalRecords` and `totalPages` counting the rows the filters
      select rather than every record. */
  function GetAllRecordsIntended(db: Db, q: ListQuery, driverError: JsError): (r: Reply<Body>)
    ensures r.Sent? <==> GetAllRecords(db, q, driverError).Sent?
    ensures r.Next? ==> r == GetAllRecords(db, q, driverError)
    ensures r.Sent? ==> r.status == 200 && r.body.Page?
    ensures r.Sent? ==> r.body.records == GetAllRecords(db, q, driverError).body.records
    ensures r.Sent? ==> r.body.pagination == PaginationFor(PageOf(q), LimitOf(q), |Selection(db, q)|)
  {
    match GetAllRecords(db, q, driverError)
    case Next(e) => Next(e)
    case Sent(status, body) =>
      Sent(status, body.(pagination := PaginationFor(PageOf(q), LimitOf(q), |Selection(db, q)|)))
  }

  /** With the intended count, every page from the first to `totalPages`
      holds at least one record. */
  lemma {:induction false} IntendedPagesAreNonEmpty(db: Db, q: ListQuery, driverError: JsError)
    requires GetAllRecordsIntended(db, q, driverError).Sent?
    requires LimitOf(q) > 0
    requires 1 <= PageOf(q) <= GetAllRecordsIntended(db, q, driverError).body.pagination.totalPages.value
    ensures |GetAllRecordsIntended(db, q, driverError).body.records| > 0
  {
    OffsetBelowTotal(PageOf(q), LimitOf(q), |Selection(db, q)|);
  }

  /** Page `page` of `limit` rows starts inside `total` rows when it is one
      of the first `ceil(total / limit)` pages. */
  lemma OffsetBelowTotal(page: int, limit: int, total: nat)
    requires limit > 0 && 1 <= page <= CeilDiv(total, limit)
    ensures (page - 1) * limit < total
  {
    MulMonotone(page - 1, CeilDiv(total, limit) - 1, limit);
  }

  lemma MulMonotone(a: int, b: int, c: int)
    requires 0 <= a <= b && c >= 0
    ensures a * c <= b * c
  {
  }

  /** The keys a listing carries. */
  function KeysOf(s: seq<Entry>): set<Id> {
    set i | 0 <= i < |s| :: s[i].id
  }

  /** A listing without repeated keys has as many entries as keys. */
  lemma {:induction false} DistinctKeysCount(s: seq<Entry>)
    requires DistinctIds(s)
    ensures |KeysOf(s)| == |s|
  {
    if |s| > 0 {
      var t := s[1..];
      assert DistinctIds(t) by {
        forall i, j | 0 <= i < j < |t| ensures t[i].id != t[j].id {
          assert t[i] == s[i + 1] && t[j] == s[j + 1];
        }
      }
      DistinctKeysCount(t);
      assert s[0].id !in KeysOf(t) by {
        forall i | 0 <= i < |t| ensures t[i].id != s[0].id {
          assert t[i] == s[i + 1];
        }
      }
      assert KeysOf(s) == {s[0].id} + KeysOf(t) by {
        forall k | k in KeysOf(s) ensures k in {s[0].id} + KeysOf(t) {
          var i :| 0 <= i < |s| && s[i].id == k;
          if i > 0 { assert t[i - 1] == s[i]; }
        }
        forall k | k in KeysOf(t) ensures k in KeysOf(s) {
          var i :| 0 <= i < |t| && t[i].id == k;
          assert s[i + 1] == t[i];
        }
      }
    }
  }

  /** A selection whose every row is record 1 has at most one entry. */
  lemma OnlyRecordOneSelected(db: Db, q: ListQuery)
    requires db.Valid()
    requires forall k :: k in db.caserecords.rows && Selected(q, db.caserecords.rows[k]) ==> k == 1
    ensures |Selection(db, q)| <= 1
  {
    var s := Selection(db, q);
    DistinctKeysCount(s);
    assert KeysOf(s) <= {1} by {
      forall k | k in KeysOf(s) ensures k == 1 {
        var i :| 0 <= i < |s| && s[i].id == k;
        assert s[i] in s;
      }
    }
    if 1 in KeysOf(s) {
      assert KeysOf(s) == {1};
    } else {
      assert KeysOf(s) == {};
    }
  }

  /** Two records created at the same time, the first approved and the
      second pending. */
  function TwoRecords(): (db: Db)
    ensures db.Valid() && |db.caserecords.rows| == 2
  {
    var row := CaseRecord(None, None, None, None, None, None, None, Some(Active),
                          Some(Approved), None, None, None, 1, 1);
    var db := Db(Empty(), Table(map[1 := row, 2 := row.(approvalStatus := Some(Pending))], 3),
                 Empty(), Empty(), Empty(), Empty(), Empty());
    assert db.caserecords.rows.Keys == {1, 2};
    db
  }

  /** Page 2 of the approved records, one per page. */
  function SecondApprovedPage(): ListQuery {
    ListQuery(Some(2), Some(1), None, Some(Approved), None, None)
  }

  /** On those two records, the listing filtered on `'approved'` with one
      record per page announces two pages, and the second is empty. */
  lemma PageCountIgnoresFilters(driverError: JsError)
    ensures GetAllRecords(TwoRecords(), SecondApprovedPage(), driverError).Sent?
    ensures GetAllRecords(TwoRecords(), SecondApprovedPage(), driverError).body.pagination.totalPages == Some(2)
    ensures GetAllRecords(TwoRecords(), SecondApprovedPage(), driverError).body.records == []
  {
    var db := TwoRecords();
    var q := SecondApprovedPage();
    assert Selected(q, db.caserecords.rows[1]) && !Selected(q, db.caserecords.rows[2]);
    OnlyRecordOneSelected(db, q);
    assert CeilDiv(2, 1) == 2;
  }

  /** `getPendingRecords`: exactly the records whose stored approval status
      is `'pending'`, newest first. */
  function GetPendingRecords(db: Db): (r: Reply<Body>)
    ensures r.Sent? && r.status == 200 && r.body.Records?
    ensures NewestFirst(r.body.records) && DistinctIds(r.body.records)
    ensures db.Valid() ==> forall e :: e in r.body.records <==>
      e.id in db.caserecords.rows && db.caserecords.rows[e.id] == e.row && e.row.approvalStatus == Some(Pending)
  {
    Sent(200, Records(Listing(db.caserecords, (row: CaseRecord) => row.approvalStatus == Some(Pending))))
  }

  // ---------------------------------------------------------------------
  // Approval and rejection

  const ApprovedMessage := "Record approved successfully"
  const RejectedMessage := "Record rejected successfully"
  const ReasonRequired := "Rejection reason is required"

  /** The guard approve and reject share: the loaded record's approval status
      is `'pending'`. The constructor defaults a NULL or empty column to
      `'pending'`, so such a record passes the guard too. */
  predicate AwaitingDecision(row: CaseRecord) {
    !Truthy(row.approvalStatus) || row.approvalStatus == Some(Pending)
  }

  /** The row after the approve or reject `UPDATE`: the verdict, the clock
      as approval date and last update, the principal as approver, and the
      given rejection reason. */
  function Decide(row: CaseRecord, verdict: string, reason: Option<string>, user: Principal, now: Time): (r: CaseRecord)
    ensures r.approvalStatus == Some(verdict) && r.approvalDate == Some(now) && r.approvedBy == Some(user.id)
    ensures r.rejectionReason == reason && r.lastUpdated == now
    ensures r.caseId == row.caseId && r.victimId == row.victimId && r.suspectId == row.suspectId
    ensures r.evidenceId == row.evidenceId && r.witnessId == row.witnessId && r.officerId == row.officerId
    ensures r.createdBy == row.createdBy && r.status == row.status && r.dateCreated == row.dateCreated
  {
    row.(approvalStatus := Some(verdict), approvalDate := Some(now), approvedBy := Some(user.id),
         rejectionReason := reason, lastUpdated := now)
  }

  /** `after` is `before` with record `id` given `verdict` by `user` at `now`
      with rejection reason `reason`: those five columns changed, every other
      column of that record, every other record and every other table kept. */
  ghost predicate Decision(before: Db, after: Db, id: Id, verdict: string, reason: Option<string>,
                           user: Principal, now: Time) {
    && id in before.caserecords.rows
    && after.caserecords.next == before.caserecords.next
    && after.caserecords.rows.Keys == before.caserecords.rows.Keys
    && (forall k :: k in before.caserecords.rows && k != id ==>
          after.caserecords.rows[k] == before.caserecords.rows[k])
    && after == before.(caserecords := after.caserecords)
    && (var a := after.caserecords.rows[id];
        var b := before.caserecords.rows[id];
        && a.approvalStatus == Some(verdict) && a.approvalDate == Some(now)
        && a.approvedBy == Some(user.id) && a.rejectionReason == reason && a.lastUpdated == now
        && a.(approvalStatus := b.approvalStatus, approvalDate := b.approvalDate, approvedBy := b.approvedBy,
              rejectionReason := b.rejectionReason, lastUpdated := b.lastUpdated) == b)
  }

  /** The load and the guard of approve and reject: `Record not found` (404),
      then `Record is already processed` (400). */
  function DecisionCheck(db: Db, id: Id): (r: Option<JsError>)
    ensures r.None? <==> id in db.caserecords.rows && AwaitingDecision(db.caserecords.rows[id])
    ensures id !in db.caserecords.rows ==> r == Some(ErrorHandler(RecordNotFound, 404))
    ensures id in db.caserecords.rows && !AwaitingDecision(db.caserecords.rows[id]) ==>
      r == Some(ErrorHandler(AlreadyProcessed, 400))
  {
    match RecordModel.FindById(db.caserecords, id)
    case None => Some(ErrorHandler(RecordNotFound, 404))
    case Some(rec) =>
      if rec.approvalStatus != Some(Pending) then Some(ErrorHandler(AlreadyProcessed, 400)) else None
  }

  /** `approveRecord`. A missing record is a 404 and a decided one a 400,
      and neither writes anything; otherwise the record is approved by the
      principal at the clock, its rejection reason kept. */
  function ApproveRecord(db: Db, id: Id, user: Principal, now: Time): (r: (Db, Reply<Body>))
    ensures r.1.Next? ==> r.0 == db && DecisionCheck(db, id) == Some(r.1.error)
    ensures r.1.Sent? <==> id in db.caserecords.rows && AwaitingDecision(db.caserecords.rows[id])
    ensures r.1.Sent? ==>
      && r.1 == Sent(200, Message(ApprovedMessage))
      && Decision(db, r.0, id, Approved, db.caserecords.rows[id].rejectionReason, user, now)
    ensures db.Valid() ==> r.0.Valid()
  {
    match DecisionCheck(db, id)
    case Some(e) => (db, Next(e))
    case None =>
      var row := db.caserecords.rows[id];
      (db.(caserecords := Put(db.caserecords, id, Decide(row, Approved, row.rejectionReason, user, now))),
       Sent(200, Message(ApprovedMessage)))
  }

  /** `rejectRecord`. A falsy reason is a 400 before the record is even
      loaded; then the same checks as approval; otherwise the record is
      rejected by the principal at the clock with the given reason. */
  function RejectRecord(db: Db, id: Id, reason: Option<string>, user: Principal, now: Time): (r: (Db, Reply<Body>))
    ensures r.1.Next? ==> r.0 == db
    ensures !Truthy(reason) ==> r.1 == Next(ErrorHandler(ReasonRequired, 400))
    ensures Truthy(reason) && r.1.Next? ==> DecisionCheck(db, id) == Some(r.1.error)
    ensures r.1.Sent? <==> Truthy(reason) && id in db.caserecords.rows && AwaitingDecision(db.caserecords.rows[id])
    ensures r.1.Sent? ==>
      && r.1 == Sent(200, Message(RejectedMessage))
      && Decision(db, r.0, id, Rejected, reason, user, now)
    ensures db.Valid() ==> r.0.Valid()
  {
    if !Truthy(reason) then (db, Next(ErrorHandler(ReasonRequired, 400)))
    else
      match DecisionCheck(db, id)
      case Some(e) => (db, Next(e))
      case None =>
        var row := db.caserecords.rows[id];
        (db.(caserecords := Put(db.caserecords, id, Decide(row, Rejected, reason, user, now))),
         Sent(200, Message(RejectedMessage)))
  }

  // ---------------------------------------------------------------------
  // Statistics

  /** The row predicates the statistics query counts. */
  function StatusIs(v: string): CaseRecord -> bool {
    (row: CaseRecord) => row.status == Some(v)
  }

  function ApprovalIs(v: string): CaseRecord -> bool {
    (row: CaseRecord) => row.approvalStatus == Some(v)
  }

  function SuspectColumn(): CaseRecord -> Option<Id> {
    (row: CaseRecord) => row.suspectId
  }

  function VictimColumn(): CaseRecord -> Option<Id> {
    (row: CaseRecord) => row.victimId
  }

  /** The statistics of a `caserecords` table. */
  function StatsOf(rows: map<Id, CaseRecord>): (s: Stats)
    ensures s.totalRecords == |rows|
    ensures s.activeRecords == CountWhere(rows, StatusIs(Active))
    ensures s.closedRecords == CountWhere(rows, StatusIs(Closed))
    ensures s.pendingApprovals == CountWhere(rows, ApprovalIs(Pending))
    ensures s.approvedRecords == CountWhere(rows, ApprovalIs(Approved))
    ensures s.rejectedRecords == CountWhere(rows, ApprovalIs(Rejected))
    ensures s.totalSuspects == CountDistinct(rows, SuspectColumn())
    ensures s.totalVictims == CountDistinct(rows, VictimColumn())
    ensures s.activeRecords + s.closedRecords <= s.totalRecords
    ensures s.pendingApprovals + s.approvedRecords + s.rejectedRecords <= s.totalRecords
    ensures s.totalSuspects <= |HoldersOf(rows, SuspectColumn())| <= s.totalRecords
    ensures s.totalVictims <= |HoldersOf(rows, VictimColumn())| <= s.totalRecords
  {
    DisjointCounts(rows, StatusIs(Active), StatusIs(Closed));
    DisjointCounts(rows, ApprovalIs(Pending), ApprovalIs(Approved));
    ThreeDisjointCounts(rows);
    SubsetNoLarger(HoldersOf(rows, SuspectColumn()), rows.Keys);
    SubsetNoLarger(HoldersOf(rows, VictimColumn()), rows.Keys);
    Stats(|rows|,
          CountWhere(rows, StatusIs(Active)), CountWhere(rows, StatusIs(Closed)),
          CountWhere(rows, ApprovalIs(Pending)), CountWhere(rows, ApprovalIs(Approved)),
          CountWhere(rows, ApprovalIs(Rejected)),
          CountDistinct(rows, SuspectColumn()), CountDistinct(rows, VictimColumn()))
  }

  /** Two counts of conditions no row meets together add up to at most the
      row count. */
  lemma DisjointCounts(rows: map<Id, CaseRecord>, p: CaseRecord -> bool, q: CaseRecord -> bool)
    requires forall row :: !(p(row) && q(row))
    ensures CountWhere(rows, p) + CountWhere(rows, q) <= |rows|
  {
    var a := KeysWhere(rows, p);
    var b := KeysWhere(rows, q);
    assert a * b == {};
    SubsetNoLarger(a + b, rows.Keys);
  }

  lemma ThreeDisjointCounts(rows: map<Id, CaseRecord>)
    ensures CountWhere(rows, ApprovalIs(Pending)) + CountWhere(rows, ApprovalIs(Approved))
            + CountWhere(rows, ApprovalIs(Rejected)) <= |rows|
  {
    var a := KeysWhere(rows, ApprovalIs(Pending));
    var b := KeysWhere(rows, ApprovalIs(Approved));
    var c := KeysWhere(rows, ApprovalIs(Rejected));
    assert a * b == {} && (a + b) * c == {};
    SubsetNoLarger(a + b + c, rows.Keys);
  }

  /** A new `'active'`, `'pending'` row raises the total, active and
      pending counts by one each and leaves the closed, approved and
      rejected counts alone; the suspect and victim counts grow exactly
      when the row names one no other row names. */
  lemma {:induction false} PendingRowRaisesCounts(rows: map<Id, CaseRecord>, k: Id, row: CaseRecord)
    requires k !in rows
    requires row.status == Some(Active) && row.approvalStatus == Some(Pending)
    ensures var before := StatsOf(rows);
      var after := StatsOf(rows[k := row]);
      && after.totalRecords == before.totalRecords + 1
      && after.activeRecords == before.activeRecords + 1
      && after.pendingApprovals == before.pendingApprovals + 1
      && after.closedRecords == before.closedRecords
      && after.approvedRecords == before.approvedRecords
      && after.rejectedRecords == before.rejectedRecords
      && after.totalSuspects == before.totalSuspects
           + (if row.suspectId.Some? && row.suspectId.value !in ValuesOf(rows, SuspectColumn()) then 1 else 0)
      && after.totalVictims == before.totalVictims
           + (if row.victimId.Some? && row.victimId.value !in ValuesOf(rows, VictimColumn()) then 1 else 0)
  {
    CountDistinctInsert(rows, k, row, SuspectColumn());
    CountDistinctInsert(rows, k, row, VictimColumn());
    CountWhereInsert(rows, k, row, StatusIs(Active));
    CountWhereInsert(rows, k, row, StatusIs(Closed));
    CountWhereInsert(rows, k, row, ApprovalIs(Pending));
    CountWhereInsert(rows, k, row, ApprovalIs(Approved));
    CountWhereInsert(rows, k, row, ApprovalIs(Rejected));
  }

  /** A successful manual insert shows up in the statistics as one more
      record, active and pending. */
  lemma {:induction false} ManualInsertRaisesCounts(db: Db, body: ManualBody, now: Time)
    requires db.Valid() && ManualCheck(db, body).None?
    ensures var before := StatsOf(db.caserecords.rows);
      var after := StatsOf(InsertRecordManually(db, body, now, None).0.caserecords.rows);
      && after.totalRecords == before.totalRecords + 1
      && after.activeRecords == before.activeRecords + 1
      && after.pendingApprovals == before.pendingApprovals + 1
      && after.approvedRecords == before.approvedRecords
      && after.rejectedRecords == before.rejectedRecords
  {
    var r := InsertRecordManually(db, body, now, None);
    PendingRowRaisesCounts(db.caserecords.rows, r.1.body.recordId, ManualRow(body, now));
  }

  /** So does `Case.create`, through the opening record it adds. */
  lemma {:induction false} CaseCreateRaisesCounts(db: Db, data: CaseModel.CaseData, now: Time)
    requires db.Valid()
    ensures var before := StatsOf(db.caserecords.rows);
      var after := StatsOf(CaseModel.Create(db, data, now, None).0.caserecords.rows);
      && after.totalRecords == before.totalRecords + 1
      && after.activeRecords == before.activeRecords + 1
      && after.pendingApprovals == before.pendingApprovals + 1
      && after.approvedRecords == before.approvedRecords
      && after.rejectedRecords == before.rejectedRecords
  {
    var (db', created) := CaseModel.Create(db, data, now, None);
    var rid: Id :| rid !in db.caserecords.rows
      && db'.caserecords.rows == db.caserecords.rows[rid := CaseModel.OpeningRecord(created.value.caseId, data, now)];
    PendingRowRaisesCounts(db.caserecords.rows, rid, CaseModel.OpeningRecord(created.value.caseId, data, now));
  }

  /** `getRecordStats`: one row of counts over every record. */
  function GetRecordStats(db: Db): (r: Reply<Body>)
    ensures r.Sent? && r.status == 200 && r.body.Statistics?
    ensures r.body.stats == StatsOf(db.caserecords.rows)
    ensures r.body.stats.totalRecords == |db.caserecords.rows|
    ensures r.body.stats.activeRecords + r.body.stats.closedRecords <= r.body.stats.totalRecords
    ensures r.body.stats.pendingApprovals + r.body.stats.approvedRecords + r.body.stats.rejectedRecords
            <= r.body.stats.totalRecords
    ensures r.body.stats.totalSuspects <= r.body.stats.totalRecords
    ensures r.body.stats.totalVictims <= r.body.stats.totalRecords
  {
    Sent(200, Statistics(StatsOf(db.caserecords.rows)))
  }

  // ---------------------------------------------------------------------
  // Single record

  /** `getRecord`: the record object, or a 404. */
  function GetRecord(db: Db, id: Id): (r: Reply<Body>)
    ensures r.Next? <==> id !in db.caserecords.rows
    ensures r.Next? ==> r.error == ErrorHandler(RecordNotFound, 404)
    ensures r.Sent? ==> r.status == 200 && r.body.One? && r.body.record.recordId == Some(id)
    ensures r.Sent? ==> r.body.record.caseId == db.caserecords.rows[id].caseId
    ensures r.Sent? ==> r.body.record.dateCreated == db.caserecords.rows[id].dateCreated
    ensures r.Sent? ==> r.body.record == RecordModel.Construct(id, db.caserecords.rows[id])
    ensures r.Sent? ==> var row := db.caserecords.rows[id];
      && r.body.record.status == (if Truthy(row.status) then row.status else Some(Pending))
      && r.body.record.approvalStatus == (if Truthy(row.approvalStatus) then row.approvalStatus else Some(Pending))
      && r.body.record.victimId == row.victimId && r.body.record.suspectId == row.suspectId
  {
    match RecordModel.FindById(db.caserecords, id)
    case None => Next(ErrorHandler(RecordNotFound, 404))
    case Some(rec) => Sent(200, One(rec))
  }

  /** The properties of an update body that `save` reads: each is absent
      (`None`, the object keeps its value) or present with a value, which may
      be null. A present `recordId` changes the key `save` writes to. */
  datatype RecordPatch = RecordPatch(
    recordId: Option<Option<Id>>,
    caseId: Option<Option<Id>>,
    victimId: Option<Option<Id>>,
    officerId: Option<Option<Id>>,
    suspectId: Option<Option<Id>>,
    status: Option<Option<string>>,
    approvalStatus: Option<Option<string>>)

  /** The value of a property after `Object.assign`. */
  function Assigned<T>(p: Option<T>, current: T): (r: T)
    ensures p.Some? ==> r == p.value
    ensures p.None? ==> r == current
  {
    if p.Some? then p.value else current
  }

  /** `Object.assign(record, req.body)`. */
  function Assign(rec: RecordModel.Record, patch: RecordPatch): (r: RecordModel.Record)
    ensures MergedFrom(r, rec, patch)
  {
    rec.(recordId := Assigned(patch.recordId, rec.recordId),
         caseId := Assigned(patch.caseId, rec.caseId),
         victimId := Assigned(patch.victimId, rec.victimId),
         officerId := Assigned(patch.officerId, rec.officerId),
         suspectId := Assigned(patch.suspectId, rec.suspectId),
         status := Assigned(patch.status, rec.status),
         approvalStatus := Assigned(patch.approvalStatus, rec.approvalStatus))
  }

  /** The key `save` writes to after an update with `patch` of record `id`. */
  function SaveTarget(id: Id, patch: RecordPatch): Option<Id> {
    Assigned(patch.recordId, Some(id))
  }

  /** `sent` is `loaded` with every property the body carries replaced by
      the body's value and every other property kept. */
  predicate MergedFrom(sent: RecordModel.Record, loaded: RecordModel.Record, patch: RecordPatch) {
    && (patch.recordId.Some? ==> sent.recordId == patch.recordId.value)
    && (patch.recordId.None? ==> sent.recordId == loaded.recordId)
    && (patch.caseId.Some? ==> sent.caseId == patch.caseId.value)
    && (patch.caseId.None? ==> sent.caseId == loaded.caseId)
    && (patch.victimId.Some? ==> sent.victimId == patch.victimId.value)
    && (patch.victimId.None? ==> sent.victimId == loaded.victimId)
    && (patch.officerId.Some? ==> sent.officerId == patch.officerId.value)
    && (patch.officerId.None? ==> sent.officerId == loaded.officerId)
    && (patch.suspectId.Some? ==> sent.suspectId == patch.suspectId.value)
    && (patch.suspectId.None? ==> sent.suspectId == loaded.suspectId)
    && (patch.status.Some? ==> sent.status == patch.status.value)
    && (patch.status.None? ==> sent.status == loaded.status)
    && (patch.approvalStatus.Some? ==> sent.approvalStatus == patch.approvalStatus.value)
    && (patch.approvalStatus.None? ==> sent.approvalStatus == loaded.approvalStatus)
    && sent.createdBy == loaded.createdBy && sent.approvalDate == loaded.approvalDate
    && sent.approvedBy == loaded.approvedBy && sent.rejectionReason == loaded.rejectionReason
    && sent.dateCreated == loaded.dateCreated && sent.lastUpdated == loaded.lastUpdated
  }

  /** The row holds the object's columns as `save` writes them. */
  predicate StoredAs(row: CaseRecord, rec: RecordModel.Record, now: Time) {
    && row.caseId == rec.caseId && row.victimId == rec.victimId
    && row.officerId == rec.officerId && row.suspectId == rec.suspectId
    && row.status == rec.status && row.approvalStatus == rec.approvalStatus
    && row.lastUpdated == now
  }

  /** `updateRecord`: loads the record, merges the body over it and saves
      it. Nothing guards the approval status, so any value the body carries
      is written. A 404 changes nothing. */
  function UpdateRecord(db: Db, id: Id, patch: RecordPatch, now: Time): (r: (Db, Reply<Body>))
    ensures r.1.Next? <==> id !in db.caserecords.rows
    ensures r.1.Next? ==> r.0 == db && r.1.error == ErrorHandler(RecordNotFound, 404)
    ensures r.1.Sent? ==> r.1.status == 200 && r.1.body.One? && r.1.body.record.recordId == SaveTarget(id, patch)
    ensures r.0 == db.(caserecords := r.0.caserecords)
    ensures r.0.caserecords.rows.Keys == db.caserecords.rows.Keys
    ensures forall k :: k in db.caserecords.rows && Some(k) != SaveTarget(id, patch) ==>
      r.0.caserecords.rows[k] == db.caserecords.rows[k]
    ensures forall k :: k in db.caserecords.rows ==>
      RecordModel.Unwritten(r.0.caserecords.rows[k], db.caserecords.rows[k])
    ensures id in db.caserecords.rows && patch.approvalStatus.Some? && SaveTarget(id, patch) == Some(id) ==>
      r.0.caserecords.rows[id].approvalStatus == patch.approvalStatus.value
    ensures r.1.Sent? ==> MergedFrom(r.1.body.record, RecordModel.Construct(id, db.caserecords.rows[id]), patch)
    ensures r.1.Sent? && SaveTarget(id, patch).Some? && SaveTarget(id, patch).value in db.caserecords.rows ==>
      StoredAs(r.0.caserecords.rows[SaveTarget(id, patch).value], r.1.body.record, now)
    ensures db.Valid() ==> r.0.Valid()
  {
    match RecordModel.FindById(db.caserecords, id)
    case None => (db, Next(ErrorHandler(RecordNotFound, 404)))
    case Some(rec) =>
      var merged := Assign(rec, patch);
      (db.(caserecords := RecordModel.Save(db.caserecords, merged, now)), Sent(200, One(merged)))
  }

  /** `deleteRecord`: a 404, or the record removed and no other row. */
  function DeleteRecord(db: Db, id: Id): (r: (Db, Reply<Body>))
    ensures r.1.Next? <==> id !in db.caserecords.rows
    ensures r.1.Next? ==> r.0 == db && r.1.error == ErrorHandler(RecordNotFound, 404)
    ensures r.1.Sent? ==> r.1 == Sent(200, Message("Record deleted successfully"))
    ensures r.1.Sent? ==> r.0.caserecords.rows == db.caserecords.rows - {id}
    ensures r.0 == db.(caserecords := r.0.caserecords)
    ensures db.Valid() ==> r.0.Valid()
  {
    match RecordModel.FindById(db.caserecords, id)
    case None => (db, Next(ErrorHandler(RecordNotFound, 404)))
    case Some(_) =>
      (db.(caserecords := RecordModel.DeleteById(db.caserecords, id)), Sent(200, Message("Record deleted successfully")))
  }
}

=== FILE: record_model.dfy ===
/** The `Record` model over the `caserecords` table: the in-memory record
    object with its constructor defaults, and the statements the model issues
    (`create`, `findById`, `findAll`, `save`, `deleteById`), together with the
    one-column `UPDATE` the victim, suspect, evidence and witness models use to
    link a new row into a record. */
module RecordModel {
  import opened Basics
  import opened Tables
  import opened Schema
  import RecordQuery

  /** A `Record` instance. Its constructor copies the columns below and nothing
      else: in particular a record object carries no `evidenceId` and no
      `witnessId`, even when the row has them. */
  datatype Record = Record(
    recordId: Option<Id>,
    caseId: Option<Id>,
    victimId: Option<Id>,
    officerId: Option<Id>,
    suspectId: Option<Id>,
    createdBy: Option<Id>,
    status: Option<string>,
    approvalStatus: Option<string>,
    approvalDate: Option<Time>,
    approvedBy: Option<Id>,
    rejectionReason: Option<string>,
    dateCreated: Time,
    lastUpdated: Time)

  /** `new Record(row)` for the row stored under `id`: `officerId || null`,
      `status || 'pending'`, `approvalStatus || 'pending'`; every other copied
      column is taken as it is. */
  function Construct(id: Id, row: CaseRecord): (r: Record)
    ensures r.recordId == Some(id)
    ensures Truthy(r.status) && Truthy(r.approvalStatus)
    ensures r.officerId.None? || Present(r.officerId)
    ensures Truthy(row.status) ==> r.status == row.status
    ensures !Truthy(row.status) ==> r.status == Some(Pending)
    ensures Truthy(row.approvalStatus) ==> r.approvalStatus == row.approvalStatus
    ensures !Truthy(row.approvalStatus) ==> r.approvalStatus == Some(Pending)
    ensures Present(row.officerId) ==> r.officerId == row.officerId
    ensures r.caseId == row.caseId && r.victimId == row.victimId
    ensures r.suspectId == row.suspectId && r.createdBy == row.createdBy
    ensures r.approvalDate == row.approvalDate && r.approvedBy == row.approvedBy
    ensures r.rejectionReason == row.rejectionReason
    ensures r.dateCreated == row.dateCreated && r.lastUpdated == row.lastUpdated
  {
    Record(
      Some(id), row.caseId, row.victimId, OrNull(row.officerId), row.suspectId,
      row.createdBy, OrElse(row.status, Pending), OrElse(row.approvalStatus, Pending),
      row.approvalDate, row.approvedBy, row.rejectionReason,
      row.dateCreated, row.lastUpdated)
  }

  /** `Record.findById(id)`: the record stored under `id`, or null. */
  function FindById(t: Table<CaseRecord>, id: Id): (r: Option<Record>)
    ensures r.None? <==> id !in t.rows
    ensures r.Some? ==> r.value.recordId == Some(id) && r.value == Construct(id, t.rows[id])
  {
    if id in t.rows then Some(Construct(id, t.rows[id])) else None
  }

  /** The fields `Record.create` reads from its argument. */
  datatype RecordData = RecordData(
    caseId: Option<Id>,
    victimId: Option<Id>,
    officerId: Option<Id>,
    suspectId: Option<Id>,
    createdBy: Option<Id>,
    status: Option<string>,
    approvalStatus: Option<string>)

  /** The row `Record.create` inserts: `victimId || null`, `suspectId || null`,
      `status || 'pending'`, `approvalStatus || 'pending'`, `officerId` and
      `createdBy` as given; no evidence, witness or approval columns. */
  function NewRow(data: RecordData, now: Time): (row: CaseRecord)
    ensures Truthy(row.status) && Truthy(row.approvalStatus)
    ensures row.evidenceId.None? && row.witnessId.None?
    ensures row.approvalDate.None? && row.approvedBy.None? && row.rejectionReason.None?
    ensures row.victimId.None? || Present(row.victimId)
    ensures row.suspectId.None? || Present(row.suspectId)
    ensures Truthy(data.approvalStatus) ==> row.approvalStatus == data.approvalStatus
    ensures !Truthy(data.approvalStatus) ==> row.approvalStatus == Some(Pending)
    ensures row.caseId == data.caseId && row.officerId == data.officerId
    ensures row.createdBy == data.createdBy
    ensures row.dateCreated == now && row.lastUpdated == now
  {
    CaseRecord(
      data.caseId, OrNull(data.victimId), OrNull(data.suspectId), None, None,
      data.officerId, data.createdBy, OrElse(data.status, Pending),
      OrElse(data.approvalStatus, Pending), None, None, None, now, now)
  }

  /** `Record.create(data)`: inserts one row under a fresh key and returns it
      read back through `findById`. */
  function Create(t: Table<CaseRecord>, data: RecordData, now: Time): (r: (Table<CaseRecord>, Record))
    requires t.Valid()
    ensures r.0.Valid()
    ensures r.1.recordId.Some? && r.1.recordId.value !in t.rows
    ensures r.0.rows == t.rows[r.1.recordId.value := NewRow(data, now)]
    ensures FindById(r.0, r.1.recordId.value) == Some(r.1)
  {
    var (t', id) := Insert(t, NewRow(data, now));
    (t', Construct(id, NewRow(data, now)))
  }

  /** The row `record.save()` leaves behind: `caseId`, `victimId`, `officerId`,
      `suspectId`, `status` and `approvalStatus` come from the object,
      `lastUpdated` is the clock, and every other column keeps its value. */
  function Saved(row: CaseRecord, rec: Record, now: Time): CaseRecord {
    row.(caseId := rec.caseId, victimId := rec.victimId, officerId := rec.officerId,
         suspectId := rec.suspectId, status := rec.status,
         approvalStatus := rec.approvalStatus, lastUpdated := now)
  }

  /** The columns `save` never writes agree: creator, evidence and witness
      links, the approval date, approver and rejection reason, and the
      creation time. */
  predicate Unwritten(a: CaseRecord, b: CaseRecord) {
    && a.createdBy == b.createdBy && a.evidenceId == b.evidenceId && a.witnessId == b.witnessId
    && a.approvalDate == b.approvalDate && a.approvedBy == b.approvedBy
    && a.rejectionReason == b.rejectionReason && a.dateCreated == b.dateCreated
  }

  /** `record.save()`: `UPDATE ... WHERE recordId = ?` with the object's own
      key. An object without a key, or with a key no row has, matches
      nothing. */
  function Save(t: Table<CaseRecord>, rec: Record, now: Time): (r: Table<CaseRecord>)
    ensures r.next == t.next && r.rows.Keys == t.rows.Keys
    ensures rec.recordId.None? ==> r == t
    ensures rec.recordId.Some? && rec.recordId.value in t.rows ==>
      var row := r.rows[rec.recordId.value];
      && row.caseId == rec.caseId && row.victimId == rec.victimId
      && row.officerId == rec.officerId && row.suspectId == rec.suspectId
      && row.status == rec.status && row.approvalStatus == rec.approvalStatus
      && row.lastUpdated == now
    ensures forall k :: k in t.rows && Some(k) != rec.recordId ==> r.rows[k] == t.rows[k]
    ensures forall k :: k in t.rows ==> Unwritten(r.rows[k], t.rows[k])
    ensures t.Valid() ==> r.Valid()
  {
    match rec.recordId
    case None => t
    case Some(id) => if id in t.rows then Put(t, id, Saved(t.rows[id], rec, now)) else t
  }

  /** Saving a record straight after loading it writes the constructor's
      defaults back into the row (a NULL or empty status or approval status
      becomes `'pending'`, a 0 officer becomes NULL) and touches nothing else
      but `lastUpdated`; the evidence and witness links in particular
      survive. */
  lemma SaveAfterLoad(t: Table<CaseRecord>, id: Id, now: Time)
    requires id in t.rows
    ensures var row := t.rows[id];
      Save(t, FindById(t, id).value, now).rows[id]
        == row.(officerId := OrNull(row.officerId),
                status := OrElse(row.status, Pending),
                approvalStatus := OrElse(row.approvalStatus, Pending),
                lastUpdated := now)
  {
  }

  /** Saving a loaded record is idempotent up to the clock: a second
      load-and-save writes the same row again. */
  lemma SaveAfterLoadIsStable(t: Table<CaseRecord>, id: Id, now: Time, later: Time)
    requires id in t.rows
    ensures var t1 := Save(t, FindById(t, id).value, now);
      var t2 := Save(t1, FindById(t1, id).value, later);
      t2.rows[id] == t1.rows[id].(lastUpdated := later)
  {
    SaveAfterLoad(t, id, now);
    var t1 := Save(t, FindById(t, id).value, now);
    SaveAfterLoad(t1, id, later);
  }

  /** `Record.findAll()`: every row as a record object, newest `dateCreated`
      first. */
  function FindAll(t: Table<CaseRecord>): (r: seq<Record>)
    ensures var listing := RecordQuery.Listing(t, (row: CaseRecord) => true);
      |r| == |listing| &&
      forall i :: 0 <= i < |r| ==> r[i] == Construct(listing[i].id, listing[i].row)
  {
    ConstructAll(RecordQuery.Listing(t, (row: CaseRecord) => true))
  }

  /** `rows.map(row => new Record(row))`. */
  function ConstructAll(s: seq<RecordQuery.Entry>): (r: seq<Record>)
    ensures |r| == |s|
    ensures forall i :: 0 <= i < |r| ==> r[i] == Construct(s[i].id, s[i].row)
  {
    if |s| == 0 then [] else [Construct(s[0].id, s[0].row)] + ConstructAll(s[1..])
  }

  /** Every stored record appears in `findAll`, and nothing else does. */
  lemma FindAllIsComplete(t: Table<CaseRecord>, id: Id)
    requires t.Valid()
    ensures id in t.rows <==> exists i :: 0 <= i < |FindAll(t)| && FindAll(t)[i].recordId == Some(id)
  {
    var listing := RecordQuery.Listing(t, (row: CaseRecord) => true);
    var all := FindAll(t);
    if id in t.rows {
      var e := RecordQuery.Entry(id, t.rows[id]);
      assert e in listing;
      var i :| 0 <= i < |listing| && listing[i] == e;
      assert all[i].recordId == Some(id);
    }
  }

  /** `findAll` lists the newest record first. */
  lemma FindAllNewestFirst(t: Table<CaseRecord>)
    ensures forall i, j :: 0 <= i < j < |FindAll(t)| ==> FindAll(t)[i].dateCreated >= FindAll(t)[j].dateCreated
  {
    var listing := RecordQuery.Listing(t, (row: CaseRecord) => true);
    var all := FindAll(t);
    forall i, j | 0 <= i < j < |all| ensures all[i].dateCreated >= all[j].dateCreated {
      assert listing[i].row.dateCreated >= listing[j].row.dateCreated;
    }
  }

  /** `Record.deleteById(id)`. */
  function DeleteById(t: Table<CaseRecord>, id: Id): (r: Table<CaseRecord>)
    ensures FindById(r, id).None?
    ensures forall k :: k != id ==> FindById(r, k) == FindById(t, k)
    ensures t.Valid() ==> r.Valid()
  {
    Remove(t, id)
  }

  /** The four columns through which a record points at a victim, suspect,
      evidence or witness row. */
  datatype Link = VictimLink | SuspectLink | EvidenceLink | WitnessLink

  function LinkOf(row: CaseRecord, link: Link): Option<Id> {
    match link
    case VictimLink => row.victimId
    case SuspectLink => row.suspectId
    case EvidenceLink => row.evidenceId
    case WitnessLink => row.witnessId
  }

  function SetLink(row: CaseRecord, link: Link, v: Option<Id>): (r: CaseRecord)
    ensures LinkOf(r, link) == v
    ensures forall other :: other != link ==> LinkOf(r, other) == LinkOf(row, other)
    ensures r.(victimId := row.victimId, suspectId := row.suspectId,
               evidenceId := row.evidenceId, witnessId := row.witnessId) == row
  {
    match link
    case VictimLink => row.(victimId := v)
    case SuspectLink => row.(suspectId := v)
    case EvidenceLink => row.(evidenceId := v)
    case WitnessLink => row.(witnessId := v)
  }

  /** `after` is `before` with the record named by `target`, when `target` is
      truthy and names a row, pointed at `child` through `link` and stamped
      `now`; no other row and no other column changed, and no row was added
      or removed. */
  ghost predicate LinkedAt(before: Table<CaseRecord>, after: Table<CaseRecord>, target: Option<Id>,
                           link: Link, child: Id, now: Time) {
    && after.next == before.next && after.rows.Keys == before.rows.Keys
    && (forall k :: k in before.rows && !(Present(target) && k == target.value) ==>
          after.rows[k] == before.rows[k])
    && (Present(target) && target.value in before.rows ==>
          && LinkOf(after.rows[target.value], link) == Some(child)
          && after.rows[target.value].lastUpdated == now
          && SetLink(after.rows[target.value], link, LinkOf(before.rows[target.value], link))
               == before.rows[target.value].(lastUpdated := now))
  }

  /** `UPDATE caserecords SET <link> = child, lastUpdated = NOW() WHERE
      recordId = target`: points the target record at the child and changes
      no other column and no other row; a target no row has changes
      nothing. */
  function BackFill(t: Table<CaseRecord>, target: Id, link: Link, child: Id, now: Time): (r: Table<CaseRecord>)
    ensures r.next == t.next && r.rows.Keys == t.rows.Keys
    ensures target in t.rows ==>
      r.rows[target] == SetLink(t.rows[target], link, Some(child)).(lastUpdated := now)
    ensures target !in t.rows ==> r == t
    ensures forall k :: k in t.rows && k != target ==> r.rows[k] == t.rows[k]
    ensures t.Valid() ==> r.Valid()
  {
    if target in t.rows
    then Put(t, target, SetLink(t.rows[target], link, Some(child)).(lastUpdated := now))
    else t
  }

  /** The case assignment and approval columns of a record, which linking a
      child never touches. */
  predicate SameWorkflow(a: CaseRecord, b: CaseRecord) {
    && a.caseId == b.caseId && a.officerId == b.officerId && a.createdBy == b.createdBy
    && a.status == b.status && a.approvalStatus == b.approvalStatus
    && a.approvalDate == b.approvalDate && a.approvedBy == b.approvedBy
    && a.rejectionReason == b.rejectionReason && a.dateCreated == b.dateCreated
  }

  /** Linking a child keeps every record's case, officer, creator, status and
      approval columns. */
  lemma LinkKeepsWorkflow(before: Table<CaseRecord>, after: Table<CaseRecord>, target: Option<Id>,
                          link: Link, child: Id, now: Time)
    requires LinkedAt(before, after, target, link, child, now)
    ensures forall k :: k in before.rows ==> k in after.rows && SameWorkflow(after.rows[k], before.rows[k])
  {
    if Present(target) && target.value in before.rows {
      var a := after.rows[target.value];
      var b := before.rows[target.value];
      var restored := SetLink(a, link, LinkOf(b, link));
      assert restored == b.(lastUpdated := now);
      assert SameWorkflow(restored, a);
    }
  }
}

=== FILE: record_query.dfy ===
/** Result sets over the `caserecords` table: the rows in key order, `WHERE`
    filtering, `ORDER BY dateCreated DESC`, and `LIMIT ... OFFSET ...`. */
module RecordQuery {
  import opened Basics
  import opened Tables
  import opened Schema

  /** A `caserecords` row together with its key, as a result set carries it. */
  datatype Entry = Entry(id: Id, row: CaseRecord)

  predicate IdsAscending(s: seq<Entry>) {
    forall i, j :: 0 <= i < j < |s| ==> s[i].id < s[j].id
  }

  /** No row appears twice in a result set. */
  predicate DistinctIds(s: seq<Entry>) {
    forall i, j :: 0 <= i < j < |s| ==> s[i].id != s[j].id
  }

  /** `ORDER BY dateCreated DESC`. */
  predicate NewestFirst(s: seq<Entry>) {
    forall i, j :: 0 <= i < j < |s| ==> s[i].row.dateCreated >= s[j].row.dateCreated
  }

  /** The rows whose key is below `n`, by ascending key. */
  function Entries(rows: map<Id, CaseRecord>, n: nat): (r: seq<Entry>)
    ensures forall e :: e in r <==> e.id < n && e.id in rows && rows[e.id] == e.row
    ensures IdsAscending(r)
  {
    if n == 0 then []
    else
      var prefix := Entries(rows, n - 1);
      if n - 1 in rows then prefix + [Entry(n - 1, rows[n - 1])] else prefix
  }

  /** `WHERE p`: keeps exactly the entries whose row satisfies `p`, in order. */
  function Where(s: seq<Entry>, p: CaseRecord -> bool): (r: seq<Entry>)
    ensures forall e :: e in r <==> e in s && p(e.row)
  {
    if |s| == 0 then []
    else if p(s[0].row) then [s[0]] + Where(s[1..], p)
    else Where(s[1..], p)
  }

  /** Filtering keeps the key order, hence keeps keys distinct. */
  lemma {:induction false} WhereKeepsOrder(s: seq<Entry>, p: CaseRecord -> bool)
    requires IdsAscending(s)
    ensures IdsAscending(Where(s, p))
    decreases |s|
  {
    if |s| > 0 {
      var rest := Where(s[1..], p);
      WhereKeepsOrder(s[1..], p);
      forall e | e in rest ensures s[0].id < e.id {
        var k :| 0 <= k < |s[1..]| && s[1..][k] == e;
        assert s[k + 1] == e;
      }
    }
  }

  /** Puts `e` in front of the first entry that is not newer than it. */
  function InsertNewest(e: Entry, s: seq<Entry>): (r: seq<Entry>)
    requires NewestFirst(s)
    ensures NewestFirst(r)
    ensures multiset(r) == multiset(s) + multiset{e}
  {
    if |s| == 0 || e.row.dateCreated >= s[0].row.dateCreated then [e] + s
    else
      var rest := InsertNewest(e, s[1..]);
      assert s == [s[0]] + s[1..];
      forall x | x in rest ensures x.row.dateCreated <= s[0].row.dateCreated {
        assert x in multiset(rest);
      }
      ConsNewest(s[0], rest);
      [s[0]] + rest
  }

  /** An entry no older than anything after it heads a newest-first sequence. */
  lemma ConsNewest(x: Entry, s: seq<Entry>)
    requires NewestFirst(s)
    requires forall y :: y in s ==> y.row.dateCreated <= x.row.dateCreated
    ensures NewestFirst([x] + s)
  {
    var r := [x] + s;
    forall i, j | 0 <= i < j < |r| ensures r[i].row.dateCreated >= r[j].row.dateCreated {
      if i == 0 {
        assert r[j] == s[j - 1];
      } else {
        assert r[i] == s[i - 1] && r[j] == s[j - 1];
      }
    }
  }

  /** A sequence with distinct keys keeps them distinct when an entry with a
      new key is inserted. */
  lemma {:induction false} InsertKeepsDistinct(e: Entry, s: seq<Entry>)
    requires NewestFirst(s) && DistinctIds(s)
    requires forall x :: x in s ==> x.id != e.id
    ensures DistinctIds(InsertNewest(e, s))
    decreases |s|
  {
    if |s| > 0 && e.row.dateCreated < s[0].row.dateCreated {
      var rest := InsertNewest(e, s[1..]);
      InsertKeepsDistinct(e, s[1..]);
      forall x | x in rest ensures x.id != s[0].id {
        assert x in multiset(rest);
        if x != e {
          var k :| 0 <= k < |s[1..]| && s[1..][k] == x;
          assert s[k + 1] == x;
        }
      }
    }
  }

  /** Stable insertion sort, newest `dateCreated` first. */
  function SortNewest(s: seq<Entry>): (r: seq<Entry>)
    ensures NewestFirst(r)
    ensures multiset(r) == multiset(s)
  {
    if |s| == 0 then []
    else
      assert s == [s[0]] + s[1..];
      InsertNewest(s[0], SortNewest(s[1..]))
  }

  /** Sorting keeps keys distinct. */
  lemma {:induction false} SortKeepsDistinct(s: seq<Entry>)
    requires DistinctIds(s)
    ensures DistinctIds(SortNewest(s))
    decreases |s|
  {
    if |s| > 0 {
      var rest := SortNewest(s[1..]);
      SortKeepsDistinct(s[1..]);
      forall x | x in rest ensures x.id != s[0].id {
        assert x in multiset(s[1..]);
        var k :| 0 <= k < |s[1..]| && s[1..][k] == x;
        assert s[k + 1] == x;
      }
      InsertKeepsDistinct(s[0], rest);
    }
  }

  /** `SELECT r.* FROM caserecords r WHERE p ORDER BY r.dateCreated DESC`:
      every row satisfying `p`, once each, newest first. */
  function Listing(t: Table<CaseRecord>, p: CaseRecord -> bool): (r: seq<Entry>)
    ensures NewestFirst(r) && DistinctIds(r)
    ensures t.Valid() ==> forall e :: e in r <==> e.id in t.rows && t.rows[e.id] == e.row && p(e.row)
  {
    var all := Entries(t.rows, t.next);
    var selected := Where(all, p);
    var r := SortNewest(selected);
    WhereKeepsOrder(all, p);
    SortKeepsDistinct(selected);
    assert forall e :: e in r <==> e in selected by {
      forall e ensures e in r <==> e in selected {
        assert e in r <==> e in multiset(r);
      }
    }
    r
  }

  /** `LIMIT limit OFFSET offset`. */
  function Slice(s: seq<Entry>, offset: nat, limit: nat): (r: seq<Entry>)
    ensures |r| <= limit
    ensures offset >= |s| ==> r == []
    ensures offset < |s| ==> |r| == (if offset + limit <= |s| then limit else |s| - offset)
    ensures forall i :: 0 <= i < |r| ==> offset + i < |s| && r[i] == s[offset + i]
  {
    if offset >= |s| then []
    else s[offset .. if offset + limit <= |s| then offset + limit else |s|]
  }

  /** The keys of the rows satisfying `p`. */
  function KeysWhere(rows: map<Id, CaseRecord>, p: CaseRecord -> bool): (ks: set<Id>)
    ensures forall k :: k in ks <==> k in rows && p(rows[k])
  {
    set k | k in rows && p(rows[k])
  }

  /** `COUNT(CASE WHEN p THEN 1 END)`: how many rows satisfy `p`; never more
      than `COUNT(*)`. */
  function CountWhere(rows: map<Id, CaseRecord>, p: CaseRecord -> bool): (n: nat)
    ensures n == |KeysWhere(rows, p)|
    ensures n <= |rows|
  {
    SubsetNoLarger(KeysWhere(rows, p), rows.Keys);
    |KeysWhere(rows, p)|
  }

  /** Adding a row under a new key raises the count by one exactly when the
      row satisfies `p`; an empty table counts nothing. */
  lemma {:induction false} CountWhereInsert(rows: map<Id, CaseRecord>, k: Id, row: CaseRecord, p: CaseRecord -> bool)
    requires k !in rows
    ensures CountWhere(map[], p) == 0
    ensures CountWhere(rows[k := row], p) == CountWhere(rows, p) + (if p(row) then 1 else 0)
  {
    assert KeysWhere(map[], p) == {};
    var before := KeysWhere(rows, p);
    assert k !in before;
    if p(row) {
      assert KeysWhere(rows[k := row], p) == before + {k};
    } else {
      assert KeysWhere(rows[k := row], p) == before;
    }
  }

  lemma {:induction false} SubsetNoLarger(a: set<Id>, b: set<Id>)
    requires a <= b
    ensures |a| <= |b|
    decreases |b|
  {
    if a != {} {
      var x :| x in a;
      SubsetNoLarger(a - {x}, b - {x});
    }
  }

  /** The keys of the rows where `f` reads a non-NULL value. */
  function HoldersOf(rows: map<Id, CaseRecord>, f: CaseRecord -> Option<Id>): (ks: set<Id>)
    ensures forall k :: k in ks <==> k in rows && f(rows[k]).Some?
  {
    set k | k in rows && f(rows[k]).Some?
  }

  /** The distinct non-NULL values `f` reads from the rows. */
  function ValuesOf(rows: map<Id, CaseRecord>, f: CaseRecord -> Option<Id>): (vs: set<Id>)
    ensures forall v :: v in vs <==> exists k :: k in rows && f(rows[k]) == Some(v)
  {
    set k | k in rows && f(rows[k]).Some? :: f(rows[k]).value
  }

  /** `COUNT(DISTINCT column)`: how many different non-NULL values the column
      holds; never more than the rows that hold one. */
  function CountDistinct(rows: map<Id, CaseRecord>, f: CaseRecord -> Option<Id>): (n: nat)
    ensures n == |ValuesOf(rows, f)|
    ensures n <= |HoldersOf(rows, f)|
  {
    DistinctNoMoreThanRows(rows, f);
    |ValuesOf(rows, f)|
  }

  /** Adding a row under a new key raises the distinct count by one exactly
      when the row holds a value no existing row holds. */
  lemma {:induction false} CountDistinctInsert(rows: map<Id, CaseRecord>, k: Id, row: CaseRecord,
                                               f: CaseRecord -> Option<Id>)
    requires k !in rows
    ensures CountDistinct(rows[k := row], f) ==
      CountDistinct(rows, f) + (if f(row).Some? && f(row).value !in ValuesOf(rows, f) then 1 else 0)
  {
    var added: set<Id> := if f(row).Some? then {f(row).value} else {};
    ValuesOfInsert(rows, k, row, f, added);
    if f(row).Some? && f(row).value !in ValuesOf(rows, f) {
      assert |ValuesOf(rows, f) + added| == |ValuesOf(rows, f)| + 1;
    } else {
      assert ValuesOf(rows, f) + added == ValuesOf(rows, f);
    }
  }

  /** The values after adding a row are those before plus the row's own. */
  lemma {:induction false} ValuesOfInsert(rows: map<Id, CaseRecord>, k: Id, row: CaseRecord,
                                          f: CaseRecord -> Option<Id>, added: set<Id>)
    requires k !in rows
    requires added == if f(row).Some? then {f(row).value} else {}
    ensures ValuesOf(rows[k := row], f) == ValuesOf(rows, f) + added
  {
    var rows' := rows[k := row];
    forall v | v in ValuesOf(rows', f) ensures v in ValuesOf(rows, f) + added {
      var j :| j in rows' && f(rows'[j]) == Some(v);
      if j != k { assert rows'[j] == rows[j]; }
    }
    forall v | v in ValuesOf(rows, f) ensures v in ValuesOf(rows', f) {
      var j :| j in rows && f(rows[j]) == Some(v);
      assert rows'[j] == rows[j];
    }
    if f(row).Some? {
      assert rows'[k] == row;
    }
  }

  lemma {:induction false} DistinctNoMoreThanRows(rows: map<Id, CaseRecord>, f: CaseRecord -> Option<Id>)
    ensures |ValuesOf(rows, f)| <= |HoldersOf(rows, f)|
    decreases |rows|
  {
    var holders := HoldersOf(rows, f);
    if holders != {} {
      var k :| k in holders;
      var rest := rows - {k};
      DistinctNoMoreThanRows(rest, f);
      assert ValuesOf(rows, f) <= ValuesOf(rest, f) + {f(rows[k]).value} by {
        forall v | v in ValuesOf(rows, f) ensures v in ValuesOf(rest, f) + {f(rows[k]).value} {
          var j :| j in rows && f(rows[j]) == Some(v);
          if j != k { assert j in rest; }
        }
      }
      SubsetNoLarger(ValuesOf(rows, f), ValuesOf(rest, f) + {f(rows[k]).value});
      assert HoldersOf(rest, f) == holders - {k};
    }
  }
}

=== FILE: routes.dfy ===
/** The record and case routers: which guards stand in front of which
    handler, in registration order, and what a request that runs through
    them reaches. The outcome of each guard is an input: `auth` is what
    `isAuthenticated` decides for the request's cookie and `valid` what
    `validateRecordInput` decides for its body. */
module Routes {
  import opened Basics
  import opened Schema
  import opened Errors
  import opened AuthMiddleware

  datatype Verb = Get | Post | Put | Delete

  /** A path segment of a route: a literal, or a `:id` parameter, which
      matches any non-empty segment. */
  datatype Segment = Lit(text: string) | Param

  /** The record and case handlers the routers reach. */
  datatype Action =
    | GetPendingRecords | ApproveRecord | RejectRecord | GetRecordStats
    | GetAllRecords | CreateCompleteRecord | GetRecord | UpdateRecord | DeleteRecord
    | GetAllCases | GetCase | CreateCase | UpdateCaseStatus | UpdateCasePriority
    | AssignOfficer | DeleteCase

  /** A middleware in front of a handler. */
  datatype Guard = Authenticate | Authorize(roles: seq<string>) | ValidateRecord

  /** A registered route: verb, path pattern and handler. Each handler is
      registered once, so the guards in front of it are a function of the
      handler (`RecordGuards`, `CaseGuards`). */
  datatype Route = Route(verb: Verb, path: seq<Segment>, action: Action)

  const Admin := "admin"
  const Officer := "officer"

  /** The record router, in registration order. The manual insertion is
      not registered. */
  const RecordRoutes: seq<Route> := [
    Route(Get, [Lit("pending")], GetPendingRecords),
    Route(Put, [Param, Lit("approve")], ApproveRecord),
    Route(Put, [Param, Lit("reject")], RejectRecord),
    Route(Get, [Lit("stats")], GetRecordStats),
    Route(Get, [], GetAllRecords),
    Route(Post, [], CreateCompleteRecord),
    Route(Get, [Param], GetRecord),
    Route(Put, [Param], UpdateRecord),
    Route(Delete, [Param], DeleteRecord)
  ]

  /** The guards each record route lists in front of its handler;
      `router.use(isAuthenticated)` comes before all of them (see
      `RecordChain`). */
  function RecordGuards(a: Action): seq<Guard> {
    match a
    case GetPendingRecords => [Authorize([Admin])]
    case ApproveRecord => [Authorize([Admin])]
    case RejectRecord => [Authorize([Admin])]
    case GetRecordStats => [Authorize([Admin])]
    case CreateCompleteRecord => [Authorize([Admin, Officer]), ValidateRecord]
    case UpdateRecord => [Authorize([Admin, Officer]), ValidateRecord]
    case DeleteRecord => [Authorize([Admin])]
    case _ => []
  }

  /** The case router, in registration order. */
  const CaseRoutes: seq<Route> := [
    Route(Get, [], GetAllCases),
    Route(Get, [Param], GetCase),
    Route(Post, [], CreateCase),
    Route(Put, [Param, Lit("status")], UpdateCaseStatus),
    Route(Put, [Param, Lit("priority")], UpdateCasePriority),
    Route(Put, [Param, Lit("assign")], AssignOfficer),
    Route(Delete, [Param], DeleteCase)
  ]

  /** The guards each case route lists in front of its handler. */
  function CaseGuards(a: Action): seq<Guard> {
    match a
    case CreateCase => [Authenticate]
    case UpdateCaseStatus => [Authenticate, Authorize([Admin])]
    case UpdateCasePriority => [Authenticate, Authorize([Admin])]
    case AssignOfficer => [Authenticate, Authorize([Admin])]
    case DeleteCase => [Authenticate, Authorize([Admin])]
    case _ => []
  }

  /** ASCII lower case; every other character is kept. */
  function LowerChar(c: char): (r: char)
    ensures 'A' <= c <= 'Z' ==> r as int == c as int + 32
    ensures !('A' <= c <= 'Z') ==> r == c
  {
    if 'A' <= c <= 'Z' then (c as int + 32) as char else c
  }

  function Lower(s: string): (r: string)
    ensures |r| == |s| && forall i :: 0 <= i < |s| ==> r[i] == LowerChar(s[i])
  {
    seq(|s|, i requires 0 <= i < |s| => LowerChar(s[i]))
  }

  /** `express.Router()` is built without `caseSensitive`, so a literal
      segment matches regardless of ASCII letter case (the literals of both
      routers are plain ASCII); a parameter matches any non-empty
      segment. */
  predicate SegmentMatches(s: Segment, part: string) {
    match s
    case Lit(t) => Lower(part) == Lower(t)
    case Param => part != ""
  }

  /** A route pattern matches a path of the same length segment by segment. */
  predicate PathMatches(pattern: seq<Segment>, path: seq<string>) {
    |pattern| == |path| && forall i :: 0 <= i < |path| ==> SegmentMatches(pattern[i], path[i])
  }

  predicate RouteMatches(route: Route, verb: Verb, path: seq<string>) {
    route.verb == verb && PathMatches(route.path, path)
  }

  /** Express's dispatch: the handler of the first registered route whose
      verb and pattern match. */
  function Resolve(routes: seq<Route>, verb: Verb, path: seq<string>): (r: Option<Action>)
    ensures r.None? <==> forall i :: 0 <= i < |routes| ==> !RouteMatches(routes[i], verb, path)
  {
    if |routes| == 0 then None
    else if RouteMatches(routes[0], verb, path) then Some(routes[0].action)
    else
      assert forall i :: 1 <= i < |routes| ==> routes[i] == routes[1..][i - 1];
      Resolve(routes[1..], verb, path)
  }

  /** The handler `Resolve` picks is that of a matching route registered
      before every other matching route. */
  lemma {:induction false} ResolveIsFirstMatch(routes: seq<Route>, verb: Verb, path: seq<string>)
    requires Resolve(routes, verb, path).Some?
    ensures exists i :: (&& 0 <= i < |routes| && routes[i].action == Resolve(routes, verb, path).value
                         && RouteMatches(routes[i], verb, path)
                         && forall j :: 0 <= j < i ==> !RouteMatches(routes[j], verb, path))
  {
    var r := Resolve(routes, verb, path);
    if RouteMatches(routes[0], verb, path) {
      assert routes[0].action == r.value;
    } else {
      ResolveIsFirstMatch(routes[1..], verb, path);
      var i :| 0 <= i < |routes[1..]| && routes[1..][i].action == r.value
        && RouteMatches(routes[1..][i], verb, path)
        && (forall j :: 0 <= j < i ==> !RouteMatches(routes[1..][j], verb, path));
      assert routes[i + 1] == routes[1..][i];
      forall j | 0 <= j < i + 1 ensures !RouteMatches(routes[j], verb, path) {
        if j > 0 { assert routes[j] == routes[1..][j - 1]; }
      }
    }
  }

  /** What a request to a router runs: its guards, then its handler if a
      route matched. */
  datatype Chain = Chain(guards: seq<Guard>, handler: Option<Action>)

  /** A request to the record router: authentication, then the matched
      route's guards and handler. */
  function RecordChain(verb: Verb, path: seq<string>): (c: Chain)
    ensures |c.guards| >= 1 && c.guards[0] == Authenticate
  {
    match Resolve(RecordRoutes, verb, path)
    case Some(a) => Chain([Authenticate] + RecordGuards(a), Some(a))
    case None => Chain([Authenticate], None)
  }

  /** A request to the case router. */
  function CaseChain(verb: Verb, path: seq<string>): Chain {
    match Resolve(CaseRoutes, verb, path)
    case Some(a) => Chain(CaseGuards(a), Some(a))
    case None => Chain([], None)
  }

  /** Where a request ends: at a handler (with the principal the guards
      attached, if any), stopped by a guard, or past every route. */
  datatype Outcome = Handled(action: Action, user: Option<Principal>) | Stopped(error: JsError) | Unrouted

  /** Runs the guards in order, then the handler. `isAuthorized` reads
      `req.user.role`, so a role check with no principal attached throws a
      `TypeError`. */
  function Run(guards: seq<Guard>, handler: Option<Action>, auth: AuthOutcome, valid: Gate,
               user: Option<Principal>): (r: Outcome)
    ensures r.Handled? ==> handler == Some(r.action)
    ensures r.Handled? && Authenticate in guards ==> auth.Authenticated? && r.user == Some(auth.principal)
    ensures r.Handled? && Authenticate !in guards ==> r.user == user
    ensures r.Handled? && ValidateRecord in guards ==> valid.Proceed?
    ensures r.Stopped? && guards == [] ==> false
  {
    if |guards| == 0 then
      (match handler
       case Some(a) => Handled(a, user)
       case None => Unrouted)
    else match guards[0]
      case Authenticate =>
        (match auth
         case Refused(e) => Stopped(e)
         case Authenticated(p) => Run(guards[1..], handler, auth, valid, Some(p)))
      case Authorize(roles) =>
        (match user
         case None => Stopped(UndefinedProperty("role"))
         case Some(p) =>
           match IsAuthorized(p.user, roles)
           case Halt(e) => Stopped(e)
           case Proceed => Run(guards[1..], handler, auth, valid, user))
      case ValidateRecord =>
        (match valid
         case Halt(e) => Stopped(e)
         case Proceed => Run(guards[1..], handler, auth, valid, user))
  }

  /** A role check passed on the way to a handler admits only those
      roles. */
  lemma {:induction false} RoleCheckPassed(roles: seq<string>, rest: seq<Guard>, handler: Option<Action>,
                                           auth: AuthOutcome, valid: Gate, user: Option<Principal>)
    requires Run([Authorize(roles)] + rest, handler, auth, valid, user).Handled?
    ensures user.Some? && user.value.user.role.Some? && user.value.user.role.value in roles
  {
    assert ([Authorize(roles)] + rest)[0] == Authorize(roles);
  }

  /** After `isAuthenticated` attached the principal, the rest of the guards
      run with it. */
  lemma {:induction false} AfterAuthentication(rest: seq<Guard>, handler: Option<Action>, auth: AuthOutcome,
                                               valid: Gate, user: Option<Principal>)
    requires auth.Authenticated?
    ensures Run([Authenticate] + rest, handler, auth, valid, user) == Run(rest, handler, auth, valid, Some(auth.principal))
  {
    assert ([Authenticate] + rest)[0] == Authenticate && ([Authenticate] + rest)[1..] == rest;
  }

  /** The record routes that only an administrator reaches. */
  predicate AdminOnly(a: Action) {
    a in {GetPendingRecords, ApproveRecord, RejectRecord, GetRecordStats, DeleteRecord}
  }

  /** `/pending` and `/stats` are registered before `/:id`, so they are not
      read as record keys. */
  lemma PendingAndStatsNotShadowed()
    ensures Resolve(RecordRoutes, Get, ["pending"]) == Some(GetPendingRecords)
    ensures Resolve(RecordRoutes, Get, ["stats"]) == Some(GetRecordStats)
  {
    assert RouteMatches(RecordRoutes[0], Get, ["pending"]);
    assert !SegmentMatches(Lit("pending"), "stats") by { assert Lower("stats")[0] != Lower("pending")[0]; }
    assert !RouteMatches(RecordRoutes[0], Get, ["stats"]) by {
      assert ["stats"][0] == "stats";
    }
    assert RouteMatches(RecordRoutes[3], Get, ["stats"]);
  }

  /** Paths match whatever the letter case: `GET /Pending` is the
      administrator-only pending list, not a record read, and
      `PUT /5/Approve` is an approval. */
  lemma {:induction false} PathsIgnoreCase()
    ensures Resolve(RecordRoutes, Get, ["Pending"]) == Some(GetPendingRecords)
    ensures Resolve(RecordRoutes, Put, ["5", "Approve"]) == Some(ApproveRecord)
  {
    assert Lower("Pending") == Lower("pending");
    assert RouteMatches(RecordRoutes[0], Get, ["Pending"]) by { assert ["Pending"][0] == "Pending"; }
    assert !RouteMatches(RecordRoutes[0], Put, ["5", "Approve"]);
    assert Lower("Approve") == Lower("approve");
    assert RouteMatches(RecordRoutes[1], Put, ["5", "Approve"]) by {
      assert ["5", "Approve"][0] == "5" && ["5", "Approve"][1] == "Approve";
    }
    assert Resolve(RecordRoutes, Put, ["5", "Approve"]) == Resolve(RecordRoutes[1..], Put, ["5", "Approve"]);
    assert RecordRoutes[1..][0] == RecordRoutes[1];
  }

  /** Every record request that reaches a handler was authenticated. */
  lemma RecordHandlersNeedPrincipal(verb: Verb, path: seq<string>, auth: AuthOutcome, valid: Gate)
    ensures var c := RecordChain(verb, path);
      var r := Run(c.guards, c.handler, auth, valid, None);
      r.Handled? ==> auth.Authenticated? && r.user == Some(auth.principal)
  {
  }

  /** An administrator-only record handler is reached only by an
      administrator. */
  lemma AdminHandlersNeedAdmin(verb: Verb, path: seq<string>, auth: AuthOutcome, valid: Gate)
    ensures var c := RecordChain(verb, path);
      var r := Run(c.guards, c.handler, auth, valid, None);
      r.Handled? && AdminOnly(r.action) ==> auth.Authenticated? && auth.principal.user.role == Some(Admin)
  {
    var c := RecordChain(verb, path);
    var r := Run(c.guards, c.handler, auth, valid, None);
    if r.Handled? && AdminOnly(r.action) {
      AdminChain(r.action, auth, valid);
    }
  }

  /** The guards in front of an administrator-only handler let only an
      administrator through. */
  lemma {:induction false} AdminChain(a: Action, auth: AuthOutcome, valid: Gate)
    requires AdminOnly(a)
    ensures Run([Authenticate] + RecordGuards(a), Some(a), auth, valid, None).Handled? ==>
      auth.Authenticated? && auth.principal.user.role == Some(Admin)
  {
    if Run([Authenticate] + RecordGuards(a), Some(a), auth, valid, None).Handled? {
      AfterAuthentication(RecordGuards(a), Some(a), auth, valid, None);
      assert RecordGuards(a) == [Authorize([Admin])] + [];
      RoleCheckPassed([Admin], [], Some(a), auth, valid, Some(auth.principal));
    }
  }

  /** Creating or updating a record takes an administrator or an officer
      and a body the validator accepts. */
  lemma {:induction false} RecordWritesNeedRoleAndValidBody(verb: Verb, path: seq<string>, auth: AuthOutcome, valid: Gate)
    ensures var c := RecordChain(verb, path);
      var r := Run(c.guards, c.handler, auth, valid, None);
      r.Handled? && r.action in {CreateCompleteRecord, UpdateRecord} ==>
        && auth.Authenticated? && valid.Proceed?
        && auth.principal.user.role in {Some(Admin), Some(Officer)}
  {
    var c := RecordChain(verb, path);
    var r := Run(c.guards, c.handler, auth, valid, None);
    if r.Handled? && r.action in {CreateCompleteRecord, UpdateRecord} {
      AfterAuthentication(RecordGuards(r.action), c.handler, auth, valid, None);
      assert RecordGuards(r.action) == [Authorize([Admin, Officer])] + [ValidateRecord];
      RoleCheckPassed([Admin, Officer], [ValidateRecord], c.handler, auth, valid, Some(auth.principal));
    }
  }

  /** Listing and reading cases needs no token: whatever the cookie, the
      request reaches the handler with no principal. */
  lemma PublicCaseReads(id: string, auth: AuthOutcome, valid: Gate)
    requires id != ""
    ensures var c := CaseChain(Get, []); Run(c.guards, c.handler, auth, valid, None) == Handled(GetAllCases, None)
    ensures var c := CaseChain(Get, [id]); Run(c.guards, c.handler, auth, valid, None) == Handled(GetCase, None)
  {
    assert RouteMatches(CaseRoutes[0], Get, []);
    assert !RouteMatches(CaseRoutes[0], Get, [id]);
    assert RouteMatches(CaseRoutes[1], Get, [id]) by {
      assert [id][0] == id;
    }
    assert Resolve(CaseRoutes, Get, [id]) == Resolve(CaseRoutes[1..], Get, [id]);
    assert CaseRoutes[1..][0] == CaseRoutes[1];
  }

  /** Creating a case takes a valid token and nothing more; every other case
      write takes an administrator. */
  lemma {:induction false} CaseWritesNeedPrincipal(verb: Verb, path: seq<string>, auth: AuthOutcome, valid: Gate)
    ensures var c := CaseChain(verb, path);
      var r := Run(c.guards, c.handler, auth, valid, None);
      r.Handled? && r.action in {CreateCase, UpdateCaseStatus, UpdateCasePriority, AssignOfficer, DeleteCase} ==>
        auth.Authenticated?
    ensures var c := CaseChain(verb, path);
      var r := Run(c.guards, c.handler, auth, valid, None);
      r.Handled? && r.action in {UpdateCaseStatus, UpdateCasePriority, AssignOfficer, DeleteCase} ==>
        auth.principal.user.role == Some(Admin)
  {
    var c := CaseChain(verb, path);
    var r := Run(c.guards, c.handler, auth, valid, None);
    if r.Handled? && r.action in {CreateCase, UpdateCaseStatus, UpdateCasePriority, AssignOfficer, DeleteCase} {
      assert c.guards == CaseGuards(r.action);
      assert c.guards[0] == Authenticate;
      if r.action in {UpdateCaseStatus, UpdateCasePriority, AssignOfficer, DeleteCase} {
        assert CaseGuards(r.action) == [Authenticate] + [Authorize([Admin])];
        AfterAuthentication([Authorize([Admin])], c.handler, auth, valid, None);
        RoleCheckPassed([Admin], [], c.handler, auth, valid, Some(auth.principal));
      }
    }
  }
}

=== FILE: schema.dfy ===
/** The relational schema the models read and write: one row datatype per
    table, and the whole database as one immutable value. Nullable columns are
    `Option`s; the `createdAt`/`updatedAt`/`lastUpdated` columns take the clock
    value of the statement that wrote them. */
module Schema {
  import opened Basics
  import opened Tables

  /** A `cases` row. */
  datatype Case = Case(
    incidentType: Option<string>,
    dateTime: Option<string>,
    location: Option<string>,
    status: Option<string>,
    priority: Option<string>,
    description: Option<string>,
    assignedTo: Option<Id>,
    createdAt: Time,
    updatedAt: Time)

  /** A `caserecords` row: the join entity linking a case to its victim,
      suspect, evidence and witness, and carrying the approval workflow. */
  datatype CaseRecord = CaseRecord(
    caseId: Option<Id>,
    victimId: Option<Id>,
    suspectId: Option<Id>,
    evidenceId: Option<Id>,
    witnessId: Option<Id>,
    officerId: Option<Id>,
    createdBy: Option<Id>,
    status: Option<string>,
    approvalStatus: Option<string>,
    approvalDate: Option<Time>,
    approvedBy: Option<Id>,
    rejectionReason: Option<string>,
    dateCreated: Time,
    lastUpdated: Time)

  /** A `victims` row. */
  datatype Victim = Victim(
    name: Option<string>,
    address: Option<string>,
    phoneNumber: Option<string>,
    email: Option<string>,
    dateOfBirth: Option<string>,
    createdAt: Time,
    updatedAt: Time)

  /** A `suspects` row. */
  datatype Suspect = Suspect(
    name: Option<string>,
    address: Option<string>,
    phoneNumber: Option<string>,
    description: Option<string>,
    status: Option<string>,
    createdAt: Time,
    updatedAt: Time)

  /** An `evidence` row. */
  datatype Evidence = Evidence(
    substances: Option<string>,
    description: Option<string>,
    location: Option<string>,
    dateTime: Option<string>,
    collectedBy: Option<Id>,
    storageLocation: Option<string>,
    status: Option<string>,
    createdAt: Time,
    updatedAt: Time)

  /** A `witnesses` row. */
  datatype Witness = Witness(
    name: Option<string>,
    address: Option<string>,
    phoneNumber: Option<string>,
    statement: Option<string>,
    relationToCase: Option<string>,
    createdAt: Time,
    updatedAt: Time)

  /** A `users` row; `password` holds the bcrypt hash. */
  datatype User = User(
    name: Option<string>,
    email: Option<string>,
    password: string,
    role: Option<string>,
    accountVerified: bool,
    verificationCode: Option<int>,
    verificationCodeExpire: Option<Time>,
    resetPasswordToken: Option<string>,
    resetPasswordExpire: Option<Time>,
    createdAt: Time,
    updatedAt: Time)

  /** The whole database. */
  datatype Db = Db(
    cases: Table<Case>,
    caserecords: Table<CaseRecord>,
    victims: Table<Victim>,
    suspects: Table<Suspect>,
    evidence: Table<Evidence>,
    witnesses: Table<Witness>,
    users: Table<User>)
  {
    /** Every table's keys were handed out by its own auto-increment counter. */
    predicate Valid() {
      && cases.Valid()
      && caserecords.Valid()
      && victims.Valid()
      && suspects.Valid()
      && evidence.Valid()
      && witnesses.Valid()
      && users.Valid()
    }
  }

  /** The principal an authenticated request carries as `req.user`: the
      `users` row and its key. */
  datatype Principal = Principal(id: Id, user: User)

  /** Spellings of the record status and approval columns. */
  const Active := "active"
  const Closed := "closed"
  const Pending := "pending"
  const Approved := "approved"
  const Rejected := "rejected"
  const Open := "open"
  const Low := "low"
}

=== FILE: suspect_model.dfy ===
/** The `Suspect` model over the `suspects` table. `create` may also link the
    new suspect into an existing record. */
module SuspectModel {
  import opened Basics
  import opened Tables
  import opened Schema
  import RecordModel

  /** A `Suspect` instance: its key and the row it was read from. */
  datatype SuspectObj = SuspectObj(suspectId: Id, row: Suspect)

  /** The fields `Suspect.create` reads. `recordId` is the argument's
      `suspectId` field, which the model uses as the key of the record to link
      the new suspect into. */
  datatype SuspectData = SuspectData(
    name: Option<string>,
    address: Option<string>,
    phoneNumber: Option<string>,
    description: Option<string>,
    status: Option<string>,
    recordId: Option<Id>)

  /** `Suspect.create(data)`: inserts the suspect under a fresh key and, when
      `recordId` is truthy, points that record's `suspectId` at it. */
  function Create(db: Db, data: SuspectData, now: Time): (r: (Db, SuspectObj))
    requires db.Valid()
    ensures r.0.Valid()
    ensures r.1.suspectId !in db.suspects.rows
    ensures r.0.suspects.rows == db.suspects.rows[r.1.suspectId := r.1.row]
    ensures r.1.row == Suspect(data.name, data.address, data.phoneNumber, data.description, data.status, now, now)
    ensures RecordModel.LinkedAt(db.caserecords, r.0.caserecords, data.recordId,
                                 RecordModel.SuspectLink, r.1.suspectId, now)
    ensures !Present(data.recordId) ==> r.0.caserecords == db.caserecords
    ensures r.0.cases == db.cases && r.0.victims == db.victims && r.0.evidence == db.evidence
    ensures r.0.witnesses == db.witnesses && r.0.users == db.users
  {
    var row := Suspect(data.name, data.address, data.phoneNumber, data.description, data.status, now, now);
    var (suspects, id) := Insert(db.suspects, row);
    var records :=
      if Present(data.recordId)
      then RecordModel.BackFill(db.caserecords, data.recordId.value, RecordModel.SuspectLink, id, now)
      else db.caserecords;
    (db.(suspects := suspects, caserecords := records), SuspectObj(id, row))
  }

  /** `Suspect.findById(id)`: the suspect stored under `id`, or null. */
  function FindById(t: Table<Suspect>, id: Id): (r: Option<SuspectObj>)
    ensures r.None? <==> id !in t.rows
    ensures r.Some? ==> r.value.suspectId == id && r.value.row == t.rows[id]
  {
    if id in t.rows then Some(SuspectObj(id, t.rows[id])) else None
  }

  /** `suspect.save()`: writes name, address, phone number, description and
      status from the object and stamps `updatedAt`; `createdAt` and every
      other suspect are kept. */
  function Save(t: Table<Suspect>, obj: SuspectObj, now: Time): (r: Table<Suspect>)
    ensures r.next == t.next && r.rows.Keys == t.rows.Keys
    ensures obj.suspectId in t.rows ==>
      r.rows[obj.suspectId] == obj.row.(createdAt := t.rows[obj.suspectId].createdAt, updatedAt := now)
    ensures forall k :: k in t.rows && k != obj.suspectId ==> r.rows[k] == t.rows[k]
    ensures t.Valid() ==> r.Valid()
  {
    if obj.suspectId in t.rows
    then Put(t, obj.suspectId, obj.row.(createdAt := t.rows[obj.suspectId].createdAt, updatedAt := now))
    else t
  }

  /** `Suspect.deleteById(id)`: removes that suspect and no other row. */
  function DeleteById(t: Table<Suspect>, id: Id): (r: Table<Suspect>)
    ensures FindById(r, id).None?
    ensures forall k :: k != id ==> FindById(r, k) == FindById(t, k)
    ensures t.Valid() ==> r.Valid()
  {
    Remove(t, id)
  }

  /** A created suspect is found again under its key. */
  lemma CreateThenFind(db: Db, data: SuspectData, now: Time)
    requires db.Valid()
    ensures var (db', v) := Create(db, data, now);
      FindById(db'.suspects, v.suspectId) == Some(v)
  {
  }

  /** Saving a suspect as it was loaded changes only its `updatedAt`. */
  lemma SaveAfterLoad(t: Table<Suspect>, id: Id, now: Time)
    requires id in t.rows
    ensures Save(t, FindById(t, id).value, now).rows[id] == t.rows[id].(updatedAt := now)
  {
  }
}

=== FILE: tables.dfy ===
/** One SQL table with an AUTO_INCREMENT primary key, as an immutable value,
    and the four statements the models issue against it. */
module Tables {
  import opened Basics

  /** The rows by primary key, and the key the next `INSERT` receives. */
  datatype Table<T> = Table(rows: map<Id, T>, next: Id) {

    /** Every key was handed out by an earlier insert: keys are positive and
        below `next`. */
    predicate Valid() {
      next >= 1 && forall k :: k in rows ==> 1 <= k < next
    }
  }

  /** A freshly created table. */
  function Empty<T>(): (t: Table<T>)
    ensures t.Valid() && t.rows == map[]
  {
    Table(map[], 1)
  }

  /** `INSERT`: the row receives the next auto-increment key, which no row
      holds yet; every earlier row is kept. */
  function Insert<T>(t: Table<T>, row: T): (r: (Table<T>, Id))
    ensures t.Valid() ==> r.0.Valid() && r.1 >= 1 && r.1 !in t.rows
    ensures r.0.rows == t.rows[r.1 := row]
    ensures r.0.next > t.next
  {
    (Table(t.rows[t.next := row], t.next + 1), t.next)
  }

  /** `SELECT ... WHERE key = ?`: null exactly when no row has that key. */
  function Find<T>(t: Table<T>, id: Id): (r: Option<T>)
    ensures r.None? <==> id !in t.rows
    ensures r.Some? ==> r.value == t.rows[id]
  {
    if id in t.rows then Some(t.rows[id]) else None
  }

  /** `UPDATE ... WHERE key = ?`: replaces the row with that key; a key no row
      has matches nothing and changes nothing. */
  function Put<T>(t: Table<T>, id: Id, row: T): (r: Table<T>)
    ensures r.next == t.next && r.rows.Keys == t.rows.Keys
    ensures id in t.rows ==> r.rows[id] == row
    ensures forall k :: k in t.rows && k != id ==> r.rows[k] == t.rows[k]
    ensures id !in t.rows ==> r == t
    ensures t.Valid() ==> r.Valid()
  {
    if id in t.rows then Table(t.rows[id := row], t.next) else t
  }

  /** `DELETE ... WHERE key = ?`: removes that row and no other. */
  function Remove<T>(t: Table<T>, id: Id): (r: Table<T>)
    ensures r.next == t.next && r.rows.Keys == t.rows.Keys - {id}
    ensures forall k :: k in r.rows ==> r.rows[k] == t.rows[k]
    ensures t.Valid() ==> r.Valid()
  {
    Table(t.rows - {id}, t.next)
  }

  /** `rows[0]` of a `SELECT ... WHERE p` without `ORDER BY`, read as the row
      with the lowest key: the lowest key whose row satisfies `p`. */
  function FirstWhere<T>(t: Table<T>, p: T -> bool): (r: Option<Id>)
    ensures r.Some? ==> r.value in t.rows && p(t.rows[r.value])
    ensures r.Some? ==> forall k :: k in t.rows && k < r.value ==> !p(t.rows[k])
    ensures t.Valid() && r.None? ==> forall k :: k in t.rows ==> !p(t.rows[k])
  {
    FirstFrom(t, p, 0)
  }

  /** The lowest key at least `lo` whose row satisfies `p`. */
  function FirstFrom<T>(t: Table<T>, p: T -> bool, lo: nat): (r: Option<Id>)
    ensures r.Some? ==> lo <= r.value && r.value in t.rows && p(t.rows[r.value])
    ensures r.Some? ==> forall k :: k in t.rows && lo <= k < r.value ==> !p(t.rows[k])
    ensures r.None? ==> forall k :: k in t.rows && lo <= k < t.next ==> !p(t.rows[k])
    decreases t.next - lo
  {
    if lo >= t.next then None
    else if lo in t.rows && p(t.rows[lo]) then Some(lo)
    else FirstFrom(t, p, lo + 1)
  }
}

=== FILE: validate_input.dfy ===
/** `validateRecordInput`: the middleware that checks the body of a record
    request before the controller sees it, collecting every problem into one
    message. */
module ValidateInput {
  import opened Basics
  import opened Errors
  import CaseModel

  /** One problem the validator reports. */
  datatype Problem = NoCaseDetails | NoIncidentType | NoDateTime | NoLocation | NoOfficerId

  /** The message reported for each problem. */
  function Text(p: Problem): (s: string)
    ensures s != ""
  {
    match p
    case NoCaseDetails => "Case details are required"
    case NoIncidentType => "Incident type is required"
    case NoDateTime => "Date and time are required"
    case NoLocation => "Location is required"
    case NoOfficerId => "Officer ID is required"
  }

  /** `errors.map(Text)`. */
  function Texts(ps: seq<Problem>): (r: seq<string>)
    ensures |r| == |ps|
    ensures forall i :: 0 <= i < |ps| ==> r[i] == Text(ps[i])
  {
    if |ps| == 0 then [] else [Text(ps[0])] + Texts(ps[1..])
  }

  /** The problems with a record body, in the order they are pushed. */
  function Problems(caseDetails: Option<CaseModel.CaseData>, officerId: Option<Id>): (r: seq<Problem>)
    ensures |r| == 0 <==> CaseDetailsComplete(caseDetails) && Present(officerId)
    ensures caseDetails.None? ==> r[0] == NoCaseDetails && NoIncidentType !in r
    ensures caseDetails.None? ==> NoDateTime !in r && NoLocation !in r
    ensures caseDetails.Some? ==> NoCaseDetails !in r
    ensures caseDetails.Some? ==> (NoIncidentType in r <==> !Truthy(caseDetails.value.incidentType))
    ensures caseDetails.Some? ==> (NoDateTime in r <==> !Truthy(caseDetails.value.dateTime))
    ensures caseDetails.Some? ==> (NoLocation in r <==> !Truthy(caseDetails.value.location))
    ensures NoOfficerId in r <==> !Present(officerId)
    ensures !Present(officerId) ==> r[|r| - 1] == NoOfficerId
    ensures forall i, j :: 0 <= i < j < |r| ==> Rank(r[i]) < Rank(r[j])
  {
    var detailProblems :=
      match caseDetails
      case None => [NoCaseDetails]
      case Some(d) =>
        (if Truthy(d.incidentType) then [] else [NoIncidentType])
        + (if Truthy(d.dateTime) then [] else [NoDateTime])
        + (if Truthy(d.location) then [] else [NoLocation]);
    detailProblems + (if Present(officerId) then [] else [NoOfficerId])
  }

  /** The position of each check in the validator. */
  function Rank(p: Problem): nat {
    match p
    case NoCaseDetails => 0
    case NoIncidentType => 1
    case NoDateTime => 2
    case NoLocation => 3
    case NoOfficerId => 4
  }

  /** Case details are present and name an incident type, a date and time, and
      a location. */
  predicate CaseDetailsComplete(caseDetails: Option<CaseModel.CaseData>) {
    && caseDetails.Some?
    && Truthy(caseDetails.value.incidentType)
    && Truthy(caseDetails.value.dateTime)
    && Truthy(caseDetails.value.location)
  }

  /** `validateRecordInput(req, res, next)`: with no problem the request
      continues untouched; otherwise one 400 error carries every problem's
      message, joined by ", ". */
  function ValidateRecordInput(caseDetails: Option<CaseModel.CaseData>, officerId: Option<Id>): (r: Gate)
    ensures r.Proceed? <==> CaseDetailsComplete(caseDetails) && Present(officerId)
    ensures r.Halt? ==> r.error.statusCode == Some(400) && r.error.name == PlainError
    ensures r.Halt? ==> r.error.message == Join(Texts(Problems(caseDetails, officerId)), ", ")
  {
    var problems := Problems(caseDetails, officerId);
    if |problems| == 0 then Proceed
    else Halt(ErrorHandler(Join(Texts(problems), ", "), 400))
  }

  /** A rejected request reaches the client as a 400 whose message begins with
      the first problem found. */
  lemma RejectionReachesClient(caseDetails: Option<CaseModel.CaseData>, officerId: Option<Id>)
    requires ValidateRecordInput(caseDetails, officerId).Halt?
    ensures var problems := Problems(caseDetails, officerId);
      var response := ErrorMiddleware(ValidateRecordInput(caseDetails, officerId).error);
      && response.status == 400 && !response.success
      && |Text(problems[0])| <= |response.message|
      && response.message[..|Text(problems[0])|] == Text(problems[0])
  {
    var problems := Problems(caseDetails, officerId);
    var texts := Texts(problems);
    var message := Join(texts, ", ");
    assert |texts[0]| > 0;
    assert message != "" by {
      assert |message| >= |texts[0]|;
    }
    HandlerErrorRoundTrip(message, 400);
  }

  /** With no case details at all, the only messages are the missing-details
      one and, possibly, the missing-officer one. */
  lemma MissingDetailsSkipsFieldChecks(officerId: Option<Id>)
    ensures Problems(None, officerId) ==
      if Present(officerId) then [NoCaseDetails] else [NoCaseDetails, NoOfficerId]
  {
  }
}

=== FILE: victim_model.dfy ===
/** The `Victim` model over the `victims` table. `create` may also link the
    new victim into an existing record. */
module VictimModel {
  import opened Basics
  import opened Tables
  import opened Schema
  import RecordModel

  /** A `Victim` instance: its key and the row it was read from. */
  datatype VictimObj = VictimObj(victimId: Id, row: Victim)

  /** The fields `Victim.create` reads. `recordId` is the argument's
      `victimId` field, which the model uses as the key of the record to link
      the new victim into. */
  datatype VictimData = VictimData(
    name: Option<string>,
    address: Option<string>,
    phoneNumber: Option<string>,
    email: Option<string>,
    dateOfBirth: Option<string>,
    recordId: Option<Id>)

  /** `Victim.create(data)`: inserts the victim under a fresh key and, when
      `recordId` is truthy, points that record's `victimId` at it. */
  function Create(db: Db, data: VictimData, now: Time): (r: (Db, VictimObj))
    requires db.Valid()
    ensures r.0.Valid()
    ensures r.1.victimId !in db.victims.rows
    ensures r.0.victims.rows == db.victims.rows[r.1.victimId := r.1.row]
    ensures r.1.row == Victim(data.name, data.address, data.phoneNumber, data.email,
                              data.dateOfBirth, now, now)
    ensures RecordModel.LinkedAt(db.caserecords, r.0.caserecords, data.recordId,
                                 RecordModel.VictimLink, r.1.victimId, now)
    ensures !Present(data.recordId) ==> r.0.caserecords == db.caserecords
    ensures r.0.cases == db.cases && r.0.suspects == db.suspects && r.0.evidence == db.evidence
    ensures r.0.witnesses == db.witnesses && r.0.users == db.users
  {
    var row := Victim(data.name, data.address, data.phoneNumber, data.email, data.dateOfBirth, now, now);
    var (victims, id) := Insert(db.victims, row);
    var records :=
      if Present(data.recordId)
      then RecordModel.BackFill(db.caserecords, data.recordId.value, RecordModel.VictimLink, id, now)
      else db.caserecords;
    (db.(victims := victims, caserecords := records), VictimObj(id, row))
  }

  /** `Victim.findById(id)`: the victim stored under `id`, or null. */
  function FindById(t: Table<Victim>, id: Id): (r: Option<VictimObj>)
    ensures r.None? <==> id !in t.rows
    ensures r.Some? ==> r.value.victimId == id && r.value.row == t.rows[id]
  {
    if id in t.rows then Some(VictimObj(id, t.rows[id])) else None
  }

  /** `victim.save()`: writes name, address, phone number, email and date of
      birth from the object and stamps `updatedAt`; `createdAt` and every
      other victim are kept. */
  function Save(t: Table<Victim>, obj: VictimObj, now: Time): (r: Table<Victim>)
    ensures r.next == t.next && r.rows.Keys == t.rows.Keys
    ensures obj.victimId in t.rows ==>
      r.rows[obj.victimId] == obj.row.(createdAt := t.rows[obj.victimId].createdAt, updatedAt := now)
    ensures forall k :: k in t.rows && k != obj.victimId ==> r.rows[k] == t.rows[k]
    ensures t.Valid() ==> r.Valid()
  {
    if obj.victimId in t.rows
    then Put(t, obj.victimId, obj.row.(createdAt := t.rows[obj.victimId].createdAt, updatedAt := now))
    else t
  }

  /** `Victim.deleteById(id)`: removes that victim and no other row. */
  function DeleteById(t: Table<Victim>, id: Id): (r: Table<Victim>)
    ensures FindById(r, id).None?
    ensures forall k :: k != id ==> FindById(r, k) == FindById(t, k)
    ensures t.Valid() ==> r.Valid()
  {
    Remove(t, id)
  }

  /** A created victim is found again under its key. */
  lemma CreateThenFind(db: Db, data: VictimData, now: Time)
    requires db.Valid()
    ensures var (db', v) := Create(db, data, now);
      FindById(db'.victims, v.victimId) == Some(v)
  {
  }

  /** Saving a victim as it was loaded changes only its `updatedAt`. */
  lemma SaveAfterLoad(t: Table<Victim>, id: Id, now: Time)
    requires id in t.rows
    ensures Save(t, FindById(t, id).value, now).rows[id] == t.rows[id].(updatedAt := now)
  {
  }
}

=== FILE: witness_model.dfy ===
/** The `Witness` model over the `witnesses` table. `create` may also link the
    new witness into an existing record. */
module WitnessModel {
  import opened Basics
  import opened Tables
  import opened Schema
  import RecordModel

  /** A `Witness` instance: its key and the row it was read from. */
  datatype WitnessObj = WitnessObj(witnessId: Id, row: Witness)

  /** The fields `Witness.create` reads. `recordId` is the argument's
      `witnessId` field, which the model uses as the key of the record to link
      the new witness into. */
  datatype WitnessData = WitnessData(
    name: Option<string>,
    address: Option<string>,
    phoneNumber: Option<string>,
    statement: Option<string>,
    relationToCase: Option<string>,
    recordId: Option<Id>)

  /** `Witness.create(data)` as written: inserts the witness under a fresh key
      and, when `recordId` is truthy, issues the linking `UPDATE` with the new
      witness's own key in both places, so the record it changes is the one
      whose key happens to equal the new witness key, not the one named by
      `recordId`. */
  function Create(db: Db, data: WitnessData, now: Time): (r: (Db, WitnessObj))
    requires db.Valid()
    ensures r.0.Valid()
    ensures r.1.witnessId !in db.witnesses.rows
    ensures r.0.witnesses.rows == db.witnesses.rows[r.1.witnessId := r.1.row]
    ensures r.1.row == Witness(data.name, data.address, data.phoneNumber, data.statement,
                              data.relationToCase, now, now)
    ensures RecordModel.LinkedAt(db.caserecords, r.0.caserecords,
                                 if Present(data.recordId) then Some(r.1.witnessId) else None,
                                 RecordModel.WitnessLink, r.1.witnessId, now)
    ensures !Present(data.recordId) ==> r.0.caserecords == db.caserecords
    ensures r.0.cases == db.cases && r.0.suspects == db.suspects && r.0.evidence == db.evidence
    ensures r.0.victims == db.victims && r.0.users == db.users
  {
    var row := Witness(data.name, data.address, data.phoneNumber, data.statement, data.relationToCase, now, now);
    var (witnesses, id) := Insert(db.witnesses, row);
    var records :=
      if Present(data.recordId)
      then RecordModel.BackFill(db.caserecords, id, RecordModel.WitnessLink, id, now)
      else db.caserecords;
    (db.(witnesses := witnesses, caserecords := records), WitnessObj(id, row))
  }

  /** `Witness.create(data)` as the victim, suspect and evidence models do it:
      inserts the witness under a fresh key and, when `recordId` is truthy,
      points the record named by `recordId` at it. */
  function CreateIntended(db: Db, data: WitnessData, now: Time): (r: (Db, WitnessObj))
    requires db.Valid()
    ensures r.0.Valid()
    ensures r.1.witnessId !in db.witnesses.rows
    ensures r.0.witnesses.rows == db.witnesses.rows[r.1.witnessId := r.1.row]
    ensures r.1.row == Witness(data.name, data.address, data.phoneNumber, data.statement,
                              data.relationToCase, now, now)
    ensures RecordModel.LinkedAt(db.caserecords, r.0.caserecords, data.recordId,
                                 RecordModel.WitnessLink, r.1.witnessId, now)
    ensures !Present(data.recordId) ==> r.0.caserecords == db.caserecords
    ensures r.0.cases == db.cases && r.0.suspects == db.suspects && r.0.evidence == db.evidence
    ensures r.0.victims == db.victims && r.0.users == db.users
  {
    var row := Witness(data.name, data.address, data.phoneNumber, data.statement, data.relationToCase, now, now);
    var (witnesses, id) := Insert(db.witnesses, row);
    var records :=
      if Present(data.recordId)
      then RecordModel.BackFill(db.caserecords, data.recordId.value, RecordModel.WitnessLink, id, now)
      else db.caserecords;
    (db.(witnesses := witnesses, caserecords := records), WitnessObj(id, row))
  }

  /** `Witness.findById(id)`: the witness stored under `id`, or null. */
  function FindById(t: Table<Witness>, id: Id): (r: Option<WitnessObj>)
    ensures r.None? <==> id !in t.rows
    ensures r.Some? ==> r.value.witnessId == id && r.value.row == t.rows[id]
  {
    if id in t.rows then Some(WitnessObj(id, t.rows[id])) else None
  }

  /** `witness.save()`: writes name, address, phone number, statement and
      relation to the case from the object and stamps `updatedAt`; `createdAt` and every
      other witness are kept. */
  function Save(t: Table<Witness>, obj: WitnessObj, now: Time): (r: Table<Witness>)
    ensures r.next == t.next && r.rows.Keys == t.rows.Keys
    ensures obj.witnessId in t.rows ==>
      r.rows[obj.witnessId] == obj.row.(createdAt := t.rows[obj.witnessId].createdAt, updatedAt := now)
    ensures forall k :: k in t.rows && k != obj.witnessId ==> r.rows[k] == t.rows[k]
    ensures t.Valid() ==> r.Valid()
  {
    if obj.witnessId in t.rows
    then Put(t, obj.witnessId, obj.row.(createdAt := t.rows[obj.witnessId].createdAt, updatedAt := now))
    else t
  }

  /** `Witness.deleteById(id)`: removes that witness and no other row. */
  function DeleteById(t: Table<Witness>, id: Id): (r: Table<Witness>)
    ensures FindById(r, id).None?
    ensures forall k :: k != id ==> FindById(r, k) == FindById(t, k)
    ensures t.Valid() ==> r.Valid()
  {
    Remove(t, id)
  }

  /** A created witness is found again under its key. */
  lemma CreateThenFind(db: Db, data: WitnessData, now: Time)
    requires db.Valid()
    ensures var (db', v) := Create(db, data, now);
      FindById(db'.witnesses, v.witnessId) == Some(v)
  {
  }

  /** Saving a witness as it was loaded changes only its `updatedAt`. */
  lemma SaveAfterLoad(t: Table<Witness>, id: Id, now: Time)
    requires id in t.rows
    ensures Save(t, FindById(t, id).value, now).rows[id] == t.rows[id].(updatedAt := now)
  {
  }

  /** The mis-targeted link, on a concrete database: record 1 exists, the
      witness table has handed out keys up to 4, and a witness is created for
      record 1. The record keeps its empty `witnessId`; the corrected create
      links it. */
  lemma WitnessBackFillMissesTarget()
    ensures var rec := CaseRecord(Some(1), None, None, None, None, None, None,
                                  Some(Active), Some(Pending), None, None, None, 0, 0);
      var db := Db(Table(map[], 1), Table(map[1 := rec], 2), Table(map[], 1), Table(map[], 1),
                   Table(map[], 1), Table(map[], 5), Table(map[], 1));
      var data := WitnessData(None, None, None, None, None, Some(1));
      && Create(db, data, 7).0.caserecords.rows[1].witnessId == None
      && CreateIntended(db, data, 7).0.caserecords.rows[1].witnessId == Some(5)
  {
  }

  /** For every database, the corrected create links exactly the record the
      caller named, whatever key the new witness receives. */
  lemma CreateIntendedLinksTarget(db: Db, data: WitnessData, now: Time)
    requires db.Valid()
    requires Present(data.recordId) && data.recordId.value in db.caserecords.rows
    ensures var (db', w) := CreateIntended(db, data, now);
      db'.caserecords.rows[data.recordId.value].witnessId == Some(w.witnessId)
  {
  }

  /** The as-written create links the named record only when its key equals
      the key the new witness receives, i.e. the witness table's counter. */
  lemma CreateLinksTargetOnlyByCoincidence(db: Db, data: WitnessData, now: Time)
    requires db.Valid()
    requires Present(data.recordId) && data.recordId.value in db.caserecords.rows
    requires db.caserecords.rows[data.recordId.value].witnessId == None
    ensures var (db', w) := Create(db, data, now);
      var linked := db'.caserecords.rows[data.recordId.value].witnessId == Some(w.witnessId);
      linked <==> data.recordId.value == db.witnesses.next
  {
  }
}

=== FILE: workflow.dfy ===
/** The approval workflow of a record across handlers: approve and reject
    decide a pending record once, nothing but `updateRecord` can reopen it,
    and the counters of the statistics move with each decision. */
module Workflow {
  import opened Basics
  import opened Tables
  import opened Schema
  import opened Errors
  import opened RecordQuery
  import RecordModel
  import CaseModel
  import ValidateInput
  import opened RecordController

  /** After a successful approval, neither approve nor reject succeeds on
      that record again: both answer `Record is already processed` (or, for
      a falsy reason, `Rejection reason is required`) and write nothing. */
  lemma {:induction false} ApprovedIsFinal(db: Db, id: Id, user: Principal, now: Time,
                                           other: Principal, later: Time, reason: Option<string>)
    requires ApproveRecord(db, id, user, now).1.Sent?
    ensures var db1 := ApproveRecord(db, id, user, now).0;
      && ApproveRecord(db1, id, other, later) == (db1, Next(ErrorHandler(AlreadyProcessed, 400)))
      && RejectRecord(db1, id, reason, other, later).0 == db1
      && RejectRecord(db1, id, reason, other, later).1.Next?
      && (Truthy(reason) ==> RejectRecord(db1, id, reason, other, later).1 == Next(ErrorHandler(AlreadyProcessed, 400)))
  {
    var db1 := ApproveRecord(db, id, user, now).0;
    assert db1.caserecords.rows[id].approvalStatus == Some(Approved);
    assert !AwaitingDecision(db1.caserecords.rows[id]);
  }

  /** After a successful rejection, neither approve nor reject succeeds on
      that record again, and nothing is written. */
  lemma {:induction false} RejectedIsFinal(db: Db, id: Id, reason: Option<string>, user: Principal, now: Time,
                                           other: Principal, later: Time, reason2: Option<string>)
    requires RejectRecord(db, id, reason, user, now).1.Sent?
    ensures var db1 := RejectRecord(db, id, reason, user, now).0;
      && ApproveRecord(db1, id, other, later) == (db1, Next(ErrorHandler(AlreadyProcessed, 400)))
      && RejectRecord(db1, id, reason2, other, later).0 == db1
      && RejectRecord(db1, id, reason2, other, later).1.Next?
  {
    var db1 := RejectRecord(db, id, reason, user, now).0;
    assert db1.caserecords.rows[id].approvalStatus == Some(Rejected);
    assert !AwaitingDecision(db1.caserecords.rows[id]);
  }

  /** An update body that sets `approvalStatus` to `'pending'` and leaves
      `recordId` alone; every other property may be anything. */
  predicate Reopening(patch: RecordPatch) {
    patch.approvalStatus == Some(Some(Pending)) && patch.recordId.None?
  }

  /** Such a body can carry what the router's validator demands: complete
      case details and a truthy officer id pass `validateRecordInput`, and
      the same body, merged over the record, is still a reopening one. */
  lemma RoutedReopening(details: CaseModel.CaseData, officer: Id)
    requires ValidateInput.CaseDetailsComplete(Some(details)) && officer != 0
    ensures ValidateInput.ValidateRecordInput(Some(details), Some(officer)).Proceed?
    ensures Reopening(RecordPatch(None, None, None, Some(Some(officer)), None, None, Some(Some(Pending))))
  {
  }

  /** "Decided" is final only with respect to approve and reject: an update
      whose body carries `approvalStatus: 'pending'` puts a decided record
      back in the queue, and it can then be approved again. */
  lemma {:induction false} UpdateReopensDecided(db: Db, id: Id, patch: RecordPatch, now: Time, user: Principal, later: Time)
    requires id in db.caserecords.rows && Reopening(patch)
    ensures var db1 := UpdateRecord(db, id, patch, now).0;
      && db1.caserecords.rows[id].approvalStatus == Some(Pending)
      && ApproveRecord(db1, id, user, later).1 == Sent(200, Message(ApprovedMessage))
  {
    var db1 := UpdateRecord(db, id, patch, now).0;
    assert SaveTarget(id, patch) == Some(id);
    assert AwaitingDecision(db1.caserecords.rows[id]);
  }

  /** Every record a manual insertion, `Case.create` or the main step of the
      composite create writes starts out awaiting a decision. */
  lemma ManualRecordAwaitsDecision(body: ManualBody, now: Time)
    ensures AwaitingDecision(ManualRow(body, now))
  {
  }

  lemma OpeningRecordAwaitsDecision(caseId: Id, data: CaseModel.CaseData, now: Time)
    ensures AwaitingDecision(CaseModel.OpeningRecord(caseId, data, now))
  {
  }

  /** A record written by `Record.create` awaits a decision exactly when
      the requested approval status is falsy or `'pending'`. */
  lemma NewRowAwaitsDecision(data: RecordModel.RecordData, now: Time)
    ensures AwaitingDecision(RecordModel.NewRow(data, now)) <==>
      !Truthy(data.approvalStatus) || data.approvalStatus == Some(Pending)
  {
  }

  /** The audit columns agree with the verdict: a rejection reason only on a
      rejected record, and an approval date and approver exactly on decided
      ones. */
  predicate AuditConsistent(row: CaseRecord) {
    && (row.rejectionReason.Some? ==> row.approvalStatus == Some(Rejected))
    && (row.approvalDate.Some? <==> row.approvalStatus == Some(Approved) || row.approvalStatus == Some(Rejected))
    && (row.approvedBy.Some? <==> row.approvalDate.Some?)
  }

  /** Approving keeps the audit columns of a consistent record consistent. */
  lemma ApproveKeepsAudit(db: Db, id: Id, user: Principal, now: Time)
    requires id in db.caserecords.rows && AuditConsistent(db.caserecords.rows[id])
    ensures AuditConsistent(ApproveRecord(db, id, user, now).0.caserecords.rows[id])
  {
  }

  /** Rejecting keeps the audit columns of a record consistent. */
  lemma RejectKeepsAudit(db: Db, id: Id, reason: Option<string>, user: Principal, now: Time)
    requires id in db.caserecords.rows && AuditConsistent(db.caserecords.rows[id])
    ensures AuditConsistent(RejectRecord(db, id, reason, user, now).0.caserecords.rows[id])
  {
  }

  /** Reopening through `updateRecord` leaves a pending record that still
      carries an approver and an approval date. */
  lemma {:induction false} ReopenBreaksAudit(db: Db, id: Id, user: Principal, now: Time, patch: RecordPatch, later: Time)
    requires ApproveRecord(db, id, user, now).1.Sent? && Reopening(patch)
    ensures var db1 := ApproveRecord(db, id, user, now).0;
      var db2 := UpdateRecord(db1, id, patch, later).0;
      !AuditConsistent(db2.caserecords.rows[id])
  {
    var db1 := ApproveRecord(db, id, user, now).0;
    var db2 := UpdateRecord(db1, id, patch, later).0;
    assert SaveTarget(id, patch) == Some(id);
    assert db2.caserecords.rows[id].approvalDate == Some(now);
  }

  /** Approving a record stored as `'pending'` moves one record from the
      pending count to the approved count and leaves the total alone. */
  lemma {:induction false} ApproveMovesCounts(db: Db, id: Id, user: Principal, now: Time)
    requires id in db.caserecords.rows && db.caserecords.rows[id].approvalStatus == Some(Pending)
    ensures var before := StatsOf(db.caserecords.rows);
      var after := StatsOf(ApproveRecord(db, id, user, now).0.caserecords.rows);
      && after.totalRecords == before.totalRecords
      && after.pendingApprovals == before.pendingApprovals - 1
      && after.approvedRecords == before.approvedRecords + 1
      && after.rejectedRecords == before.rejectedRecords
  {
    var rows := db.caserecords.rows;
    var row := rows[id];
    assert ApproveRecord(db, id, user, now).0.caserecords.rows == rows[id := Decide(row, Approved, row.rejectionReason, user, now)];
    VerdictMovesCounts(rows, id, Decide(row, Approved, row.rejectionReason, user, now));
  }

  /** Replacing a stored row that is `'pending'` by an approved one. */
  lemma VerdictMovesCounts(rows: map<Id, CaseRecord>, id: Id, row: CaseRecord)
    requires id in rows && rows[id].approvalStatus == Some(Pending)
    requires row.approvalStatus == Some(Approved)
    ensures |rows[id := row]| == |rows|
    ensures CountWhere(rows[id := row], ApprovalIs(Pending)) == CountWhere(rows, ApprovalIs(Pending)) - 1
    ensures CountWhere(rows[id := row], ApprovalIs(Approved)) == CountWhere(rows, ApprovalIs(Approved)) + 1
    ensures CountWhere(rows[id := row], ApprovalIs(Rejected)) == CountWhere(rows, ApprovalIs(Rejected))
  {
    var rows1 := rows[id := row];
    assert rows1.Keys == rows.Keys;
    assert KeysWhere(rows1, ApprovalIs(Pending)) == KeysWhere(rows, ApprovalIs(Pending)) - {id};
    assert KeysWhere(rows1, ApprovalIs(Approved)) == KeysWhere(rows, ApprovalIs(Approved)) + {id};
    assert KeysWhere(rows1, ApprovalIs(Rejected)) == KeysWhere(rows, ApprovalIs(Rejected));
  }

  /** A record whose approval column is NULL passes the approval guard yet
      is not among the pending approvals the statistics count. */
  lemma NullApprovalIsApprovableButUncounted(row: CaseRecord)
    requires row.approvalStatus.None?
    ensures AwaitingDecision(row) && !ApprovalIs(Pending)(row)
  {
  }
}
